=== FILE: README.md ===
# Bread.Media pipeline bookkeeping, in Dafny

Bread.Media is a C# media pipeline built on FFmpeg. Readers open a source,
decode packets into pooled samples and post them to listeners. Encoders,
sinkers and sessions queue those samples and consume them in worker cycles.
The decoding, encoding and muxing are native FFmpeg calls. Around those calls
sits sequential, integer-valued bookkeeping, and this project models that
bookkeeping:

- the reference-counted bounded pool (`Pool<T>`, `Pooled<T>`) and the audio
  and video sample pools;
- the worker lifecycle (`WorkerBase`) and its two drivers: a thread per
  worker (`MediaWorker`) and a shared timer thread (`ShareThreadWorker`);
- listener fan-out (`Post`) and the bounded admission rules of every
  `QueueEvent`;
- the paced drains of the source readers and their retry and back-pressure
  policy;
- the byte and sample arithmetic inside the codec wrappers. This covers the
  audio chunker, the stereo de-interleave, the pts counters, packet
  timestamping, hardware-device choice, packet routing, PCM channel
  extraction with its leftover buffer, and FFmpeg log-line assembly;
- the lookup tables for file extensions, strides and plane heights, and
  sample widths.

Every native call is an oracle parameter: a boolean, a sequence of answers,
or a function from an attempt number to an answer. A C# exception is the
`Throw` case of `Common.Outcome`. Operations are pure functions over
immutable records. The algorithms with loops are methods: the paced drain
(`Pacing.PostSamples`), listener fan-out (`Transport.Post`), the audio
chunker and the decode loop around it (`AudioDecoders.CutChunks`,
`AudioDecoders.Decode`), the stereo de-interleave (`AudioEncoding.FillBuffer`)
and the channel extraction (`PcmReading.DecodeInto`). `AudioDecoders.ConvertFrame`,
`PcmReading.BeginRead` and `PcmReading.ReadData` are methods too, because they
call those loops.

Where the code's own documentation comments and the code differ, the model
follows the code:

- The pool's ceiling test is strict (`total > max`). A pool therefore grows
  to `max + capacity`, not to the maximum size documented at `Pool.cs:22`.
- A real-time drain posts its first sample at once, because the clock starts
  at 0, rather than reading by the system time as `SourceReader.cs:13`
  documents. An elapsed time of `k·D + e` therefore posts `k + 1` samples.
- `DeInitialize` does not clear the encoder's initialised flag. After a lost
  or hung device the encoder is never re-initialised, although `Encoder.cs:24`
  documents re-initialising after a lost device (see Findings).
- An over-released pooled handle goes back to the pool, because its count is
  reset to 1 on return; `Pooled.cs:55` documents a return only when the count
  reaches zero.
- The `FFSinker` constructor keeps the format context only when a stream
  initialised. `Start` frees it on failure without clearing it (see
  Findings).

Integers are unbounded. Where C# truncating division matters (plane heights,
the wrapper sample count), it is written out as `Common.TruncDiv`.

## Model

| member | source | states |
|---|---|---|
| Common.RemoveFirst | src/Bread.Media/Threading/MediaWorker.cs:37-42 | `List.Remove` drops exactly one occurrence: the input is unchanged when the element is absent, one element shorter otherwise, and the multiset loses exactly that element |
| Common.TruncDiv | src/Bread.Media/Common/Data/VideoInfo.cs:135-136 | C# `/` on `int`: the quotient times the divisor plus the truncating remainder gives back the dividend, and on non-negative operands it is ordinary division |
| Common.TruncRem | src/Bread.Media/Common/Data/VideoInfo.cs:135-136 | the remainder that goes with C# `/` has the dividend's sign and is smaller than the divisor in magnitude |
| Common.IndexOf | src/Bread.Media/Threading/MediaWorker.cs:37-42 | the first index at which the element occurs: it holds the element and no earlier index does |
| Common.LowerChar | src/Bread.Media/Common/Data/FileType.cs:47 | `ToLower` on one character, in a culture that folds ASCII to ASCII: an ASCII capital moves to its small letter and nothing else changes; no capital remains |
| Common.Lower | src/Bread.Media/Common/Data/FileType.cs:47 | `ToLower` on a string, in the same assumed culture: the same length, with every character folded as LowerChar folds it |
| Common.LowerIdempotent | src/Bread.Media/Common/Data/FileType.cs:47 | lower-casing an already lower-cased string changes nothing |
| Common.TrimEnd | src/Bread.Media/FFmpeg/FFInterop.cs:268 | `string.TrimEnd()`: the result is a prefix of the input that does not end in white space, and every character dropped is white space (the C# set) |
| Common.WideSpaceIsWhiteSpace | src/Bread.Media/FFmpeg/FFInterop.cs:268 | an ideographic space and a line separator are blank, and trailing ideographic and mathematical spaces are trimmed like an ASCII space |
| Common.RemoveFirstCutsAtFirstOccurrence | src/Bread.Media/Threading/MediaWorker.cs:37-42 | removing a listener cuts the list at its first occurrence and keeps every other listener in order |
| AudioFormats.GetBitsPerSample | src/Bread.Media/Common/Data/AudioInfo.cs:50-54 | 32 bits for Float32 and SInt32, 16 for SInt16; every format without a fixed-length sample (None, AAC, MP3) raises InvalidOperation, and only those |
| AudioFormats.GetBytesPerSample | src/Bread.Media/Common/Data/AudioInfo.cs:56-60 | 4 bytes for Float32 and SInt32, 2 for SInt16; raises InvalidOperation exactly on the other formats |
| AudioFormats.ToAVFormat | src/Bread.Media/Common/Data/AudioInfo.cs:62-67 | succeeds exactly on the fixed-length formats and yields FLT, S32 or S16; raises InvalidOperation otherwise |
| AudioFormats.ToAudioSampleFormat | src/Bread.Media/Common/Data/AudioInfo.cs:70-75 | succeeds exactly on FLT, S32 and S16 and yields a fixed-length format; any other FFmpeg code, planar ones included, raises InvalidOperation |
| AudioFormats.BitsAreEightTimesBytes | src/Bread.Media/Common/Data/AudioInfo.cs:50-60 | the two width helpers accept the same formats, and bits are eight times bytes on each of them |
| AudioFormats.FormatRoundTrip | src/Bread.Media/Common/Data/AudioInfo.cs:62-75 | the two conversions are inverse in both directions on the three fixed-length formats |
| VideoFormats.GetDefaultStride | src/Bread.Media/Common/Data/VideoInfo.cs:112-127 | the stride is 4w for ARGB32 and RGB32, w for NV12 and YV12, and 2w for YUY2. The RGB24 stride is divisible by 4 and lies in [3w, 3w+4). Every other format has stride 0 |
| VideoFormats.GetDefaultPlaneHeight | src/Bread.Media/Common/Data/VideoInfo.cs:129-142 | plane 1 is the full height. Plane 2 is h/2 for NV12 and h/4 for YV12. Plane 3 is h/4 for YV12 only. Every other plane is 0, and no plane is taller than the frame |
| FileTypes.GetExtensions | src/Bread.Media/Common/Data/FileType.cs:21-30 | five extensions, each of which the image lookup maps to a format other than None |
| FileTypes.GetImageExtension | src/Bread.Media/Common/Data/FileType.cs:15-19 | the empty string exactly for None; otherwise a dot followed by the lower-cased format name (in the assumed culture) |
| FileTypes.GetVideoExtension | src/Bread.Media/Common/Data/FileType.cs:75-79 | the empty string exactly for None; otherwise a dot followed by the lower-cased format name |
| FileTypes.GetAudioExtension | src/Bread.Media/Common/Data/FileType.cs:119-123 | the empty string exactly for None; otherwise a dot followed by the lower-cased format name |
| FileTypes.GetImageFileFormat | src/Bread.Media/Common/Data/FileType.cs:44-61 | not None exactly when the extension, lower-cased in the assumed culture, is one of the five image extensions. JPG answers both `.jpg` and `.jpeg`, the lookup never yields JPEG, and the empty string gives None |
| FileTypes.GetVideoFileFormat | src/Bread.Media/Common/Data/FileType.cs:93-104 | not None exactly for `.mp4`, `.mkv` and `.mov` in any letter case; the empty string gives None |
| FileTypes.GetAudioFileFormat | src/Bread.Media/Common/Data/FileType.cs:137-154 | not None exactly for `.mp3`, `.wav`, `.aac`, `.ape` and `.flac` in any letter case; the empty string gives None |
| FileTypes.LookupIgnoresCase | src/Bread.Media/Common/Data/FileType.cs:46-47 | each of the three lookups gives the same answer for an extension and its lower-cased form |
| FileTypes.VideoRoundTrip | src/Bread.Media/Common/Data/FileType.cs:75-104 | looking up the extension of any video format other than None gives that format back |
| FileTypes.AudioRoundTrip | src/Bread.Media/Common/Data/FileType.cs:119-154 | looking up the extension of any audio format other than None gives that format back |
| FileTypes.ImageRoundTrip | src/Bread.Media/Common/Data/FileType.cs:15-61 | in the assumed culture, the image round trip holds for every format except None and JPEG; JPEG's extension maps back to JPG |
| FileTypes.IsImageFileMatchesExtensionList | src/Bread.Media/Common/Data/FileType.cs:21-42 | an extension is an image file exactly when its lower-cased form is in the advertised extension list |
| Samples.NewAudioSample | src/Bread.Media/Sample/AudioSample.cs:33-52 | a zero sample count, channel count or rate raises InvalidArgument. A format of variable width raises InvalidOperation, and a failed allocation raises OutOfMemory. Otherwise DataLength is count·channels·bytes and the buffer is larger by 128 samples |
| Samples.WrapAudioSample | src/Bread.Media/Sample/AudioSample.cs:54-66 | a wrapper has DataLength equal to BufferLength equal to the given length. Its sample count is length / bytes / channels. A variable-width format raises InvalidOperation and zero channels raise DivideByZero |
| Samples.Lock | src/Bread.Media/Sample/AudioSample.cs:75-80 | raises ObjectDisposed exactly on a disposed sample |
| Samples.Unlock | src/Bread.Media/Sample/AudioSample.cs:86-101 | raises on a disposed sample or a length past the buffer. A positive length sets DataLength and recomputes the sample count. A zero length changes nothing |
| Samples.DisposeAudio | src/Bread.Media/Sample/AudioSample.cs:111-121 | frees the buffer only for an undisposed, non-wrapper sample that owns one; a disposed sample is unchanged |
| Samples.FullUnlockKeepsCount | src/Bread.Media/Sample/AudioSample.cs:42-47 | unlocking a fresh sample to its full DataLength keeps its sample count |
| Samples.WrapperAgreesWithUnlock | src/Bread.Media/Sample/AudioSample.cs:60-65 | the wrapper constructor's sample count is the one `Unlock` computes for the same length |
| Samples.AudioFreedAtMostOnce | src/Bread.Media/Sample/AudioSample.cs:111-121 | any number of disposals frees the buffer at most once, and never frees a wrapper's buffer |
| Samples.StaysDisposed | src/Bread.Media/Sample/AudioSample.cs:113-114 | disposing a disposed sample again changes nothing |
| Samples.NewVideoSample | src/Bread.Media/Sample/Video/VideoSample.cs:16-21 | the buffer length is the stride times the plane-1 height: 4wh for the 32-bit formats, a 4-byte-aligned RGB24 row per line, and 0 for compressed formats |
| Samples.DisposeVideo | src/Bread.Media/Sample/Video/VideoSample.cs:40-48 | frees the buffer once and drops it, so a second dispose frees nothing |
| Samples.VideoDisposeIdempotent | src/Bread.Media/Sample/Video/VideoSample.cs:44-47 | disposing twice is disposing once, and frees at most one buffer |
| Pooling.NewPool | src/Bread.Media/Common/Core/Pool.cs:23-28 | a new pool is empty, with nothing allocated and not disposed, and keeps the given capacity and ceiling |
| Pooling.DefaultPoolShape | src/Bread.Media/Common/Core/Pool.cs:23-28 | the defaults are capacity 3 and ceiling 100 |
| Pooling.Allocate | src/Bread.Media/Sample/AudioSample.cs:146-161 | each item made adds one handle with refcount 1, indexed by the running total, and goes to the free collection. The batch succeeds iff all `capacity` items were made |
| Pooling.TakeLast | src/Bread.Media/Common/Core/Pool.cs:47-49 | takes one free item: the free multiset loses exactly the item returned |
| Pooling.Get | src/Bread.Media/Common/Core/Pool.cs:41-58 | a disposed pool returns null and changes nothing. A free item is taken first. Null is returned only past the strict ceiling, and a failed batch raises InvalidProgram. The total grows only when it was within the ceiling |
| Pooling.GetFresh | src/Bread.Media/Common/Core/Pool.cs:51-57 | on an empty pool below the ceiling a full batch hands out one of its new items; a short batch raises InvalidProgram. The total grows by the batch either way, and the invariant is kept |
| Pooling.GetKeepsInvariant | src/Bread.Media/Common/Core/Pool.cs:41-58 | every `Get` keeps the pool invariant, and an item it hands out names an existing handle |
| Pooling.Return | src/Bread.Media/Common/Core/Pool.cs:65-81 | accepted iff the pool is not disposed and not (ceiling set and free count > capacity). Acceptance appends the item; rejection decrements the total. The free collection never grows past capacity + 1 |
| Pooling.Clone | src/Bread.Media/Common/Core/Pooled.cs:38-44 | always increments the count, and raises ObjectDisposed exactly when the count was 0 |
| Pooling.Detach | src/Bread.Media/Common/Core/Pooled.cs:46-49 | only clears the handle's pool reference |
| Pooling.Dispose | src/Bread.Media/Common/Core/Pooled.cs:57-77 | a disposed payload is a no-op, and a count going below 0 raises ObjectDisposed. A count left above 0 changes nothing else. At 0, an accepting pool takes the handle back; otherwise the payload is disposed exactly once. The invariant is kept |
| Pooling.DrainStep | src/Bread.Media/Common/Core/Pool.cs:86-92 | one step of pool disposal: takes the last free item and detaches and disposes it |
| Pooling.DrainFree | src/Bread.Media/Common/Core/Pool.cs:86-92 | empties the free collection and detaches every item that was in it |
| Pooling.DisposePool | src/Bread.Media/Common/Core/Pool.cs:84-93 | idempotent. It empties and detaches the free collection, sets the disposed flag, and leaves the total unchanged |
| Pooling.Apply | src/Bread.Media/Common/Core/Pool.cs:41-93 | every pool or handle operation keeps the pool invariant. The invariant covers the bounded total, the free collection and live counts, each payload freed at most once, and a disposed pool holding nothing |
| Pooling.RunKeepsInvariant | src/Bread.Media/Common/Core/Pool.cs:51-57 | over any operation sequence the invariant holds and the total never exceeds ceiling + capacity |
| Pooling.NewPoolInvariant | src/Bread.Media/Common/Core/Pool.cs:23-28 | a new pool satisfies the invariant |
| Pooling.CloneRaisesOnlyWhenReleased | src/Bread.Media/Common/Core/Pooled.cs:38-44 | under the invariant, cloning raises only on a handle whose payload was disposed |
| Pooling.StrictCeilingAdmitsExtraBatch | src/Bread.Media/Common/Core/Pool.cs:51-57 | with capacity 2 and ceiling 4, the pool allocates a third batch at total 4 and reaches 6 |
| Pooling.OverReleaseReentersPool | src/Bread.Media/Common/Core/Pooled.cs:66-71 | a handle disposed once more than it was taken goes back to the free collection a second time |
| SamplePools.AudioBatch | src/Bread.Media/Sample/AudioSample.cs:146-161 | the batch holds the samples made before the first failed construction, in order |
| SamplePools.AudioBatchComplete | src/Bread.Media/Sample/AudioSample.cs:146-161 | a batch is complete iff the arguments are valid and every allocation succeeds |
| SamplePools.NewAudioSamplePool | src/Bread.Media/Sample/AudioSample.cs:132-143 | construction succeeds iff the first batch is complete, and otherwise raises InvalidProgram. The pool has capacity 12 and ceiling 100 and holds 12 free samples indexed 0..11 |
| SamplePools.GetAudio | src/Bread.Media/Sample/AudioSample.cs:146-161 | a Get on the audio pool keeps the invariant and raises only with the free collection empty and a batch that failed |
| SamplePools.VideoBatch | src/Bread.Media/Sample/Video/VideoSample.cs:70-85 | a video batch holds one sample per allocation answer, each built with the pool's width, height and format |
| SamplePools.NewVideoSamplePool | src/Bread.Media/Sample/Video/VideoSample.cs:58-68 | the pool has capacity 6 and ceiling 100 and starts with 6 free samples indexed 0..5 |
| SamplePools.GetVideo | src/Bread.Media/Sample/Video/VideoSample.cs:70-85 | a Get on the video pool never raises and keeps the invariant |
| Workers.StartAsync | src/Bread.Media/Threading/WorkerBase.cs:51-67 | does nothing when disposed, disposing, Running or Stopped. Otherwise it only sets DesiredState to Running, and State never changes |
| Workers.ResumeAsync | src/Bread.Media/Threading/WorkerBase.cs:88-103 | behaves as StartAsync |
| Workers.PauseAsync | src/Bread.Media/Threading/WorkerBase.cs:70-85 | sets DesiredState to Paused iff the worker is Running and not disposed or disposing; otherwise nothing changes |
| Workers.StopAsync | src/Bread.Media/Threading/WorkerBase.cs:106-125 | from Created, sets State to Stopped at once. From Stopped it does nothing. From Running or Paused it sets DesiredState to Stopped and cancels |
| Workers.MarkAsStop | src/Bread.Media/Threading/WorkerBase.cs:173-178 | sets only DesiredState to Stopped |
| Workers.TryBeginCycle | src/Bread.Media/Threading/WorkerBase.cs:184-210 | a Stopped worker calls no hook. Start is called iff Created with Running desired, and a failed Start forces Stopped. Stop is called iff Stopped is desired. State becomes DesiredState, and the cycle begins iff that is not Stopped |
| Workers.ExecuteCycle | src/Bread.Media/Threading/WorkerBase.cs:215-237 | the logic runs iff the worker is Running and its hint is returned. Otherwise the default time is returned. A throw requests Stopped and returns 0 |
| Workers.Dispose | src/Bread.Media/Threading/WorkerBase.cs:281-299 | a no-op when already disposed; otherwise it stops the worker and ends disposed and not disposing |
| Workers.Apply | src/Bread.Media/Threading/WorkerBase.cs:51-237 | only a cycle begin changes State, except StopAsync or Dispose from Created, which go to Stopped |
| Workers.StoppedIsTerminal | src/Bread.Media/Threading/WorkerBase.cs:186-189 | no sequence of control calls, cycles or disposal moves a worker out of Stopped |
| Workers.ControlCallsKeepState | src/Bread.Media/Threading/WorkerBase.cs:51-125 | once past Created, control calls and cycles never change State without a cycle begin |
| Workers.StartThenBegin | src/Bread.Media/Threading/WorkerBase.cs:191-209 | StartAsync followed by a cycle begin runs iff Start succeeds; otherwise the worker ends Stopped |
| Workers.ThrowStopsAtNextBegin | src/Bread.Media/Threading/WorkerBase.cs:228-233 | a throwing cycle makes the next cycle begin stop the worker |
| Drivers.DriverTick | src/Bread.Media/Threading/MediaWorker.cs:76-100 | one loop turn exits iff the worker ends Stopped. A declined begin waits 20, a run waits the cycle's hint, and it sleeps only for a positive wait |
| Drivers.DeclinedCycleEndsLoop | src/Bread.Media/Threading/MediaWorker.cs:84-92 | when the cycle begin is declined, the loop exits |
| Drivers.PausedWorkerPolls | src/Bread.Media/Threading/MediaWorker.cs:84-100 | a paused worker sleeps the default 20 each turn without running its logic |
| Drivers.QuantumTick | src/Bread.Media/Threading/ShareThreadWorker.cs:35-41 | a quantum runs the cycle with default 20 only when the cycle begin succeeds |
| Drivers.NewTimer | src/Bread.Media/Threading/ShareThreadWorker.cs:85-89 | a new timer is only queued for addition, not registered |
| Drivers.DisposeTimer | src/Bread.Media/Threading/ShareThreadWorker.cs:121-127 | always sets the running and disposing flags, and queues the removal only on the first call |
| Drivers.FinishCallback | src/Bread.Media/Threading/ShareThreadWorker.cs:152-158 | clears the running flag after a callback and keeps the disposing flag |
| Drivers.Dispatch | src/Bread.Media/Threading/ShareThreadWorker.cs:145-151 | dispatches exactly the listed timers that are neither running nor disposing, and marks them running |
| Drivers.RemoveAll | src/Bread.Media/Threading/ShareThreadWorker.cs:160-166 | drains the removals: the registered multiset loses exactly the removed timers |
| Drivers.SchedulerTick | src/Bread.Media/Threading/ShareThreadWorker.cs:133-167 | a tick dispatches exactly the idle registered timers, then drains additions, then removals. It empties both queues and resets the tick counter at 60 |
| Drivers.AddedTimerRunsNextTick | src/Bread.Media/Threading/ShareThreadWorker.cs:145-166 | a timer added before a tick is not dispatched in that tick but is in the next |
| Drivers.AddedAndDisposedIsNeverRegistered | src/Bread.Media/Threading/ShareThreadWorker.cs:121-166 | a timer created and disposed before the same drain is never registered or dispatched |
| Drivers.DisposedTimerNotDispatched | src/Bread.Media/Threading/ShareThreadWorker.cs:123-126 | a disposed timer is never dispatched, even after its last callback finishes |
| Drivers.DisposeTimerTwiceQueuesOnce | src/Bread.Media/Threading/ShareThreadWorker.cs:121-127 | disposing a timer twice queues one removal |
| Transport.ConnectTo | src/Bread.Media/Threading/MediaWorker.cs:30-35 | appends the listener and keeps the others in order |
| Transport.Disconnect | src/Bread.Media/Threading/MediaWorker.cs:37-42 | removes the first occurrence of the listener and keeps the rest in order |
| Transport.ConnectThenDisconnect | src/Bread.Media/Threading/MediaWorker.cs:30-42 | connecting a new listener and disconnecting it restores the list |
| Transport.Post | src/Bread.Media/Threading/MediaWorker.cs:44-62 | calls every listener of the snapshot in order without short-circuiting. It returns true iff one accepted, so an empty list gives false. List edits made by callbacks do not change which listeners were called |
| Transport.OnDisposing | src/Bread.Media/Threading/MediaWorker.cs:64-69 | empties the listener list |
| Decoders.Enqueue | src/Bread.Media/Decoder/FFAudioDecoder.cs:155 | appends a sample and keeps the queue's first-in, first-out accounting |
| Decoders.GetSample | src/Bread.Media/Decoder/Decoder.cs:38-44 | returns null on an empty queue and otherwise dequeues the oldest sample |
| Decoders.Flush | src/Bread.Media/Decoder/Decoder.cs:49-54 | releases every queued sample in order and leaves the queue empty |
| Decoders.Dispose | src/Bread.Media/Decoder/Decoder.cs:57-80 | releases every queued sample on the first call only |
| Decoders.DisposeOnce | src/Bread.Media/Decoder/Decoder.cs:73-80 | disposing twice is disposing once |
| Decoders.TakeMany | src/Bread.Media/Decoder/Decoder.cs:38-44 | k calls of GetSample yield the k oldest samples in order |
| Events.Ceiling | src/Bread.Media/Encoder/Encoder.cs:39-48 | the video ceiling is 6 and the audio ceiling is 12; samples of other kinds are not bounded |
| Encoders.NewEncoder | src/Bread.Media/Encoder/Encoder.cs:18-24 | a new encoder has an empty queue and no retries. It starts initialised exactly when it is a video encoder whose constructor's `Initialize` succeeded (FFVideoEncoder.cs:29 and :141); the audio constructor's call (FFAudioEncoder.cs:18) never sets the flag |
| Encoders.QueueEvent | src/Bread.Media/Encoder/Encoder.cs:36-51 | accepts a pooled sample of its kind below the ceiling by enqueueing a clone. Anything else is rejected unchanged. A failed clone raises. The queue stays within the ceiling and every clone is accounted for |
| Encoders.QueueingKeepsCeiling | src/Bread.Media/Encoder/Encoder.cs:36-51 | over any run of `QueueEvent` calls a bounded encoder's queue stays within its ceiling |
| Encoders.QueueFillsToCeiling | src/Bread.Media/Encoder/Encoder.cs:39-47 | a run of samples of the encoder's own bounded kind fills the queue up to the ceiling and refuses every one past it |
| Encoders.DeviceFaultAsWritten | src/Bread.Media/Encoder/FFVideoEncoder.cs:170-177 | de-initialising after a device fault leaves the initialised flag as it was |
| Encoders.DeviceFault | src/Bread.Media/Encoder/FFVideoEncoder.cs:170-177 | corrected: de-initialising clears the initialised flag |
| Encoders.CycleWith | src/Bread.Media/Encoder/Encoder.cs:63-131 | under either teardown: returns 0 when cancelled and 5 with an empty queue. More than 10 failed inits raise. A failed init returns 20, counts a retry and de-initialises. A failed encode keeps the head and returns 10; a device fault also de-initialises. Success releases exactly the head and returns 0. Reaching the encode step resets the count. After a 10 the flag is set unless the corrected teardown ran on a device fault |
| Encoders.CycleAsWritten | src/Bread.Media/Encoder/Encoder.cs:63-131 | as written: the same waits, retry budget and queue accounting, and after any 10, device faults included, the encoder still counts as initialised |
| Encoders.Cycle | src/Bread.Media/Encoder/Encoder.cs:63-131 | corrected: the same waits, retry budget and queue accounting, and after a 10 the encoder counts as initialised exactly when the encode did not report a lost or hung device |
| Encoders.DeviceLostNeverReinitialises | src/Bread.Media/Encoder/Encoder.cs:96-102 | as written, a lost device leaves the encoder marked initialised, so the next cycle encodes without re-initialising |
| Encoders.DeviceLostReinitialises | src/Bread.Media/Encoder/Encoder.cs:71-84 | corrected: after a lost device the next cycle initialises again |
| Encoders.RetryBudget | src/Bread.Media/Encoder/Encoder.cs:71-84 | under either teardown, k consecutive failed inits within the budget count k retries and k de-initialisations |
| Encoders.RetryBudgetSpent | src/Bread.Media/Encoder/Encoder.cs:72-75 | under either teardown, after 11 failed inits the next cycle raises InvalidOperation |
| Encoders.AsLogic | src/Bread.Media/Threading/WorkerBase.cs:224-236 | a raised fault becomes a throwing cycle and a wait becomes the cycle's hint |
| Encoders.SpentBudgetStopsWorker | src/Bread.Media/Threading/WorkerBase.cs:228-233 | under either teardown, a spent retry budget makes the worker request Stopped and return 0 |
| Encoders.OnDisposing | src/Bread.Media/Encoder/Encoder.cs:133-145 | releases every queued sample and empties the queue |
| Encoders.DisposedEncoderReleasedEverything | src/Bread.Media/Encoder/Encoder.cs:133-145 | after disposal every clone the encoder took has been released exactly once |
| Sinkers.PacketCeiling | src/Bread.Media/Sinker/Sinker.cs:61-71 | audio packets use the audio ceiling and video packets the video ceiling |
| Sinkers.QueueEvent | src/Bread.Media/Sinker/Sinker.cs:58-74 | accepts a packet iff the queue is below its kind's ceiling, enqueuing it as-is without a clone. Anything else is rejected unchanged |
| Sinkers.QueueStaysBounded | src/Bread.Media/Sinker/Sinker.cs:61-71 | the queue never passes 12, and an accepted video packet never leaves it above 6 |
| Sinkers.Cycle | src/Bread.Media/Sinker/Sinker.cs:27-56 | an empty queue or a failed Process keeps the head and returns 10; success disposes exactly the head and returns 0 |
| Sinkers.Drain | src/Bread.Media/Sinker/Sinker.cs:43-53 | k successful cycles dispose the k oldest packets in order |
| Sinkers.OnDisposing | src/Bread.Media/Sinker/Sinker.cs:76-85 | disposes every queued packet; overall every accepted packet is disposed exactly once |
| Pacing.Drain | src/Bread.Media/Source/SourceReader.cs:175-205 | a drain posts a prefix of the queue and releases the accepted samples. The rest of the queue is left for later, and at most one rejected post is made |
| Pacing.DrainClock | src/Bread.Media/Source/SourceReader.cs:175-205 | after k accepted posts the clock has advanced by the first k durations |
| Pacing.DrainStopsAtFirstStop | src/Bread.Media/Source/SourceReader.cs:178-204 | the drain stops at the first sample that is rejected, that is past the elapsed time in real time, or at the queue's end |
| Pacing.DrainRefusalPost | src/Bread.Media/Source/SourceReader.cs:185-190 | a rejected post keeps the head and the clock, and is the last post of the drain |
| Pacing.DrainPosts | src/Bread.Media/Source/SourceReader.cs:178-204 | the i-th post stamps the i-th queued sample with the clock after the i previous durations |
| Pacing.StopsAtShift | src/Bread.Media/Source/SourceReader.cs:178-204 | past an accepted head, stopping after k + 1 samples is the same as the tail's drain stopping after k |
| Pacing.FirstStopIsUnique | src/Bread.Media/Source/SourceReader.cs:178-204 | the stopping point of a drain is well defined |
| Pacing.PostSamples | src/Bread.Media/Source/SourceReader.cs:175-236 | the drain loop computes exactly the reference drain: the same posts, clock, remaining queue and releases |
| Pacing.NominalClock | src/Bread.Media/Source/SourceReader.cs:193-196 | with a fixed nominal duration D the clock after k posts is start + k·D |
| Pacing.ClockIncreases | src/Bread.Media/Source/AudioReader.cs:143-150 | with positive durations the stamps strictly increase |
| Pacing.RealTimeGate | src/Bread.Media/Source/SourceReader.cs:178-181 | in real time nothing is posted until the elapsed time passes the clock. Once it does, an accepting listener gets at least one sample |
| Readers.RetryOpen | src/Bread.Media/Source/SourceReader.cs:113-128 | an unopened local source stops, and so does a network source past 20 tries. Otherwise it counts one try and waits 20 if the open succeeded, else 200 |
| Readers.RetriesCount | src/Bread.Media/Source/SourceReader.cs:113-128 | n failed opens within the budget count n tries |
| Readers.RetriesThenGivesUp | src/Bread.Media/Source/SourceReader.cs:116-119 | a failing network source stops after exactly 21 tries |
| Readers.DrainBoth | src/Bread.Media/Source/SourceReader.cs:175-205 | drains audio before video, each with its own clock and its own listener answers, and keeps the sample accounting |
| Readers.Nominal | src/Bread.Media/Source/SourceReader.cs:64-66 | every video or audio sample of a source reader has the same nominal duration |
| Readers.DrainBothClocks | src/Bread.Media/Source/SourceReader.cs:193-196 | each clock advances by its nominal duration times the samples that stream posted |
| Readers.StartReader | src/Bread.Media/Source/SourceReader.cs:101-109 | Start opens the source when needed and resets the start time; the queues are kept |
| Readers.Started | src/Bread.Media/Source/SourceReader.cs:131-135 | the first cycle after Start zeroes both scheduled times, and later cycles do not |
| Readers.ReadAndDrain | src/Bread.Media/Source/SourceReader.cs:144-172 | a failed read returns 10, and end-of-stream posts the sentinel, stops and returns 0. A packet is decoded into its stream's queue if that stream has a decoder. The cycle then returns 15 at a ceiling, else 0 |
| Readers.SourceCycle | src/Bread.Media/Source/SourceReader.cs:111-172 | an unopened source follows the retry policy. At a ceiling the cycle only drains and returns 15; otherwise it reads and drains. The sample accounting is kept |
| Readers.FirstCycleStampsFromZero | src/Bread.Media/Source/SourceReader.cs:131-135 | the first sample posted after Start is stamped 0 |
| Readers.CeilingOnlyDrains | src/Bread.Media/Source/SourceReader.cs:137-142 | at a ceiling the cycle reads nothing and returns 15 |
| Readers.DisposeReader | src/Bread.Media/Source/SourceReader.cs:262-280 | disposal empties both queues, and every sample taken from a pool is released exactly once |
| Readers.DrainAudio | src/Bread.Media/Source/AudioReader.cs:137-168 | the audio drain advances by each sample's own duration and keeps the accounting |
| Readers.AudioCycle | src/Bread.Media/Source/AudioReader.cs:74-134 | the same retry policy as the source reader. At 12 queued samples it only drains and returns 15. A failed read returns 10, and end-of-stream stops. Video packets are read but never decoded |
| Readers.AudioStampsIncrease | src/Bread.Media/Source/AudioReader.cs:143-150 | the audio reader's posted stamps strictly increase |
| Sessions.NewSession | src/Bread.Media/Session/VideoReader.cs:20-32 | a new session has an empty queue and is not completed |
| Sessions.QueueEvent | src/Bread.Media/Session/VideoReader.cs:72-88 | with a processor, a sample of the session's kind below 6 is cloned into the queue, and at 6 it is rejected. The sentinel sets pre-completed and is accepted. Anything else is forwarded and `Post`'s answer returned |
| Sessions.NoProcessorForwards | src/Bread.Media/Session/VideoFileTranscoder.cs:119-121 | without a processor, a video sample is forwarded rather than queued |
| Sessions.Start | src/Bread.Media/Session/VideoReader.cs:34-41 | Start succeeds iff the reader opened |
| Sessions.ProcessHead | src/Bread.Media/Session/VideoReader.cs:52-57 | a cycle hands the oldest sample to the processor and releases it |
| Sessions.Complete | src/Bread.Media/Session/VideoReader.cs:59-67 | completion sets IsCompleted and marks the worker to stop |
| Sessions.ReaderCycle | src/Bread.Media/Session/RealTimePcmReader.cs:55-79 | returns 30 for an unopened gated reader. It processes one queued sample and returns 0. Once pre-completed with an empty queue it completes and returns 0; otherwise it returns 20. It completes only then |
| Sessions.TranscodeCycle | src/Bread.Media/Session/VideoFileTranscoder.cs:75-103 | a queued sample is processed, posted and released, and a rejected post marks the worker to stop. An empty pre-completed queue waits 20 while an encoder is encoding or the sinker is sinking, and completes otherwise |
| Sessions.Cycles | src/Bread.Media/Session/VideoReader.cs:52-57 | k cycles process the k oldest samples in order |
| Sessions.DrainsThenCompletes | src/Bread.Media/Session/VideoReader.cs:50-69 | a pre-completed session processes its whole queue, and the next cycle completes it |
| Sessions.Dispose | src/Bread.Media/Session/VideoReader.cs:90-97 | disposal releases every queued sample; every clone is released exactly once |
| Sessions.BitrateFloor | src/Bread.Media/Session/VideoFileTranscoder.cs:33-35 | the bitrate is raised to width·height·3 when below it and kept otherwise |
| AudioDecoders.OutputDefaults | src/Bread.Media/Decoder/FFAudioDecoder.cs:54-59 | a zero rate or channel count is taken from the input. Format None becomes Float32 with 2 bytes per sample. Everything else is kept |
| AudioDecoders.DefaultsSettle | src/Bread.Media/Decoder/FFAudioDecoder.cs:54-59 | applying the defaults twice is applying them once |
| AudioDecoders.NewAudioDecoder | src/Bread.Media/Decoder/FFAudioDecoder.cs:19-24 | a new decoder is not initialised and holds no data |
| AudioDecoders.ChunkSize | src/Bread.Media/Decoder/FFAudioDecoder.cs:144 | the chunk is positive for a positive channel count |
| AudioDecoders.Initialize | src/Bread.Media/Decoder/FFAudioDecoder.cs:26-87 | a failed codec setup returns false unchanged. Otherwise the defaults are applied; an output without a fixed sample width raises InvalidOperation; a failed resampler returns false keeping the defaulted output, uninitialised. Otherwise it succeeds iff the pool is built (a failed pool raises InvalidProgram), and the staging buffer holds rate·2·channels·bytes |
| AudioDecoders.CompressedOutputRefused | src/Bread.Media/Decoder/FFAudioDecoder.cs:71 | an AAC or MP3 output raises InvalidOperation once the codec has opened, whatever the pool would do |
| AudioDecoders.PooledSampleFitsChunk | src/Bread.Media/Decoder/FFAudioDecoder.cs:149-151 | a pooled 1024-frame sample is exactly one chunk long |
| AudioDecoders.CutChunks | src/Bread.Media/Decoder/FFAudioDecoder.cs:144-162 | emits the quotient of chunks and keeps the remainder, with emitted·chunk + remainder equal to the bytes held. It succeeds iff the pool supplies that many samples; otherwise it raises OutOfMemory when the pool's Get returns null, and InvalidProgram when growing the pool fails (Pool.cs:53-55) |
| AudioDecoders.ConvertFrame | src/Bread.Media/Decoder/FFAudioDecoder.cs:114-162 | in the source's order: a failed size query stops the frame; then appending past the free space raises OutOfMemory; then a failed conversion stops the frame. Otherwise the bytes are staged and cut into chunks, and it succeeds iff the pool supplies them; a pool that runs out raises OutOfMemory on a null Get and InvalidProgram on a failed growth |
| AudioDecoders.Decode | src/Bread.Media/Decoder/FFAudioDecoder.cs:90-166 | raises before initialisation and returns false on a failed send. It raises only InvalidOperation, OutOfMemory, or InvalidProgram when growing the pool fails. Afterwards the staging buffer holds fewer bytes than a chunk, and every byte received is emitted or still held |
| AudioEncoding.Interleave | src/Bread.Media/Encoder/FFAudioEncoder.cs:123-135 | interleaving puts left[i] at 2i and right[i] at 2i+1 |
| AudioEncoding.FillBuffer | src/Bread.Media/Encoder/FFAudioEncoder.cs:117-142 | stereo that is not planar float raises NotImplemented. Stereo is split as left[i] = in[2i] and right[i] = in[2i+1] for 1024 frames. Mono copies the first 1024 samples to plane 0, and other layouts copy nothing |
| AudioEncoding.SplitThenInterleave | src/Bread.Media/Encoder/FFAudioEncoder.cs:128-135 | the de-interleave loses nothing: interleaving the two planes gives the input back |
| AudioEncoding.Start | src/Bread.Media/Encoder/FFAudioEncoder.cs:22-26 | Start resets the pts counter to 0 and succeeds |
| AudioEncoding.Encode | src/Bread.Media/Encoder/FFAudioEncoder.cs:106-115 | each frame is stamped with the counter, which then advances by 1024; the call reports success |
| AudioEncoding.PtsRunInFrameSteps | src/Bread.Media/Encoder/FFAudioEncoder.cs:24 | after Start the frames are stamped 0, 1024, 2048, … |
| AudioEncoding.EncodedPts | src/Bread.Media/Encoder/FFAudioEncoder.cs:111-112 | k encodes produce k stamps |
| AudioEncoding.EncodesClosedForm | src/Bread.Media/Encoder/FFAudioEncoder.cs:111-112 | the i-th of k encodes is stamped start + 1024·i |
| AudioEncoding.Stop | src/Bread.Media/Encoder/FFAudioEncoder.cs:28-33 | flushes only when initialised and always de-initialises |
| VideoEncoding.ProfileDefault | src/Bread.Media/Encoder/FFVideoEncoder.cs:24-27 | a profile ≤ 0 becomes profile 77 at level 41; otherwise both are kept |
| VideoEncoding.DeviceFor | src/Bread.Media/Encoder/FFVideoEncoder.cs:148-168 | QSV iff the name contains `_qsv`. CUDA iff it contains `_nvenc` but not `_qsv`. D3D11VA iff it contains `_amf` but neither of the others. No device otherwise |
| VideoEncoding.InitHwDevice | src/Bread.Media/Encoder/FFVideoEncoder.cs:148-168 | no match succeeds without a device. A match succeeds iff creation does, and a device is stored only then |
| VideoEncoding.QsvTakesPrecedence | src/Bread.Media/Encoder/FFVideoEncoder.cs:149-157 | a name with both `_qsv` and `_nvenc` selects QSV |
| VideoEncoding.Encode | src/Bread.Media/Encoder/FFVideoEncoder.cs:180-231 | a flush takes no stamp and leaves the counter. A sample is stamped with the counter, which advances by one. The call succeeds iff both the send and the receive succeed |
| VideoEncoding.PtsCountsSamplesOnly | src/Bread.Media/Encoder/FFVideoEncoder.cs:183-202 | over any sequence of calls the counter advances by the number of non-flush calls |
| VideoEncoding.Stop | src/Bread.Media/Encoder/FFVideoEncoder.cs:37-43 | flushes only when initialised, always de-initialises, and keeps the counter |
| Muxing.NewSinker | src/Bread.Media/Sinker/FFSinker.cs:17-37 | video is set up only with a non-zero width and audio only with a non-zero rate. Inited is the OR of the two results; both are attempted. The context is kept iff inited |
| Muxing.Start | src/Bread.Media/Sinker/FFSinker.cs:134-166 | corrected: raises NullReference iff there is no live context (where the source's native call crashes). It resets both counters and succeeds iff the output opens and the header is written. A failure frees the context and clears it, so it is freed at most once |
| Muxing.Stop | src/Bread.Media/Sinker/FFSinker.cs:168-181 | writes the trailer only when inited with a context, frees the context once and clears it |
| Muxing.StartFailureFreesTwice | src/Bread.Media/Sinker/FFSinker.cs:148-159 | as written, a failed open followed by Stop frees the context twice and writes a trailer into the freed context |
| Muxing.Process | src/Bread.Media/Sinker/FFSinker.cs:183-229 | a video packet is stamped (n, n, 1) with the video count and an audio packet (1024m, 1024m, 1024) with the audio count. The packet's stream count advances whether or not the write succeeds |
| Muxing.ProcessAll | src/Bread.Media/Sinker/FFSinker.cs:183-191 | one stamp per packet |
| Muxing.AudioBefore | src/Bread.Media/Sinker/FFSinker.cs:187-188 | counts the audio packets before a position |
| Muxing.StampsCountOwnStream | src/Bread.Media/Sinker/FFSinker.cs:194-229 | the i-th packet is stamped from the number of packets of its own stream before it |
| Muxing.RetryTakesNextStamp | src/Bread.Media/Sinker/FFSinker.cs:196-221 | a packet retried after a failed write gets the next stamp |
| MediaSources.WideSpaceUriRefused | src/Bread.Media/Source/MediaSource.cs:244-245 | a URI of one ideographic space raises ArgumentNull |
| MediaSources.NewMediaSource | src/Bread.Media/Source/MediaSource.cs:242-256 | a blank URI (only C# white space, Unicode separators included) raises ArgumentNull, and only a blank one. The source is a network stream iff the URI starts with rtsp, rtmp or http, compared character by character. Both stream indices start at -1 |
| MediaSources.SetIfChanged | src/Bread.Media/Source/MediaSource.cs:23-25 | stores the value and notifies iff it differs from the current one |
| MediaSources.SetTwiceNotifiesOnce | src/Bread.Media/Source/MediaSource.cs:23-25 | setting the same value twice notifies at most once |
| MediaSources.FrameRateComparesBoth | src/Bread.Media/Source/MediaSource.cs:148 | a frame rate differing only in its denominator still notifies |
| MediaSources.Open | src/Bread.Media/Source/MediaSource.cs:264-302 | succeeds iff the allocation, open and stream info succeed. It looks up the video and audio streams only for the flags set in the stream type, and sets IsValid |
| MediaSources.ReadNext | src/Bread.Media/Source/MediaSource.cs:353-379 | end of file sets IsEndOfStream and raises end-of-stream. A packet on the video index is video and one on the audio index is audio. A read error or any other stream returns false |
| MediaSources.Close | src/Bread.Media/Source/MediaSource.cs:382-392 | drops the context and resets both stream indices to -1 |
| MediaSources.ClosedRoutesNothing | src/Bread.Media/Source/MediaSource.cs:383-391 | after Close no packet is routed to a stream |
| MediaSources.AudioOnlyNeverVideo | src/Bread.Media/Source/MediaSource.cs:297-300 | an audio-only source never reports a video packet |
| PcmReading.NewPcmReader | src/Bread.Media/Session/PcmReader.cs:55-58 | a new reader is not initialised and holds no leftover |
| PcmReading.LoadAsWritten | src/Bread.Media/Session/PcmReader.cs:60-72 | as written: a blank path raises ArgumentNull; otherwise the reader is loaded iff it initialises, and the leftover keeps its length and the cached-frame flag its value |
| PcmReading.Load | src/Bread.Media/Session/PcmReader.cs:60-73 | corrected: a blank path raises ArgumentNull. It closes a previous input and succeeds iff the input initialises. The leftover and the cached-frame flag are cleared |
| PcmReading.Seek | src/Bread.Media/Session/PcmReader.cs:288-303 | succeeds iff the time is non-negative and the seek succeeds, then clears the leftover and the cached-frame flag; a failure changes nothing |
| PcmReading.ReadNextAudioPacket | src/Bread.Media/Session/PcmReader.cs:204-257 | at most 200 passes, and success means a frame was received on the last pass |
| PcmReading.GivesUpAfterMaxPasses | src/Bread.Media/Session/PcmReader.cs:212-215 | a decoder that never yields a frame makes the read give up after exactly 200 passes |
| PcmReading.Delta | src/Bread.Media/Session/PcmReader.cs:317-318 | the channel offset is 0 for mono or a left-channel request, else 1 |
| PcmReading.Channel | src/Bread.Media/Session/PcmReader.cs:372-395 | extraction takes one sample per frame: out[i] = pcm[i·channels + delta] |
| PcmReading.Split | src/Bread.Media/Session/PcmReader.cs:372-395 | a frame's channel is cut into the part the request still needs and the excess; together they are the whole channel, and there is excess only once the request is met |
| PcmReading.DecodeTakeStep | src/Bread.Media/Session/PcmReader.cs:341-397 | a converted frame extends the copied samples plus leftover by exactly that frame's channel, and the remaining supply is kept in step |
| PcmReading.DecodeStopStep | src/Bread.Media/Session/PcmReader.cs:343-370 | a frame that fails to arrive or convert ends the read with exactly the samples the earlier frames supplied |
| PcmReading.DecodeInto | src/Bread.Media/Session/PcmReader.cs:338-399 | the samples copied plus the new leftover are exactly the extracted stream of the frames used. A read error means fewer samples than requested were available; otherwise exactly the request was copied |
| PcmReading.BeginRead | src/Bread.Media/Session/PcmReader.cs:306-410 | raises when not initialised. The length is the request capped by the available samples. Data is returned iff the whole non-zero request was met. Data plus the new leftover equal the old leftover plus the extracted samples, so nothing is lost or duplicated |
| PcmReading.ReadData | src/Bread.Media/Session/PcmReader.cs:264-285 | data is returned iff initialised with a valid time, a successful seek, a count ≥ 10 and enough samples. It is a prefix of the extracted stream |
| PcmReading.ReloadKeepsStaleLeftover | src/Bread.Media/Session/PcmReader.cs:60-161 | as written, reloading keeps the previous input's leftover count while the buffer is replaced, so the leftover has its old length and arbitrary contents and stays non-empty; the corrected Load clears it |
| Interop.Registered | src/Bread.Media/FFmpeg/FFInterop.cs:94-116 | an identifier bit is stored iff a requested library that loaded carries it |
| Interop.Initialize | src/Bread.Media/FFmpeg/FFInterop.cs:84-126 | a second call returns false and changes nothing. With no library loaded, it raises FileNotFound, resets the identifiers and stays uninitialised. Otherwise it stores the registered identifiers and returns true |
| Interop.InitializeOnce | src/Bread.Media/FFmpeg/FFInterop.cs:87-88 | after a successful initialisation every further call returns false and changes nothing |
| Interop.PreloadedLibrarySucceedsEmpty | src/Bread.Media/FFmpeg/FFInterop.cs:94-101 | a library that was already loaded counts as loaded but registers no identifier |
| Interop.MessageTypeOf | src/Bread.Media/FFmpeg/FFInterop.cs:23-33 | panic, fatal and error levels are Error; warning, info and trace map to their own type; any other level is Debug |
| Interop.OnMessage | src/Bread.Media/FFmpeg/FFInterop.cs:249-272 | a message above the current level, or an empty line, is dropped. An unterminated fragment is buffered. A fragment ending in a newline joins the buffer, trims trailing white space (the C# set, Unicode separators included), emits the line and clears the buffer |
| Interop.Texts | src/Bread.Media/FFmpeg/FFInterop.cs:266-270 | the texts of the emitted lines, in order |
| Interop.TrimAll | src/Bread.Media/FFmpeg/FFInterop.cs:266-268 | each emitted text is its joined line with trailing white space removed |
| Interop.FeedKeepsEveryFragment | src/Bread.Media/FFmpeg/FFInterop.cs:258-270 | over any message sequence, the accepted fragments, read in order, are the emitted raw lines followed by what is still buffered |
| Interop.EmitStep | src/Bread.Media/FFmpeg/FFInterop.cs:266-270 | one callback appends the trimmed form of what it flushes to the emitted texts, after those already emitted |
| Interop.FeedEmitsTrimmed | src/Bread.Media/FFmpeg/FFInterop.cs:266-270 | the lines emitted are exactly the trimmed raw lines, in order |
| Interop.FeedKeepsPending | src/Bread.Media/FFmpeg/FFInterop.cs:258-266 | the buffer only ever holds unterminated fragments |

## Left out

- Native FFmpeg calls (`av_*`, `avcodec_*`, `avformat_*`, `swr_*`, `sws_*`, `avio_*`): each is an oracle parameter.
- FFVideoDecoder.cs and PacketSample.cs: thin wrappers over codec and packet calls with no bookkeeping of their own.
- Library.cs and the `FFLibrary` loader: native library state. The loader is not part of this model; each library's load result is a parameter.
- Threads, `Task.Run`/`Task.Delay`, locks, events, `WaitForWantedState` and real cancellation: every worker and scheduler step is sequential, and cancellation is a flag.
- Wall clocks and stopwatches: the elapsed time is a parameter of each drain.
- Floating point: hns durations computed from doubles, frame-rate values, the duration epsilon checks, `RealTimePcmReader.Time`, and the shared-timer resolution recalibration. Durations are integers supplied by the caller.
- Memory copies and byte marshalling (`Unsafe.CopyBlock`, `Buffer.MemoryCopy`, the `ReadData` byte array): buffers are sequences of samples or byte counts.
- C# 32-bit overflow: all integers are unbounded.
- Common.Lower: the model assumes a current culture that lower-cases the ASCII capitals to the ASCII small letters and leaves every other character alone. `ToLower()` in FileType.cs uses the current culture, so under a Turkish culture `I` becomes `ı` (U+0131), and non-ASCII letters are folded too.
- Common.LowerChar: folds only `A`-`Z`, to `a`-`z`, under the same assumed culture.
- FileTypes.GetImageExtension: under a Turkish culture GIF's extension is `.gıf` in the source (FileType.cs:18); the model yields `.gif`.
- FileTypes.GetImageFileFormat: under a Turkish culture `.GIF` lowers to `.gıf` and gives None in the source (FileType.cs:47); the model gives GIF.
- FileTypes.ImageRoundTrip: holds under the assumed culture only; under a Turkish culture GIF does not round-trip in the source.
- The video pts rescale into the stream time base, and packet rescaling in the sinker: timebase arithmetic on native rationals.
- The encoder's null-head branch (`Encoder.cs:88`, returning 10) and its failed-peek branch (`Encoder.cs:130`, returning 5): the queue holds only non-null clones and the cycle runs sequentially, so a peek on a non-empty queue always yields a sample.
- RetrieveDuration and the resampler setup (`InitSwr`): floating point and native calls.
- The data-only files (ColorKey, Effect, GPUType, Const, IProcess, FFSinkParams, AudioEncodeParams, VideoEncodeParams, DX11Sample, VideoSampleBase, Sample, Event, IWorker, Extensions): their enums and fields appear where the model needs them.
- PcmReading.BeginRead: does not compose `ReadNextAudioPacket` or track the cached-frame flag. The frames are a finite answer sequence, and running out of answers counts as a read error.
- PcmReading.Seek: seeking a reader that was never loaded dereferences a missing context in the source, and from `ReadData` that error escapes, since `Seek` runs before the `try`; the model returns the seek answer instead.
- PcmReading.ReadData: counts in samples rather than converting a start time and duration from seconds.
- MediaSources.NewMediaSource: the network-scheme test is modelled as an exact, character-by-character prefix. `StartsWith("rtsp")` without a comparison argument (MediaSource.cs:248-249) compares in the current culture, which skips ignorable code points, so a URI such as a soft hyphen followed by `rtsp://cam` is a network stream in the source and a local one in the model, and `Readers.RetryOpen` then differs.
- MediaSources.Open: `avformat_open_input` frees a caller-supplied context when it fails, so the field set at `MediaSource.cs:278` dangles and a later `Close` (`MediaSource.cs:385-386`) closes freed memory. The model only records that a context is held; native memory is not modelled. `HasVideo`/`HasAudio` are not modelled.
- MediaSources.ReadNext: the stream routing is modelled, but the packet payload is not.
- Readers.ReadAndDrain: the decoder's output for one packet is a parameter; the decode itself is native.
- Pooling.Get: requires a positive capacity, because a pool of capacity 0 recurses forever in the source.
- Workers.ExecuteCycle: the recreation of the token source is reduced to clearing the cancelled flag.
- Drivers.SchedulerTick: the callback bodies run outside the tick. `FinishCallback` models the flag reset that follows each one.
- AudioDecoders.Decode: the bytes each frame converts to are an oracle; sample content is not tracked. A raise is a `Throw` that carries no decoder, so the state the source leaves behind when the pool fails part way through a frame is not modelled: samples already queued, a lowered `_dataLength`, and a staging buffer that is not compacted (FFAudioDecoder.cs:159-161 is skipped).
- AudioDecoders.CutChunks: a `Throw` does not report how many chunks were cut before the pool failed.
- Muxing.Start: with no live context the source's `av_dump_format` (FFSinker.cs:145) dereferences null and ends the process; the model raises NullReference in its place, and `StartAsWritten` does the same.
- PcmReading.LoadAsWritten: the leftover's contents after a reload are left arbitrary. When the channel count shrinks, the next `BeginRead` can also copy past the end of the new buffer; memory bounds are not modelled.

## Findings

| source | as written | input that shows it | evidently intended | confidence | as-written member | corrected member |
|---|---|---|---|---|---|---|
| src/Bread.Media/Encoder/Encoder.cs:96-102 | after a lost or hung device the encoder calls `DeInitialize`, which never clears the initialised flag (FFVideoEncoder.cs:170-177), so later cycles encode with released native state and never re-initialise | a queued sample, a successful init, then an encode that reports DeviceLost | de-initialising clears the flag so that the next cycle re-initialises | medium, not executed | Encoders.DeviceLostNeverReinitialises | Encoders.DeviceLostReinitialises |
| src/Bread.Media/Sinker/FFSinker.cs:148-159 | a failed `avio_open`, or a format with the no-file flag, frees the format context without clearing the field. The worker then calls `Stop`, which writes a trailer into the freed context and frees it a second time | a sinker with one 640-wide video stream that initialises, and an output URI that cannot be opened | free the context once and clear the field, so that `Stop` does nothing | high, not executed | Muxing.StartFailureFreesTwice | Muxing.Start |
| src/Bread.Media/Session/PcmReader.cs:60-103 | `Load` (through Close and Initialize) does not reset the leftover count, while Initialize re-allocates the buffer (PcmReader.cs:157), so a `BeginRead` after reloading (PcmReader.cs:320-322) first copies that many samples of uninitialised memory, not samples of either file | a `BeginRead` of 100 samples whose decoded frame yields 1024, leaving 924 over; then `Load` of another file and a `BeginRead` without a seek | reloading empties the leftover, as a successful `Seek` does | medium, not executed | PcmReading.ReloadKeepsStaleLeftover | PcmReading.Load |

=== FILE: audio_decoder.dfy ===
/** The audio decoder's bookkeeping (`FFAudioDecoder.cs`): the output format
    it settles on, the staging buffer it converts into, and the loop that
    cuts the staged bytes into pooled samples of exactly 1024 frames. The
    codec, the resampler and the pool are oracles: how many bytes each
    received frame needs and yields, and how many samples the pool still
    hands out. */
module AudioDecoders {
  import opened Common
  import opened AudioFormats
  import Samples
  import SamplePools

  /** `Initialize` fills in what the caller left open: rate and channel count
      from the stream, and Float32 when no format was asked for (recording a
      sample width of 2, see the README). */
  function OutputDefaults(out: AudioInfo, inRate: int, inChannels: int): (o: AudioInfo)
    ensures o.sampleRate == if out.sampleRate == 0 then inRate else out.sampleRate
    ensures o.channelCount == if out.channelCount == 0 then inChannels else out.channelCount
    ensures out.format == None ==> o.format == Float32 && o.bytesPerSample == 2
    ensures out.format != None ==> o.format == out.format && o.bytesPerSample == out.bytesPerSample
    ensures o.bitRate == out.bitRate
  {
    var o1 := out.(sampleRate := if out.sampleRate == 0 then inRate else out.sampleRate,
                   channelCount := if out.channelCount == 0 then inChannels else out.channelCount);
    if out.format == None then o1.(format := Float32, bytesPerSample := 2) else o1
  }

  /** Defaulting is idempotent once a stream's values are filled in. */
  lemma DefaultsSettle(out: AudioInfo, inRate: int, inChannels: int)
    requires inRate != 0 && inChannels != 0
    ensures OutputDefaults(OutputDefaults(out, inRate, inChannels), inRate, inChannels) ==
            OutputDefaults(out, inRate, inChannels)
  {
  }

  datatype AudioDecoder = AudioDecoder(
    out: AudioInfo,
    inited: bool,
    bufferLength: int,    // staging buffer size in bytes
    dataLength: int,      // staged bytes not yet cut into samples
    emitted: nat)         // samples queued so far

  function NewAudioDecoder(out: AudioInfo): (d: AudioDecoder)
    ensures !d.inited && d.out == out && d.dataLength == 0 && d.emitted == 0
  {
    AudioDecoder(out, false, 0, 0, 0)
  }

  /** Bytes in one emitted sample: 1024 frames of every channel. */
  function ChunkSize(out: AudioInfo): (c: int)
    requires FixedWidth(out.format)
    ensures out.channelCount > 0 ==> c > 0
  {
    AudioSampleLength * out.channelCount * Bytes(out.format)
  }

  /** An initialised decoder has a fixed-width output and fewer staged bytes
      than one chunk. */
  predicate Valid(d: AudioDecoder) {
    d.inited ==> FixedWidth(d.out.format) && d.out.channelCount > 0 && 0 <= d.dataLength < ChunkSize(d.out)
  }

  /** `Initialize`. `codecOk` stands for the four codec calls (find, allocate,
      copy parameters, open) and `resamplerOk` for `swr_init`. A codec failure
      returns false before anything changes. Then the output is defaulted;
      an output format without a fixed sample width raises InvalidOperation
      when it is handed to the resampler, before any pool exists. A resampler
      failure returns false with the defaulted output kept. Otherwise a sample
      pool is built for the output (`mallocs` stands for its allocations) and
      the staging buffer is sized for two seconds of output. */
  function Initialize(d: AudioDecoder, inRate: int, inChannels: int, codecOk: bool, resamplerOk: bool,
                      mallocs: seq<bool>)
    : (r: Outcome<(AudioDecoder, bool)>)
    requires |mallocs| == AudioCacheCount
    ensures !codecOk ==> r == Ok((d, false))
    ensures codecOk && !FixedWidth(OutputDefaults(d.out, inRate, inChannels).format) ==>
      r == Throw(InvalidOperation)
    ensures codecOk && FixedWidth(OutputDefaults(d.out, inRate, inChannels).format) && !resamplerOk ==>
      r == Ok((d.(out := OutputDefaults(d.out, inRate, inChannels)), false))
    ensures codecOk && resamplerOk ==> var o := OutputDefaults(d.out, inRate, inChannels);
      r.Ok? <==> SamplePools.NewAudioSamplePool(AudioSampleLength, o.sampleRate, o.channelCount, o.format, mallocs).Ok?
    ensures r.Throw? ==> r.fault in {InvalidOperation, InvalidProgram}
    ensures r.Ok? && r.value.1 ==> var o := OutputDefaults(d.out, inRate, inChannels);
      && codecOk && resamplerOk && r.value.0.inited && r.value.0.out == o && r.value.0.dataLength == 0
      && FixedWidth(o.format)
      && r.value.0.bufferLength == o.sampleRate * 2 * o.channelCount * Bytes(o.format)
  {
    if !codecOk then Ok((d, false))
    else
      var o := OutputDefaults(d.out, inRate, inChannels);
      if !FixedWidth(o.format) then Throw(InvalidOperation)
      else if !resamplerOk then Ok((d.(out := o), false))
      else
        var pool := SamplePools.NewAudioSamplePool(AudioSampleLength, o.sampleRate, o.channelCount, o.format, mallocs);
        if pool.Throw? then Throw(InvalidProgram)
        else
          Ok((d.(out := o, inited := true, bufferLength := o.sampleRate * 2 * o.channelCount * Bytes(o.format),
                 dataLength := 0), true))
  }

  /** A compressed output format is refused when the resampler is set up,
      after the codec has opened and before any pool is built, whatever the
      pool's allocations would do. */
  lemma CompressedOutputRefused(d: AudioDecoder, inRate: int, inChannels: int, resamplerOk: bool, mallocs: seq<bool>)
    requires |mallocs| == AudioCacheCount && d.out.format in {Aac, Mp3}
    ensures Initialize(d, inRate, inChannels, true, resamplerOk, mallocs) == Throw(InvalidOperation)
  {
  }

  /** A pooled sample always has room for one chunk: the pool is built with
      the same output, and its buffers carry 128 samples of slack, so the
      "buffer not enough" error is unreachable for pooled samples. */
  lemma PooledSampleFitsChunk(o: AudioInfo, mallocOk: bool)
    requires FixedWidth(o.format)
    ensures var s := Samples.NewAudioSample(AudioSampleLength, o.sampleRate, o.channelCount, o.format, mallocOk);
      s.Ok? ==> s.value.bufferLength >= ChunkSize(o) && s.value.dataLength == ChunkSize(o)
  {
  }

  /** What one `avcodec_receive_frame` gives: a frame whose conversion needs
      `need` bytes of space and yields `got` bytes, or "try again", end of
      decoding, or an error. A negative size is a failed size query. */
  datatype Receive = Frame(need: int, got: int) | Again | EndOfDecode | ReceiveFailed

  /** Bytes appended by the frames of `fs`. */
  function Appended(fs: seq<Receive>): int {
    if |fs| == 0 then 0
    else Appended(fs[..|fs| - 1]) + (if fs[|fs| - 1].Frame? then fs[|fs| - 1].got else 0)
  }

  lemma AppendedSnoc(fs: seq<Receive>, k: nat)
    requires k < |fs| && fs[k].Frame?
    ensures Appended(fs[..k + 1]) == Appended(fs[..k]) + fs[k].got
  {
    assert fs[..k + 1][..k] == fs[..k];
  }

  /** Cutting `made` more chunks off the staged bytes moves their size from
      the staging count to the emitted count. */
  lemma ChunkBalance(emitted: int, made: int, chunk: int, data: int, data1: int, got: int)
    requires made * chunk + data1 == data + got
    ensures (emitted + made) * chunk + data1 == emitted * chunk + data + got
  {
    assert (emitted + made) * chunk == emitted * chunk + made * chunk;
  }

  /** How the pool's `Get` fails once it has handed out every sample it
      can: with null at its ceiling (raised here as OutOfMemory), or, when
      growing it fails (`growFails`), with InvalidProgram from `Allocate`. */
  function PoolFault(growFails: bool): (f: Fault)
    ensures f in {OutOfMemory, InvalidProgram}
    ensures f == InvalidProgram <==> growFails
  {
    if growFails then InvalidProgram else OutOfMemory
  }

  /** Cutting the staged bytes into chunks: the loop at the end of each
      received frame. `poolLeft` is how many more samples the pool hands out
      before its `Get` fails as `growFails` says. */
  method CutChunks(dataLength: int, chunk: int, poolLeft: nat, growFails: bool) returns (r: Outcome<(int, nat)>)
    requires chunk > 0 && dataLength >= 0
    ensures r.Ok? <==> dataLength / chunk <= poolLeft
    ensures r.Throw? ==> r.fault == PoolFault(growFails)
    ensures r.Ok? ==> r.value.0 == dataLength % chunk && r.value.1 == dataLength / chunk
    ensures r.Ok? ==> r.value.1 * chunk + r.value.0 == dataLength && 0 <= r.value.0 < chunk
  {
    var left := dataLength;
    var made: nat := 0;
    var pool := poolLeft;
    while left >= chunk
      invariant 0 <= left && made * chunk + left == dataLength
      invariant made + pool == poolLeft
      decreases left
    {
      if pool == 0 {
        DivAtLeast(dataLength, chunk, made + 1, left - chunk);
        return Throw(PoolFault(growFails));
      }
      pool := pool - 1;
      made := made + 1;
      left := left - chunk;
    }
    DivUnique(dataLength, chunk, made, left);
    return Ok((left, made));
  }

  /** If `q` chunks and a non-negative rest make up `x`, at least `q` chunks
      fit in `x`. */
  lemma DivAtLeast(x: int, m: int, q: nat, rest: int)
    requires m > 0 && rest >= 0 && x == q * m + rest
    ensures x / m >= q
  {
    DivUnique(x, m, q + rest / m, rest % m);
  }

  /** What one received frame leaves: the staged bytes and the samples cut,
      or a stop with `false` (a failed size query). */
  datatype Converted = Staged(data: int, made: nat) | Failed

  /** Converting one received frame into the staging buffer and cutting
      whole chunks off it. A failed size query (`need < 0`) stops first; the
      space check comes next and raises; only then is the frame converted,
      and a failed conversion (`got < 0`) stops. */
  method ConvertFrame(bufferLength: int, data: int, chunk: int, need: int, got: int, poolLeft: nat,
                      growFails: bool)
    returns (r: Outcome<Converted>)
    requires chunk > 0 && 0 <= data < chunk
    ensures need < 0 ==> r == Ok(Failed)
    ensures need >= 0 && bufferLength - data < need ==> r == Throw(OutOfMemory)
    ensures need >= 0 && bufferLength - data >= need && got < 0 ==> r == Ok(Failed)
    ensures need >= 0 && bufferLength - data >= need && got >= 0 ==>
      (r.Ok? <==> (data + got) / chunk <= poolLeft)
    ensures need >= 0 && bufferLength - data >= need && r.Throw? ==> r.fault == PoolFault(growFails)
    ensures r.Throw? ==> r.fault in {OutOfMemory, InvalidProgram}
    ensures r.Ok? && r.value.Staged? ==>
      r.value.made * chunk + r.value.data == data + got && 0 <= r.value.data < chunk && r.value.made <= poolLeft
  {
    if need < 0 {
      return Ok(Failed);
    }
    if bufferLength - data < need {
      return Throw(OutOfMemory);
    }
    if got < 0 {
      return Ok(Failed);
    }
    var cut := CutChunks(data + got, chunk, poolLeft, growFails);
    if cut.Throw? {
      return Throw(cut.fault);
    }
    return Ok(Staged(cut.value.0, cut.value.1));
  }

  /** `Decode`: send one packet, then receive frames until the codec asks
      for more input, converting each into the staging buffer and cutting
      whole chunks off it. Returns the decoder, the result, and how many
      frames were received. The pool hands out `poolLeft` more samples
      during the call, then fails as `growFails` says. */
  method Decode(d: AudioDecoder, sendOk: bool, frames: seq<Receive>, poolLeft: nat, growFails: bool)
    returns (r: Outcome<(AudioDecoder, bool)>, received: nat)
    requires Valid(d)
    ensures !d.inited ==> r == Throw(InvalidOperation)
    ensures d.inited && !sendOk ==> r == Ok((d, false))
    ensures r.Throw? ==> r.fault in {InvalidOperation, OutOfMemory, InvalidProgram}
    ensures r.Throw? && r.fault == InvalidProgram ==> growFails
    ensures received <= |frames|
    ensures r.Ok? ==> Valid(r.value.0) && r.value.0.out == d.out && r.value.0.bufferLength == d.bufferLength
    ensures r.Ok? && d.inited ==>
      r.value.0.emitted * ChunkSize(d.out) + r.value.0.dataLength ==
        d.emitted * ChunkSize(d.out) + d.dataLength + Appended(frames[..received])
    ensures r.Ok? && r.value.1 ==> received == |frames| || frames[received] == Again
    ensures r.Ok? && r.value.1 ==> forall i :: 0 <= i < received ==> frames[i].Frame?
  {
    if !d.inited {
      return Throw(InvalidOperation), 0;
    }
    if !sendOk {
      return Ok((d, false)), 0;
    }
    var chunk := ChunkSize(d.out);
    var data := d.dataLength;
    var emitted: nat := d.emitted;
    var pool: nat := poolLeft;
    received := 0;
    while received < |frames|
      invariant received <= |frames| && 0 <= data < chunk
      invariant emitted * chunk + data == d.emitted * chunk + d.dataLength + Appended(frames[..received])
      invariant forall i :: 0 <= i < received ==> frames[i].Frame?
    {
      var f := frames[received];
      if f == Again {
        break;
      }
      if !f.Frame? {
        return Ok((d.(dataLength := data, emitted := emitted), false)), received;
      }
      var c := ConvertFrame(d.bufferLength, data, chunk, f.need, f.got, pool, growFails);
      if c.Throw? {
        return Throw(c.fault), received;
      }
      if c.value.Failed? {
        return Ok((d.(dataLength := data, emitted := emitted), false)), received;
      }
      AppendedSnoc(frames, received);
      ChunkBalance(emitted, c.value.made, chunk, data, c.value.data, f.got);
      data := c.value.data;
      emitted := emitted + c.value.made;
      pool := pool - c.value.made;
      received := received + 1;
    }
    return Ok((d.(dataLength := data, emitted := emitted), true)), received;
  }
}

=== FILE: audio_info.dfy ===
/** Audio sample formats and their widths, and the conversion to and from
    FFmpeg's sample-format codes (`AudioInfo.cs`). */
module AudioFormats {
  import opened Common

  datatype AudioSampleFormat = None | Float32 | SInt16 | SInt32 | Aac | Mp3

  /** The FFmpeg sample formats the helpers distinguish; `OtherAV` stands for
      every code the conversion does not recognise (planar formats among them). */
  datatype AVSampleFormat = FmtFlt | FmtS32 | FmtS16 | FmtFltp | OtherAV(code: int)

  /** The formats that have a fixed-length sample. */
  predicate FixedWidth(f: AudioSampleFormat) {
    f == Float32 || f == SInt16 || f == SInt32
  }

  function GetBitsPerSample(f: AudioSampleFormat): (r: Outcome<int>)
    ensures r.Ok? <==> FixedWidth(f)
    ensures r.Throw? ==> r.fault == InvalidOperation
    ensures f == Float32 || f == SInt32 ==> r == Ok(32)
    ensures f == SInt16 ==> r == Ok(16)
  {
    match f
    case Float32 => Ok(32)
    case SInt32 => Ok(32)
    case SInt16 => Ok(16)
    case _ => Throw(InvalidOperation)
  }

  function GetBytesPerSample(f: AudioSampleFormat): (r: Outcome<int>)
    ensures r.Ok? <==> FixedWidth(f)
    ensures r.Throw? ==> r.fault == InvalidOperation
    ensures f == Float32 || f == SInt32 ==> r == Ok(4)
    ensures f == SInt16 ==> r == Ok(2)
  {
    match f
    case Float32 => Ok(4)
    case SInt32 => Ok(4)
    case SInt16 => Ok(2)
    case _ => Throw(InvalidOperation)
  }

  /** The width of a fixed-length format, for callers that already know it is one. */
  function Bytes(f: AudioSampleFormat): (b: int)
    requires FixedWidth(f)
    ensures b == 2 || b == 4
    ensures GetBytesPerSample(f) == Ok(b)
  {
    if f == SInt16 then 2 else 4
  }

  function ToAVFormat(f: AudioSampleFormat): (r: Outcome<AVSampleFormat>)
    ensures r.Ok? <==> FixedWidth(f)
    ensures r.Throw? ==> r.fault == InvalidOperation
    ensures r.Ok? ==> r.value in {FmtFlt, FmtS32, FmtS16}
  {
    match f
    case Float32 => Ok(FmtFlt)
    case SInt32 => Ok(FmtS32)
    case SInt16 => Ok(FmtS16)
    case _ => Throw(InvalidOperation)
  }

  function ToAudioSampleFormat(a: AVSampleFormat): (r: Outcome<AudioSampleFormat>)
    ensures r.Ok? <==> a in {FmtFlt, FmtS32, FmtS16}
    ensures r.Throw? ==> r.fault == InvalidOperation
    ensures r.Ok? ==> FixedWidth(r.value)
  {
    match a
    case FmtFlt => Ok(Float32)
    case FmtS32 => Ok(SInt32)
    case FmtS16 => Ok(SInt16)
    case _ => Throw(InvalidOperation)
  }

  /** On every fixed-length format the bit width is eight times the byte width;
      every other format is refused by both helpers alike. */
  lemma BitsAreEightTimesBytes(f: AudioSampleFormat)
    ensures GetBitsPerSample(f).Ok? <==> GetBytesPerSample(f).Ok?
    ensures GetBitsPerSample(f).Ok? ==>
      GetBitsPerSample(f).value == 8 * GetBytesPerSample(f).value
  {
  }

  /** The two conversions are mutually inverse on the three fixed-length formats. */
  lemma FormatRoundTrip(f: AudioSampleFormat, a: AVSampleFormat)
    ensures FixedWidth(f) ==> ToAudioSampleFormat(ToAVFormat(f).value) == Ok(f)
    ensures a in {FmtFlt, FmtS32, FmtS16} ==> ToAVFormat(ToAudioSampleFormat(a).value) == Ok(a)
  {
  }

  /** The output description a decoder is configured with (`AudioInfo`). */
  datatype AudioInfo = AudioInfo(
    sampleRate: int,
    channelCount: int,
    bytesPerSample: int,
    bitRate: int,
    format: AudioSampleFormat)

  const DefaultAudioInfo := AudioInfo(0, 0, 0, 0, None)
}

=== FILE: common.dfy ===
/** Shared vocabulary of the media pipeline model: the constants of the media
    engine, the exceptions the code raises (as `Fault` values), an outcome type
    that carries either a value or a raised fault, and small helpers for the
    C# integer and string semantics that the rest of the model relies on. */
module Common {

  /** The media engine's fixed constants. */
  const AudioSampleLength: int := 1024
  const VideoCacheCount: int := 6
  const AudioCacheCount: int := 12
  const DefaultTimingPeriodMs: int := 15
  const VideoStreamTimebase: int := 90000

  /** The exception kinds raised by the modelled code. */
  datatype Fault =
    | InvalidProgram      // pool allocation failed
    | ObjectDisposed      // use of a released handle or disposed sample
    | OutOfMemory         // buffer too small, pool exhausted, allocation failed
    | ArgumentNull        // null or whitespace argument
    | InvalidArgument     // zero sample count, channel count or sample rate
    | InvalidOperation    // unsupported format, not initialised, retry budget spent
    | NotImplemented      // unsupported frame layout
    | DivideByZero        // integer division by zero
    | FileNotFound        // no native library could be loaded
    | CycleFault          // any exception escaping a worker's cycle logic
    | NullReference       // dereference of a missing native context

  /** A computed value, or the fault that the code raises instead. */
  datatype Outcome<+T> = Ok(value: T) | Throw(fault: Fault) {
    predicate IsFailure() { Throw? }
    function PropagateFailure<U>(): Outcome<U>
      requires Throw?
    {
      Throw(fault)
    }
    function Extract(): T
      requires Ok?
    {
      value
    }
  }

  /** C# `/` on `int`: truncates toward zero, unlike Dafny's Euclidean `/`. */
  function TruncDiv(a: int, b: int): (q: int)
    requires b != 0
    ensures b > 0 && a >= 0 ==> q == a / b
    ensures q * b == a - TruncRem(a, b)
  {
    if a >= 0 then (if b > 0 then a / b else -(a / -b))
    else (if b > 0 then -((-a) / b) else (-a) / (-b))
  }

  /** The remainder that goes with `TruncDiv`; it has the sign of the dividend. */
  function TruncRem(a: int, b: int): (r: int)
    requires b != 0
    ensures a >= 0 ==> 0 <= r < if b > 0 then b else -b
    ensures a < 0 ==> -(if b > 0 then b else -b) < r <= 0
  {
    if a >= 0 then a % (if b > 0 then b else -b)
    else -((-a) % (if b > 0 then b else -b))
  }

  /** `List<T>.Remove`: drops the first element equal to `x`, if any. */
  function RemoveFirst<T(==)>(s: seq<T>, x: T): (r: seq<T>)
    ensures x !in s ==> r == s
    ensures x in s ==> |r| == |s| - 1
    ensures multiset(r) == multiset(s) - multiset{x}
  {
    if |s| == 0 then []
    else
      assert s == [s[0]] + s[1..];
      if s[0] == x then s[1..]
      else [s[0]] + RemoveFirst(s[1..], x)
  }

  /** The first index of `x` in `s` (requires `x in s`). */
  function IndexOf<T(==)>(s: seq<T>, x: T): (i: nat)
    requires x in s
    ensures i < |s| && s[i] == x
    ensures forall j :: 0 <= j < i ==> s[j] != x
  {
    if s[0] == x then 0 else 1 + IndexOf(s[1..], x)
  }

  /** `Disconnect` keeps the other elements in order: removing the first `x` is
      cutting the sequence at the first occurrence of `x`. */
  lemma {:induction false} RemoveFirstCutsAtFirstOccurrence<T>(s: seq<T>, x: T)
    requires x in s
    ensures RemoveFirst(s, x) == s[..IndexOf(s, x)] + s[IndexOf(s, x) + 1..]
  {
    if s[0] == x {
      assert s[..0] + s[1..] == s[1..];
    } else {
      var t := s[1..];
      assert IndexOf(s, x) == IndexOf(t, x) + 1;
      assert RemoveFirst(s, x) == [s[0]] + RemoveFirst(t, x);
      RemoveFirstCutsAtFirstOccurrence(t, x);
      ConsCut(s, IndexOf(s, x), RemoveFirst(t, x));
    }
  }

  /** Putting the head back in front of a cut tail is cutting the whole. */
  lemma ConsCut<T>(s: seq<T>, i: nat, r: seq<T>)
    requires 1 <= i < |s| && r == s[1..][..i - 1] + s[1..][i..]
    ensures [s[0]] + r == s[..i] + s[i + 1..]
  {
    assert s[1..][..i - 1] == s[1..i];
    assert s[1..][i..] == s[i + 1..];
    assert [s[0]] + s[1..i] == s[..i];
  }

  /** ASCII case folding, as `string.ToLower` acts on the ASCII letters. */
  function LowerChar(c: char): (d: char)
    ensures 'A' <= c <= 'Z' ==> d as int == c as int + 32
    ensures !('A' <= c <= 'Z') ==> d == c
    ensures !('A' <= d <= 'Z')
  {
    if 'A' <= c <= 'Z' then (c as int + 32) as char else c
  }

  function Lower(s: string): (t: string)
    ensures |t| == |s|
    ensures forall i :: 0 <= i < |s| ==> t[i] == LowerChar(s[i])
  {
    if |s| == 0 then "" else [LowerChar(s[0])] + Lower(s[1..])
  }

  /** Lowering twice is lowering once. */
  lemma LowerIdempotent(s: string)
    ensures Lower(Lower(s)) == Lower(s)
  {
    var l := Lower(s);
    assert forall i :: 0 <= i < |l| ==> LowerChar(l[i]) == l[i];
  }

  /** `char.IsWhiteSpace`: the control characters tab to carriage return,
      U+0085, and the Unicode space, line and paragraph separators
      (categories Zs, Zl and Zp). */
  predicate IsWhiteSpace(c: char) {
    var n := c as int;
    || c == ' ' || (9 <= n <= 13) || n == 0x85 || n == 0xA0
    || n == 0x1680 || (0x2000 <= n <= 0x200A) || n == 0x2028 || n == 0x2029
    || n == 0x202F || n == 0x205F || n == 0x3000
  }

  /** `string.IsNullOrWhiteSpace` for a non-null string. */
  predicate IsBlank(s: string) {
    forall i :: 0 <= i < |s| ==> IsWhiteSpace(s[i])
  }

  predicate StartsWith(s: string, prefix: string) {
    |prefix| <= |s| && s[..|prefix|] == prefix
  }

  predicate EndsWith(s: string, suffix: string) {
    |suffix| <= |s| && s[|s| - |suffix|..] == suffix
  }

  /** `string.Contains(sub)`: `sub` occurs somewhere in `s`. */
  predicate Contains(s: string, sub: string) {
    exists i :: 0 <= i <= |s| && StartsWith(s[i..], sub)
  }

  /** `string.TrimEnd()`: drops trailing white space. */
  function TrimEnd(s: string): (t: string)
    ensures |t| <= |s| && t == s[..|t|]
    ensures |t| > 0 ==> !IsWhiteSpace(t[|t| - 1])
    ensures forall i :: |t| <= i < |s| ==> IsWhiteSpace(s[i])
  {
    if |s| == 0 then ""
    else if IsWhiteSpace(s[|s| - 1]) then TrimEnd(s[..|s| - 1])
    else s
  }

  /** White space beyond Latin-1 counts too: an ideographic space is blank,
      and it is trimmed off the end of a line like an ASCII space. */
  lemma WideSpaceIsWhiteSpace()
    ensures IsBlank("\U{3000}\U{2028}")
    ensures TrimEnd("a\U{3000}\U{205F} ") == "a"
  {
    var s := "a\U{3000}\U{205F} ";
    assert s[..3] == "a\U{3000}\U{205F}" && s[..2] == "a\U{3000}" && s[..1] == "a";
    assert TrimEnd(s) == TrimEnd(s[..3]) == TrimEnd(s[..2]) == TrimEnd(s[..1]);
  }

  /** `string.Join(string.Empty, parts)`. */
  function Concat(parts: seq<string>): (s: string)
    ensures |parts| == 0 ==> s == ""
  {
    if |parts| == 0 then "" else Concat(parts[..|parts| - 1]) + parts[|parts| - 1]
  }

  /** Multiplying by a non-negative factor keeps order. */
  lemma MulLe(m: int, a: int, b: int)
    requires m >= 0 && a <= b
    ensures m * a <= m * b
  {
    var d := b - a;
    assert m * b == m * a + m * d;
  }

  /** A non-negative number divided by a positive one is non-negative. */
  lemma DivNonNegative(x: int, m: int)
    requires x >= 0 && m > 0
    ensures x / m >= 0
  {
    var q := x / m;
    assert x == m * q + x % m;
    if q < 0 {
      MulLe(m, q, -1);
    }
  }

  /** Quotient and remainder are unique. */
  lemma {:induction false} DivUnique(x: int, m: int, q: int, r: int)
    requires m > 0 && 0 <= r < m && x == m * q + r
    ensures x / m == q && x % m == r
  {
    var q0, r0 := x / m, x % m;
    assert x == m * q0 + r0;
    if q0 < q {
      MulLe(m, q0 + 1, q);
    } else if q < q0 {
      MulLe(m, q + 1, q0);
    }
  }

  /** Dividing by two positive divisors in turn is dividing by their product. */
  lemma {:induction false} DivDiv(x: int, a: int, b: int)
    requires x >= 0 && a > 0 && b > 0
    ensures (x / a) / b == x / (a * b)
  {
    var q, r := x / a, x % a;
    var q2, r2 := q / b, q % b;
    assert x == a * q + r;
    assert q == b * q2 + r2;
    assert a * q == (a * b) * q2 + a * r2 by {
      assert a * (b * q2 + r2) == a * (b * q2) + a * r2;
      assert a * (b * q2) == (a * b) * q2;
    }
    MulLe(a, r2, b - 1);
    assert a * (b - 1) == a * b - a;
    DivUnique(x, a * b, q2, a * r2 + r);
  }
}

=== FILE: decoder.dfy ===
/** The output queue every decoder keeps (`Decoder.cs`): decoded pooled
    samples wait there until the reader takes them, and teardown releases
    whatever is left. Decoding itself is native and is left out; `Enqueue`
    stands for a decoded sample being queued. */
module Decoders {
  import opened Common

  datatype DecoderQueue = DecoderQueue(
    queue: seq<nat>,      // pooled handles waiting, oldest first
    enqueued: seq<nat>,   // every handle ever queued, in order
    removed: seq<nat>,    // every handle taken off the queue, in order
    released: seq<nat>,   // handles whose reference the decoder released
    disposed: bool)

  /** Handles leave in the order they came, and only removed handles are
      released. */
  predicate Fifo(d: DecoderQueue) {
    d.enqueued == d.removed + d.queue && multiset(d.released) <= multiset(d.removed)
  }

  /** What `GetSample` hands back: a pooled handle, or null. */
  datatype Got = Nothing | Sample(id: nat)

  const NewDecoderQueue: DecoderQueue := DecoderQueue([], [], [], [], false)

  function Enqueue(d: DecoderQueue, id: nat): (r: DecoderQueue)
    ensures Fifo(d) ==> Fifo(r)
    ensures r.queue == d.queue + [id]
  {
    d.(queue := d.queue + [id], enqueued := d.enqueued + [id])
  }

  /** `GetSample`: the oldest queued handle, or null on an empty queue. */
  function GetSample(d: DecoderQueue): (r: (DecoderQueue, Got))
    ensures |d.queue| == 0 ==> r == (d, Nothing)
    ensures |d.queue| > 0 ==> r.1 == Sample(d.queue[0]) && r.0.queue == d.queue[1..]
    ensures r.0.released == d.released && r.0.enqueued == d.enqueued
    ensures Fifo(d) ==> Fifo(r.0)
  {
    if |d.queue| == 0 then (d, Nothing)
    else
      assert d.removed + d.queue == (d.removed + [d.queue[0]]) + d.queue[1..];
      (d.(queue := d.queue[1..], removed := d.removed + [d.queue[0]]), Sample(d.queue[0]))
  }

  /** `Flush` (and the teardown in `Dispose(bool)`): every queued handle is
      released, oldest first. */
  function Flush(d: DecoderQueue): (r: DecoderQueue)
    ensures |r.queue| == 0
    ensures r.released == d.released + d.queue
    ensures r.enqueued == d.enqueued && r.disposed == d.disposed
    ensures Fifo(d) ==> Fifo(r)
  {
    d.(queue := [], removed := d.removed + d.queue, released := d.released + d.queue)
  }

  /** The public `Dispose`: the teardown runs once. */
  function Dispose(d: DecoderQueue): (r: DecoderQueue)
    ensures (r.disposed && |r.queue| == 0) || d.disposed
    ensures d.disposed ==> r == d
    ensures !d.disposed ==> r.released == d.released + d.queue
    ensures Fifo(d) ==> Fifo(r)
  {
    if d.disposed then d else Flush(d).(disposed := true)
  }

  /** A second `Dispose` releases nothing more. */
  lemma DisposeOnce(d: DecoderQueue)
    ensures Dispose(Dispose(d)) == Dispose(d)
    ensures Dispose(d).released == d.released + (if d.disposed then [] else d.queue)
  {
  }

  /** Taking every sample of a queue yields them in the order they were
      queued: reading `k` samples returns the first `k` of the queue. */
  function TakeMany(d: DecoderQueue, k: nat): (r: (DecoderQueue, seq<nat>))
    requires k <= |d.queue|
    ensures r.0.queue == d.queue[k..]
    ensures r.1 == d.queue[..k]
    ensures Fifo(d) ==> Fifo(r.0)
    decreases k
  {
    if k == 0 then (d, [])
    else
      var (d1, s) := GetSample(d);
      var (d2, rest) := TakeMany(d1, k - 1);
      assert d.queue[..k] == [d.queue[0]] + d.queue[1..][..k - 1];
      (d2, [s.id] + rest)
  }
}

=== FILE: drivers.dfy ===
/** The two ways a worker's cycles are driven: a dedicated thread per
    `MediaWorker` (`MediaWorker.cs`), and one shared timer thread for every
    `ShareThreadWorker` (`ShareThreadWorker.cs`). Each is modelled one
    iteration at a time; sleeping and the thread pool are left to the caller. */
module Drivers {
  import opened Common
  import opened Workers

  /** What the dedicated thread does after one iteration. */
  datatype Next = Exit | Sleep(ms: int) | Again

  /** One iteration of the dedicated thread's loop. A stopped worker ends the
      loop; a cycle that did not begin ends it once the worker is stopped and
      otherwise waits 20 ms; a cycle that began waits for the cycle's answer,
      sleeping only when that is positive. */
  function DriverTick(w: Worker, startOk: bool, logic: CycleLogic): (r: (Worker, Next))
    ensures w.state == Stopped ==> r == (w, Exit)
    ensures r.1 == Exit <==> r.0.state == Stopped
    ensures r.1 == Exit ==> r.0 == TryBeginCycle(w, startOk).worker
    ensures r.1.Sleep? ==> r.1.ms > 0
    ensures w.state != Stopped && TryBeginCycle(w, startOk).began ==>
      var c := ExecuteCycle(TryBeginCycle(w, startOk).worker, 20, logic);
      r.0 == c.worker && (c.wait > 0 ==> r.1 == Sleep(c.wait)) && (c.wait <= 0 ==> r.1 == Again)
  {
    if w.state == Stopped then (w, Exit)
    else
      var b := TryBeginCycle(w, startOk);
      if !b.began then
        if b.worker.state == Stopped then (b.worker, Exit) else (b.worker, Sleep(20))
      else
        var c := ExecuteCycle(b.worker, 20, logic);
        if c.wait > 0 then (c.worker, Sleep(c.wait)) else (c.worker, Again)
  }

  /** The 20 ms wait after a cycle that did not begin is never reached:
      `TryBeginCycle` declines only by stopping the worker, so the loop ends. */
  lemma DeclinedCycleEndsLoop(w: Worker, startOk: bool, logic: CycleLogic)
    ensures !TryBeginCycle(w, startOk).began ==> DriverTick(w, startOk, logic).1 == Exit
  {
  }

  /** An idle (Paused) worker polls every 20 ms; only a Running worker's logic
      chooses the wait. */
  lemma PausedWorkerPolls(w: Worker, logic: CycleLogic)
    requires w.state == Paused && w.desired == Paused
    ensures DriverTick(w, true, logic) == (w.(cancelled := false), Sleep(20))
  {
  }

  /** `ShareThreadWorker.OnQuantumTicked`: a cycle runs only when it begins. */
  function QuantumTick(w: Worker, startOk: bool, logic: CycleLogic): (r: (Worker, bool))
    ensures r.1 <==> TryBeginCycle(w, startOk).began && TryBeginCycle(w, startOk).worker.state == Running
    ensures !TryBeginCycle(w, startOk).began ==> r.0 == TryBeginCycle(w, startOk).worker
    ensures w.state == Stopped ==> r.0 == w && !r.1
  {
    var b := TryBeginCycle(w, startOk);
    if !b.began then (b.worker, false)
    else
      var c := ExecuteCycle(b.worker, 20, logic);
      (c.worker, c.ran)
  }

  /** One shared-thread timer: the re-entrancy flag and the disposing flag. */
  datatype Timer = Timer(running: bool, disposing: bool)

  /** The shared timer thread's state: registered timers in registration order,
      the two pending queues, every timer ever made (a timer's id is its
      position), and the tick counter. */
  datatype Scheduler = Scheduler(
    registered: seq<nat>,
    pendingAdd: seq<nat>,
    pendingRemove: seq<nat>,
    timers: seq<Timer>,
    tickCount: int)

  predicate ValidScheduler(s: Scheduler) {
    && 0 <= s.tickCount < 60
    && (forall i :: 0 <= i < |s.registered| ==> s.registered[i] < |s.timers|)
    && (forall i :: 0 <= i < |s.pendingAdd| ==> s.pendingAdd[i] < |s.timers|)
    && (forall i :: 0 <= i < |s.pendingRemove| ==> s.pendingRemove[i] < |s.timers|)
  }

  const EmptyScheduler: Scheduler := Scheduler([], [], [], [], 0)

  /** Constructing a timer only queues it for registration. */
  function NewTimer(s: Scheduler): (r: (Scheduler, nat))
    requires ValidScheduler(s)
    ensures ValidScheduler(r.0)
    ensures r.1 == |s.timers| && r.0.timers == s.timers + [Timer(false, false)]
    ensures r.0.pendingAdd == s.pendingAdd + [r.1]
    ensures r.0.registered == s.registered && r.0.pendingRemove == s.pendingRemove
  {
    var id := |s.timers|;
    (s.(timers := s.timers + [Timer(false, false)], pendingAdd := s.pendingAdd + [id]), id)
  }

  /** `Dispose` of a timer: always blocks further dispatch by setting the
      running flag; only the first call marks it disposing and queues its
      removal. */
  function DisposeTimer(s: Scheduler, id: nat): (r: Scheduler)
    requires ValidScheduler(s) && id < |s.timers|
    ensures ValidScheduler(r)
    ensures |r.timers| == |s.timers|
    ensures r.timers[id].running && r.timers[id].disposing
    ensures forall j :: 0 <= j < |s.timers| && j != id ==> r.timers[j] == s.timers[j]
    ensures s.timers[id].disposing ==> r.pendingRemove == s.pendingRemove
    ensures !s.timers[id].disposing ==> r.pendingRemove == s.pendingRemove + [id]
    ensures r.registered == s.registered && r.pendingAdd == s.pendingAdd
  {
    var t := s.timers[id].(running := true);
    if t.disposing then s.(timers := s.timers[id := t])
    else s.(timers := s.timers[id := t.(disposing := true)], pendingRemove := s.pendingRemove + [id])
  }

  /** The finally-block of a dispatched callback: clears the running flag,
      whether or not the callback raised. */
  function FinishCallback(s: Scheduler, id: nat): (r: Scheduler)
    requires ValidScheduler(s) && id < |s.timers|
    ensures ValidScheduler(r)
    ensures |r.timers| == |s.timers|
    ensures !r.timers[id].running && r.timers[id].disposing == s.timers[id].disposing
  {
    s.(timers := s.timers[id := s.timers[id].(running := false)])
  }

  predicate Idle(t: Timer) { !t.running && !t.disposing }

  /** The dispatch step of a tick: every registered timer that is neither
      running nor disposing gets its running flag set and its callback
      dispatched. `ids` is the part of the registered list still to visit. */
  function Dispatch(timers: seq<Timer>, ids: seq<nat>): (r: (seq<Timer>, seq<nat>))
    requires forall i :: 0 <= i < |ids| ==> ids[i] < |timers|
    ensures |r.0| == |timers|
    ensures forall i :: 0 <= i < |r.1| ==> r.1[i] in ids && Idle(timers[r.1[i]]) && r.0[r.1[i]].running
    ensures forall i :: 0 <= i < |ids| ==> Idle(timers[ids[i]]) ==> ids[i] in r.1
    ensures forall j :: 0 <= j < |timers| && j !in ids ==> r.0[j] == timers[j]
    ensures forall j :: 0 <= j < |timers| ==> r.0[j].disposing == timers[j].disposing
    ensures forall j :: 0 <= j < |timers| && timers[j].running ==> r.0[j].running
    decreases |ids|
  {
    if |ids| == 0 then (timers, [])
    else
      var id := ids[0];
      var next := if Idle(timers[id]) then timers[id := timers[id].(running := true)] else timers;
      var rest := Dispatch(next, ids[1..]);
      var r := if Idle(timers[id]) then (rest.0, [id] + rest.1) else rest;
      DispatchStep(timers, ids, next, rest, r);
      r
  }

  /** Visiting the head of `ids` and then dispatching the tail keeps the
      guarantees of `Dispatch` for the whole of `ids`. */
  lemma DispatchStep(timers: seq<Timer>, ids: seq<nat>, next: seq<Timer>,
                     rest: (seq<Timer>, seq<nat>), r: (seq<Timer>, seq<nat>))
    requires |ids| > 0 && forall i :: 0 <= i < |ids| ==> ids[i] < |timers|
    requires next == if Idle(timers[ids[0]]) then timers[ids[0] := timers[ids[0]].(running := true)] else timers
    requires r == if Idle(timers[ids[0]]) then (rest.0, [ids[0]] + rest.1) else rest
    requires |rest.0| == |next|
    requires forall i :: 0 <= i < |rest.1| ==> rest.1[i] in ids[1..] && Idle(next[rest.1[i]]) && rest.0[rest.1[i]].running
    requires forall i :: 1 <= i < |ids| ==> Idle(next[ids[i]]) ==> ids[i] in rest.1
    requires forall j :: 0 <= j < |next| && j !in ids[1..] ==> rest.0[j] == next[j]
    requires forall j :: 0 <= j < |next| ==> rest.0[j].disposing == next[j].disposing
    requires forall j :: 0 <= j < |next| && next[j].running ==> rest.0[j].running
    ensures |r.0| == |timers|
    ensures forall i :: 0 <= i < |r.1| ==> r.1[i] in ids && Idle(timers[r.1[i]]) && r.0[r.1[i]].running
    ensures forall i :: 0 <= i < |ids| ==> Idle(timers[ids[i]]) ==> ids[i] in r.1
    ensures forall j :: 0 <= j < |timers| && j !in ids ==> r.0[j] == timers[j]
    ensures forall j :: 0 <= j < |timers| ==> r.0[j].disposing == timers[j].disposing
    ensures forall j :: 0 <= j < |timers| && timers[j].running ==> r.0[j].running
  {
    assert forall i :: 1 <= i < |ids| ==> ids[i] in ids[1..];
  }

  /** `RegisteredTimers.Remove` for each queued removal, in order. */
  function RemoveAll(reg: seq<nat>, rem: seq<nat>): (r: seq<nat>)
    ensures multiset(r) == multiset(reg) - multiset(rem)
    decreases |rem|
  {
    if |rem| == 0 then reg
    else
      assert rem == [rem[0]] + rem[1..];
      RemoveAll(RemoveFirst(reg, rem[0]), rem[1..])
  }

  /** Removing never introduces an element. */
  lemma RemoveAllSubset(reg: seq<nat>, rem: seq<nat>, x: nat)
    requires x in RemoveAll(reg, rem)
    ensures x in reg
  {
    var m: multiset<nat> := multiset(RemoveAll(reg, rem));
    assert m[x] > 0;
  }

  /** One tick of the shared thread: advance the tick counter (it restarts at
      60), dispatch every idle registered timer, then register the timers
      queued for adding, then unregister those queued for removal. The timers
      that were dispatched are returned. */
  function SchedulerTick(s: Scheduler): (r: (Scheduler, seq<nat>))
    requires ValidScheduler(s)
    ensures ValidScheduler(r.0)
    ensures r.0.tickCount == (if s.tickCount + 1 >= 60 then 0 else s.tickCount + 1)
    ensures forall i :: 0 <= i < |r.1| ==> r.1[i] in s.registered && Idle(s.timers[r.1[i]])
    ensures forall i :: 0 <= i < |s.registered| ==> Idle(s.timers[s.registered[i]]) ==> s.registered[i] in r.1
    ensures |r.0.timers| == |s.timers|
    ensures forall i :: 0 <= i < |r.1| ==> r.0.timers[r.1[i]].running
    ensures r.0.registered == RemoveAll(s.registered + s.pendingAdd, s.pendingRemove)
    ensures r.0.pendingAdd == [] && r.0.pendingRemove == []
  {
    var count := if s.tickCount + 1 >= 60 then 0 else s.tickCount + 1;
    var d := Dispatch(s.timers, s.registered);
    var added := s.registered + s.pendingAdd;
    assert forall i :: 0 <= i < |added| ==> added[i] < |s.timers| by {
      assert forall i :: 0 <= i < |added| ==> added[i] in s.registered || added[i] in s.pendingAdd;
    }
    var reg := RemoveAll(added, s.pendingRemove);
    forall i | 0 <= i < |reg|
      ensures reg[i] < |s.timers|
    {
      RemoveAllSubset(added, s.pendingRemove, reg[i]);
    }
    (Scheduler(reg, [], [], d.0, count), d.1)
  }

  /** A timer made during this tick's dispatch is not run by it, but it is
      registered at the end of the tick and so runs on the next one. */
  lemma AddedTimerRunsNextTick(s: Scheduler)
    requires ValidScheduler(s)
    ensures var (s1, id) := NewTimer(s);
      var (s2, ran) := SchedulerTick(s1);
      id !in ran && id in s2.registered
      && var (s3, ran3) := SchedulerTick(s2); id in ran3
  {
    var s1, id: nat := NewTimer(s).0, NewTimer(s).1;
    assert id !in s.registered;
    assert id !in s1.pendingRemove;
    var added: seq<nat> := s1.registered + s1.pendingAdd;
    assert added[|added| - 1] == id;
    var ma: multiset<nat> := multiset(added);
    var mr: multiset<nat> := multiset(s1.pendingRemove);
    assert ma[id] >= 1 && mr[id] == 0;
    var s2 := SchedulerTick(s1).0;
    var mg: multiset<nat> := multiset(s2.registered);
    assert mg[id] >= 1;
    assert id in s2.registered;
    assert Idle(s2.timers[id]) by {
      assert Dispatch(s1.timers, s1.registered).0[id] == s1.timers[id];
    }
    var k :| 0 <= k < |s2.registered| && s2.registered[k] == id;
    assert Idle(s2.timers[s2.registered[k]]);
  }

  /** A timer made and disposed before the same tick drains its queues ends
      up not registered. */
  lemma AddedAndDisposedIsNeverRegistered(s: Scheduler)
    requires ValidScheduler(s)
    ensures var (s1, id) := NewTimer(s);
      var s2 := DisposeTimer(s1, id);
      var (s3, ran) := SchedulerTick(s2);
      id !in s3.registered && id !in ran
  {
    var s1, id: nat := NewTimer(s).0, NewTimer(s).1;
    var s2 := DisposeTimer(s1, id);
    assert id !in s.registered && id !in s.pendingAdd && id !in s.pendingRemove;
    var added: seq<nat> := s2.registered + s2.pendingAdd;
    var one: multiset<nat> := multiset{id};
    var ma: multiset<nat> := multiset(added);
    assert ma[id] == 1 by {
      assert multiset(s2.pendingAdd) == multiset(s.pendingAdd) + one;
    }
    var mr: multiset<nat> := multiset(s2.pendingRemove);
    assert mr[id] == 1 by {
      assert mr == multiset(s.pendingRemove) + one;
    }
    var reg: seq<nat> := RemoveAll(added, s2.pendingRemove);
    var mg: multiset<nat> := multiset(reg);
    assert mg[id] == 0;
  }

  /** A disposed timer is never dispatched again, even after the callback that
      was in flight clears its running flag. */
  lemma DisposedTimerNotDispatched(s: Scheduler, id: nat)
    requires ValidScheduler(s) && id < |s.timers| && s.timers[id].disposing
    ensures id !in SchedulerTick(s).1
    ensures id !in SchedulerTick(FinishCallback(s, id)).1
  {
  }

  /** Disposing a timer twice queues its removal once. */
  lemma DisposeTimerTwiceQueuesOnce(s: Scheduler, id: nat)
    requires ValidScheduler(s) && id < |s.timers| && !s.timers[id].disposing
    ensures DisposeTimer(DisposeTimer(s, id), id).pendingRemove == s.pendingRemove + [id]
  {
  }
}

=== FILE: encoder.dfy ===
/** The encoder worker (`Encoder.cs`): a bounded queue of cloned pooled
    samples, an initialisation retry budget, and a cycle that encodes the
    oldest sample and releases it only once it has been encoded. The native
    `Initialize` and `Encode` are oracles. */
module Encoders {
  import opened Common
  import opened Events
  import Workers

  datatype Encoder = Encoder(
    kind: SampleKind,     // the sample type the encoder is built for
    queue: seq<nat>,      // cloned handles waiting, oldest first
    inited: bool,
    initCount: int,       // consecutive failed initialisations
    cloned: seq<nat>,     // every clone the encoder took
    released: seq<nat>,   // every clone it released
    deinits: nat)         // how often the codec was torn down

  /** A new encoder. Both concrete constructors call `Initialize`
      (`ctorInitOk` is its answer); only the video encoder's sets the
      initialised flag, so an audio encoder always starts uninitialised and
      initialises again in its first cycle. */
  function NewEncoder(kind: SampleKind, ctorInitOk: bool): (e: Encoder)
    ensures |e.queue| == 0 && e.initCount == 0 && e.kind == kind
    ensures e.inited <==> kind == VideoKind && ctorInitOk
    ensures Accounted(e) && WithinCeiling(e)
  {
    Encoder(kind, [], kind == VideoKind && ctorInitOk, 0, [], [], 0)
  }

  /** Every clone taken is either still queued or released. */
  predicate Accounted(e: Encoder) {
    Ledger(e.cloned, e.released, e.queue)
  }

  /** A bounded encoder never holds more than its ceiling. */
  predicate WithinCeiling(e: Encoder) {
    e.kind != OtherKind ==> |e.queue| <= Ceiling(e.kind)
  }

  predicate IsEncoding(e: Encoder) {
    e.inited && |e.queue| > 0
  }

  /** `QueueEvent`: a pooled sample of the encoder's own type is cloned into
      the queue unless the queue is at the ceiling; any other object is
      refused. Cloning a released handle raises (`cloneOk` false). */
  function QueueEvent(e: Encoder, ev: Event, cloneOk: bool): (r: Outcome<(Encoder, bool)>)
    ensures r.Throw? <==> ev.PooledEvent? && ev.kind == e.kind && Admits(|e.queue|, e.kind) && !cloneOk
    ensures r.Throw? ==> r.fault == ObjectDisposed
    ensures r.Ok? && r.value.1 <==>
      ev.PooledEvent? && ev.kind == e.kind && Admits(|e.queue|, e.kind) && cloneOk
    ensures r.Ok? && r.value.1 ==> r.value.0 == e.(queue := e.queue + [ev.id], cloned := e.cloned + [ev.id])
    ensures r.Ok? && !r.value.1 ==> r.value.0 == e
    ensures r.Ok? && Accounted(e) ==> Accounted(r.value.0)
    ensures r.Ok? && WithinCeiling(e) ==> WithinCeiling(r.value.0)
  {
    match ev
    case PooledEvent(id, k) =>
      if k != e.kind || !Admits(|e.queue|, k) then Ok((e, false))
      else if !cloneOk then Throw(ObjectDisposed)
      else Ok((e.(queue := e.queue + [id], cloned := e.cloned + [id]), true))
    case _ => Ok((e, false))
  }

  /** `QueueEvent` called for each of `evs` in turn, every clone succeeding,
      with nothing dequeued in between. */
  function QueueAll(e: Encoder, evs: seq<Event>): (r: Encoder)
    decreases |evs|
  {
    if |evs| == 0 then e
    else QueueEvent(QueueAll(e, evs[..|evs| - 1]), evs[|evs| - 1], true).value.0
  }

  /** However many payloads arrive, a bounded encoder's queue stays within
      its ceiling. */
  lemma {:induction false} QueueingKeepsCeiling(e: Encoder, evs: seq<Event>)
    requires WithinCeiling(e)
    ensures WithinCeiling(QueueAll(e, evs)) && QueueAll(e, evs).kind == e.kind
    decreases |evs|
  {
    if |evs| > 0 {
      QueueingKeepsCeiling(e, evs[..|evs| - 1]);
    }
  }

  /** Samples of the encoder's own bounded kind fill the queue up to the
      ceiling, and every one past it is refused. */
  lemma {:induction false} QueueFillsToCeiling(e: Encoder, evs: seq<Event>)
    requires e.kind != OtherKind && |e.queue| <= Ceiling(e.kind)
    requires forall i :: 0 <= i < |evs| ==> evs[i].PooledEvent? && evs[i].kind == e.kind
    ensures |QueueAll(e, evs).queue| ==
      if |e.queue| + |evs| <= Ceiling(e.kind) then |e.queue| + |evs| else Ceiling(e.kind)
    ensures QueueAll(e, evs).kind == e.kind
    decreases |evs|
  {
    if |evs| > 0 {
      QueueFillsToCeiling(e, evs[..|evs| - 1]);
    }
  }

  /** How one call of the native `Encode` ends. */
  datatype EncodeResult = Encoded | EncodeFailed | DeviceLost | DeviceHung | Crashed

  /** The codec teardown after a device fault, as the code does it: the codec
      context is freed, but the initialised flag stays set. */
  function DeviceFaultAsWritten(e: Encoder): (r: Encoder)
    ensures r.inited == e.inited && r.deinits == e.deinits + 1
  {
    e.(deinits := e.deinits + 1)
  }

  /** The teardown the comment on `Initialize` describes: after a device fault
      the next cycle initialises the codec again. */
  function DeviceFault(e: Encoder): (r: Encoder)
    ensures !r.inited && r.deinits == e.deinits + 1
  {
    e.(deinits := e.deinits + 1, inited := false)
  }

  /** `ExecuteCycleLogic`, with the device-fault teardown as written
      (`asWritten`) or corrected: the wait in milliseconds, or the fault
      raised when the retry budget is spent. */
  function CycleWith(asWritten: bool, e: Encoder, cancelled: bool, initOk: bool, res: EncodeResult)
    : (r: Outcome<(Encoder, int)>)
    ensures CycleShape(e, cancelled, initOk, res, r)
    ensures r.Ok? && r.value.1 == 10 ==> (r.value.0.inited <==> asWritten || res !in {DeviceLost, DeviceHung})
  {
    if cancelled then Ok((e, 0))
    else if |e.queue| == 0 then Ok((e, 5))
    else if !e.inited && e.initCount > 10 then Throw(InvalidOperation)
    else if !e.inited && !initOk then
      Ok((e.(initCount := e.initCount + 1, deinits := e.deinits + 1), 20))
    else
      var e1 := e.(inited := true, initCount := 0);
      match res
      case Encoded =>
        assert e.queue == [e.queue[0]] + e.queue[1..];
        Ok((e1.(queue := e1.queue[1..], released := e1.released + [e1.queue[0]]), 0))
      case DeviceLost => Ok((if asWritten then DeviceFaultAsWritten(e1) else DeviceFault(e1), 10))
      case DeviceHung => Ok((if asWritten then DeviceFaultAsWritten(e1) else DeviceFault(e1), 10))
      case _ => Ok((e1, 10))
  }

  /** What both teardowns share: the cycle's waits, its retry budget, and
      that a sample leaves the queue, released, exactly when it was encoded. */
  predicate CycleShape(e: Encoder, cancelled: bool, initOk: bool, res: EncodeResult, r: Outcome<(Encoder, int)>) {
    && (r.Throw? <==> !cancelled && |e.queue| > 0 && !e.inited && e.initCount > 10)
    && (r.Throw? ==> r.fault == InvalidOperation)
    && (cancelled ==> r == Ok((e, 0)))
    && (!cancelled && |e.queue| == 0 ==> r == Ok((e, 5)))
    && (r.Ok? && r.value.1 == 20 <==> !cancelled && |e.queue| > 0 && !e.inited && e.initCount <= 10 && !initOk)
    && (r.Ok? && r.value.1 == 20 ==>
          r.value.0.initCount == e.initCount + 1 && !r.value.0.inited && r.value.0.deinits == e.deinits + 1)
    && (r.Ok? && r.value.1 == 0 && !cancelled ==>
          |e.queue| > 0 && r.value.0.queue == e.queue[1..] && r.value.0.released == e.released + [e.queue[0]])
    && (r.Ok? && r.value.1 == 10 ==> r.value.0.queue == e.queue && r.value.0.released == e.released)
    && (r.Ok? && r.value.1 == 10 ==>
          r.value.0.deinits == e.deinits + (if res in {DeviceLost, DeviceHung} then 1 else 0))
    && (r.Ok? && r.value.1 in {0, 10} && !cancelled ==> r.value.0.initCount == 0 && (e.inited || initOk))
    && (r.Ok? ==> r.value.1 in {0, 5, 10, 20})
    && (r.Ok? && Accounted(e) ==> Accounted(r.value.0))
    && (r.Ok? && WithinCeiling(e) ==> WithinCeiling(r.value.0))
  }

  /** The cycle as the code is written: after a device fault the encoder
      still counts as initialised. */
  function CycleAsWritten(e: Encoder, cancelled: bool, initOk: bool, res: EncodeResult): (r: Outcome<(Encoder, int)>)
    ensures CycleShape(e, cancelled, initOk, res, r)
    ensures r.Ok? && r.value.1 == 10 ==> r.value.0.inited
  {
    CycleWith(true, e, cancelled, initOk, res)
  }

  /** The cycle with the teardown clearing the initialised flag. */
  function Cycle(e: Encoder, cancelled: bool, initOk: bool, res: EncodeResult): (r: Outcome<(Encoder, int)>)
    ensures CycleShape(e, cancelled, initOk, res, r)
    ensures r.Ok? && r.value.1 == 10 ==> (r.value.0.inited <==> res !in {DeviceLost, DeviceHung})
  {
    CycleWith(false, e, cancelled, initOk, res)
  }

  /** The code as written never initialises again after a device fault: the
      cycle that follows encodes straight away, without calling `Initialize`,
      even when `Initialize` would fail. */
  lemma DeviceLostNeverReinitialises(e: Encoder, res: EncodeResult)
    requires |e.queue| > 0 && !e.inited && e.initCount <= 10
    ensures var r := CycleAsWritten(e, false, true, DeviceLost);
      r.Ok? && r.value.1 == 10 && r.value.0.inited &&
      CycleAsWritten(r.value.0, false, false, res).Ok? &&
      CycleAsWritten(r.value.0, false, false, res).value.1 != 20
  {
  }

  /** With the corrected teardown the cycle after a device fault initialises
      again, and a failing initialisation is counted against the budget. */
  lemma DeviceLostReinitialises(e: Encoder, res: EncodeResult)
    requires |e.queue| > 0 && !e.inited && e.initCount <= 10
    ensures var r := Cycle(e, false, true, DeviceLost);
      r.Ok? && r.value.1 == 10 && !r.value.0.inited &&
      Cycle(r.value.0, false, false, res) == Ok((r.value.0.(initCount := 1, deinits := r.value.0.deinits + 1), 20))
  {
  }

  /** `k` cycles in a row with a queued sample and a failing initialisation,
      under either teardown. */
  function FailInit(asWritten: bool, e: Encoder, k: nat): (r: Outcome<Encoder>)
    decreases k
  {
    if k == 0 then Ok(e)
    else
      match CycleWith(asWritten, e, false, false, Encoded)
      case Throw(f) => Throw(f)
      case Ok((e1, _)) => FailInit(asWritten, e1, k - 1)
  }

  /** The retry budget, which the device-fault teardown does not touch: from
      a fresh failure count, eleven cycles fail their initialisation and wait
      20 ms each, and the twelfth raises. */
  lemma {:induction false} RetryBudget(asWritten: bool, e: Encoder, k: nat)
    requires |e.queue| > 0 && !e.inited && 0 <= e.initCount && e.initCount + k <= 11
    decreases k
    ensures FailInit(asWritten, e, k) == Ok(e.(initCount := e.initCount + k, deinits := e.deinits + k))
  {
    if k > 0 {
      var e1 := e.(initCount := e.initCount + 1, deinits := e.deinits + 1);
      assert CycleWith(asWritten, e, false, false, Encoded) == Ok((e1, 20));
      RetryBudget(asWritten, e1, k - 1);
    }
  }

  lemma RetryBudgetSpent(asWritten: bool, e: Encoder)
    requires |e.queue| > 0 && !e.inited && e.initCount == 0
    ensures FailInit(asWritten, e, 11).Ok?
    ensures CycleWith(asWritten, FailInit(asWritten, e, 11).value, false, false, Encoded) == Throw(InvalidOperation)
  {
    RetryBudget(asWritten, e, 11);
  }

  /** What the worker loop sees of one encoder cycle. */
  function AsLogic(r: Outcome<(Encoder, int)>): (l: Workers.CycleLogic)
    ensures l.Threw? <==> r.Throw?
    ensures r.Ok? ==> l == Workers.Wait(r.value.1)
  {
    if r.Throw? then Workers.Threw else Workers.Wait(r.value.1)
  }

  /** A spent retry budget stops the running encoder worker: the worker loop
      asks for `Stopped` and waits no further. */
  lemma SpentBudgetStopsWorker(asWritten: bool, w: Workers.Worker, e: Encoder)
    requires w.state == Workers.Running
    requires |e.queue| > 0 && !e.inited && e.initCount > 10
    ensures var c := Workers.ExecuteCycle(w, 20, AsLogic(CycleWith(asWritten, e, false, false, Encoded)));
      c.worker.desired == Workers.Stopped && c.wait == 0
  {
  }

  /** `OnDisposing`: every queued clone is released. */
  function OnDisposing(e: Encoder): (r: Encoder)
    ensures |r.queue| == 0 && r.released == e.released + e.queue
    ensures Accounted(e) ==> Accounted(r)
  {
    e.(queue := [], released := e.released + e.queue)
  }

  /** Once teardown has run every clone the encoder took has been released. */
  lemma DisposedEncoderReleasedEverything(e: Encoder)
    requires Accounted(e)
    ensures multiset(OnDisposing(e).released) == multiset(e.cloned)
  {
  }
}

=== FILE: events.dfy ===
/** The payloads that flow between pipeline stages through `Post` and
    `QueueEvent`, and the admission rule the bounded listener queues share.
    Pooled samples and packets are identified by number. */
module Events {
  import opened Common

  /** The payload type of a pooled sample: a `VideoSample`, an `AudioSample`,
      or any other sample type. */
  datatype SampleKind = VideoKind | AudioKind | OtherKind

  /** What a stage can be handed: a pooled sample, a compressed packet, the
      end-of-stream sentinel, or anything else. */
  datatype Event =
    | PooledEvent(id: nat, kind: SampleKind)
    | PacketEvent(packet: nat, isAudio: bool)
    | EosEvent
    | OtherEvent

  /** The queue length at which a queue refuses another sample of this kind;
      samples of other kinds are not bounded. */
  function Ceiling(k: SampleKind): (c: int)
    ensures k == VideoKind ==> c == VideoCacheCount
    ensures k == AudioKind ==> c == AudioCacheCount
    ensures k == OtherKind ==> c < 0
  {
    match k
    case VideoKind => 6
    case AudioKind => 12
    case OtherKind => -1
  }

  /** Whether a queue of length `n` still admits a sample of kind `k`. */
  predicate Admits(n: int, k: SampleKind) {
    k == OtherKind || n < Ceiling(k)
  }

  /** Hand-over accounting for a queue of pooled handles: every reference the
      queue took (`taken`) is either still queued or has been released. */
  predicate Ledger(taken: seq<nat>, released: seq<nat>, queue: seq<nat>) {
    multiset(taken) == multiset(released) + multiset(queue)
  }
}

=== FILE: ff_audio_encoder.dfy ===
/** The AAC encoder's own bookkeeping (`FFAudioEncoder.cs`): splitting an
    interleaved float frame into the planes the codec wants, and the
    presentation-time counter. PCM values are opaque here (`int` stands for
    a `float`). */
module AudioEncoding {
  import opened Common

  /** Frames per encoded sample. */
  const FrameLength: int := AudioSampleLength

  /** The two planes of the codec frame after `FillBuffer`. */
  datatype Planes = Planes(left: seq<int>, right: seq<int>)

  /** Interleaving two planes: the inverse of the stereo split. */
  function Interleave(left: seq<int>, right: seq<int>): (pcm: seq<int>)
    requires |left| == |right|
    ensures |pcm| == 2 * |left|
    ensures forall i :: 0 <= i < |left| ==> pcm[2 * i] == left[i] && pcm[2 * i + 1] == right[i]
  {
    if |left| == 0 then []
    else Interleave(left[..|left| - 1], right[..|right| - 1]) + [left[|left| - 1], right[|right| - 1]]
  }

  /** `FillBuffer`: a stereo frame (1024 frames of two values) is split
      sample by sample (the codec frame must be planar float, `planarFloat`,
      or it raises), a mono frame (1024 values) is copied to the first
      plane, and any other channel count leaves the planes as they were
      (`before`). */
  method FillBuffer(pcm: seq<int>, channels: int, planarFloat: bool, before: Planes) returns (r: Outcome<Planes>)
    requires channels == 2 ==> |pcm| >= 2 * FrameLength
    requires channels == 1 ==> |pcm| >= FrameLength
    ensures channels == 2 && !planarFloat ==> r == Throw(NotImplemented)
    ensures channels == 2 && planarFloat ==>
      (r.Ok? && |r.value.left| == FrameLength && |r.value.right| == FrameLength &&
       forall i :: 0 <= i < FrameLength ==> r.value.left[i] == pcm[2 * i] && r.value.right[i] == pcm[2 * i + 1])
    ensures channels == 1 ==> r == Ok(before.(left := pcm[..FrameLength]))
    ensures channels != 1 && channels != 2 ==> r == Ok(before)
  {
    if channels == 2 {
      if !planarFloat {
        return Throw(NotImplemented);
      }
      var left: seq<int> := [];
      var right: seq<int> := [];
      var i := 0;
      while i < FrameLength
        invariant 0 <= i <= FrameLength && |left| == i && |right| == i
        invariant forall j :: 0 <= j < i ==> left[j] == pcm[2 * j] && right[j] == pcm[2 * j + 1]
      {
        left := left + [pcm[2 * i]];
        right := right + [pcm[2 * i + 1]];
        i := i + 1;
      }
      return Ok(Planes(left, right));
    } else if channels == 1 {
      return Ok(before.(left := pcm[..FrameLength]));
    }
    return Ok(before);
  }

  /** Interleaving the split planes gives back the frame that was split. */
  lemma {:induction false} SplitThenInterleave(pcm: seq<int>, p: Planes)
    requires |pcm| == 2 * |p.left| && |p.left| == |p.right|
    requires forall i :: 0 <= i < |p.left| ==> p.left[i] == pcm[2 * i] && p.right[i] == pcm[2 * i + 1]
    ensures Interleave(p.left, p.right) == pcm
  {
    var il := Interleave(p.left, p.right);
    forall k | 0 <= k < |pcm|
      ensures il[k] == pcm[k]
    {
      var i := k / 2;
      if k == 2 * i {
        assert il[2 * i] == p.left[i];
      } else {
        assert k == 2 * i + 1;
        assert il[2 * i + 1] == p.right[i];
      }
    }
  }

  datatype AudioEncoder = AudioEncoder(inited: bool, sampleCount: int, flushed: nat, deinits: nat)

  /** `Start` restarts the presentation time. */
  function Start(e: AudioEncoder): (r: (AudioEncoder, bool))
    ensures r.1 && r.0.sampleCount == 0 && r.0.inited == e.inited
  {
    (e.(sampleCount := 0), true)
  }

  /** `Encode` stamps the frame with the running sample count, advances it
      by one frame length, and reports success whatever the codec said. */
  function Encode(e: AudioEncoder): (r: (AudioEncoder, int, bool))
    ensures r.1 == e.sampleCount && r.0.sampleCount == e.sampleCount + FrameLength
    ensures r.2
  {
    (e.(sampleCount := e.sampleCount + FrameLength), e.sampleCount, true)
  }

  /** Encoding `k` frames in a row after `Start` stamps them 0, 1024, 2048, … */
  lemma {:induction false} PtsRunInFrameSteps(e: AudioEncoder, k: nat)
    ensures Encodes(Start(e).0, k).sampleCount == k * FrameLength
    ensures forall i :: 0 <= i < k ==> EncodedPts(Start(e).0, k)[i] == i * FrameLength
  {
    EncodesClosedForm(Start(e).0, k);
  }

  /** `k` calls of `Encode` in a row. */
  function Encodes(e: AudioEncoder, k: nat): (r: AudioEncoder)
    decreases k
  {
    if k == 0 then e else Encode(Encodes(e, k - 1)).0
  }

  /** The stamps `k` calls of `Encode` in a row give. */
  function EncodedPts(e: AudioEncoder, k: nat): (pts: seq<int>)
    ensures |pts| == k
    decreases k
  {
    if k == 0 then [] else EncodedPts(e, k - 1) + [Encode(Encodes(e, k - 1)).1]
  }

  lemma {:induction false} EncodesClosedForm(e: AudioEncoder, k: nat)
    ensures Encodes(e, k).sampleCount == e.sampleCount + k * FrameLength
    ensures forall i :: 0 <= i < k ==> EncodedPts(e, k)[i] == e.sampleCount + i * FrameLength
    decreases k
  {
    if k > 0 {
      EncodesClosedForm(e, k - 1);
    }
  }

  /** `Stop` flushes the codec only when it was initialised and always tears
      it down. */
  function Stop(e: AudioEncoder): (r: AudioEncoder)
    ensures r.flushed == e.flushed + (if e.inited then 1 else 0)
    ensures r.deinits == e.deinits + 1
    ensures r.inited == e.inited && r.sampleCount == e.sampleCount
  {
    e.(flushed := e.flushed + (if e.inited then 1 else 0), deinits := e.deinits + 1)
  }
}

=== FILE: ff_sinker.dfy ===
/** The FFmpeg muxer's bookkeeping (`FFSinker.cs`): which streams the
    constructor sets up, the packet time stamps, and who owns the output
    context between `Start` and `Stop`. Every native call is an oracle. */
module Muxing {
  import opened Common

  /** The output context as the sinker holds it: none, a live one, or a
      pointer to one that has already been freed. */
  datatype Ctx = NoCtx | Live | Dangling

  datatype FFSinker = FFSinker(
    inited: bool,
    ctx: Ctx,
    videoCount: int,
    audioCount: int,
    frees: nat,       // times the output context was freed
    trailers: nat,    // trailers written
    initCalls: nat)   // stream initialisations attempted

  /** The constructor. A failed context allocation leaves the sinker
      uninitialised. Otherwise the video stream is set up only for a video
      description of non-zero width, and the audio stream only for a
      non-zero sample rate; both calls are made (the `|=` does not short
      circuit), the sinker is initialised iff either succeeded, and only an
      initialised sinker keeps the context. */
  function NewSinker(allocOk: bool, hasVideo: bool, width: int, hasAudio: bool, rate: int,
                     videoOk: bool, audioOk: bool): (s: FFSinker)
    ensures !allocOk ==> !s.inited && s.initCalls == 0
    ensures allocOk ==> (s.inited <==> (hasVideo && width != 0 && videoOk) || (hasAudio && rate != 0 && audioOk))
    ensures allocOk ==> s.initCalls == (if hasVideo && width != 0 then 1 else 0) + (if hasAudio && rate != 0 then 1 else 0)
    ensures s.ctx == Live <==> s.inited
    ensures s.ctx != Dangling && s.frees == 0 && s.trailers == 0
  {
    if !allocOk then FFSinker(false, NoCtx, 0, 0, 0, 0, 0)
    else
      var tryVideo := hasVideo && width != 0;
      var tryAudio := hasAudio && rate != 0;
      var success := (tryVideo && videoOk) || (tryAudio && audioOk);
      var calls := (if tryVideo then 1 else 0) + (if tryAudio then 1 else 0);
      FFSinker(success, if success then Live else NoCtx, 0, 0, 0, 0, calls)
  }

  /** The answers of the native calls `Start` makes. */
  datatype StartAnswers = StartAnswers(noFileFlag: bool, openOk: bool, headerOk: bool)

  /** `Start` as written. The counters are reset first; without a live
      context the first native call (`av_dump_format`) dereferences it, which
      in the source ends the process rather than raising; the model raises
      NullReference in its place. A no-file format or a failed `avio_open`
      frees the context but keeps the pointer. */
  function StartAsWritten(s: FFSinker, a: StartAnswers): (r: Outcome<(FFSinker, bool)>)
  {
    var s1 := s.(videoCount := 0, audioCount := 0);
    if s1.ctx != Live then Throw(NullReference)
    else if a.noFileFlag || !a.openOk then Ok((s1.(ctx := Dangling, frees := s1.frees + 1), false))
    else Ok((s1, a.headerOk))
  }

  /** `Start` with the freed pointer cleared, as the rest of the model uses it. */
  function Start(s: FFSinker, a: StartAnswers): (r: Outcome<(FFSinker, bool)>)
    ensures s.ctx != Live <==> r == Throw(NullReference)
    ensures r.Ok? ==> r.value.0.videoCount == 0 && r.value.0.audioCount == 0
    ensures r.Ok? ==> (r.value.1 <==> !a.noFileFlag && a.openOk && a.headerOk)
    ensures r.Ok? && r.value.1 ==> r.value.0.ctx == Live
    ensures r.Ok? ==> r.value.0.ctx != Dangling
    ensures r.Ok? ==> r.value.0.inited == s.inited && r.value.0.trailers == s.trailers
    ensures FreedAtMostOnce(s) && r.Ok? ==> FreedAtMostOnce(r.value.0)
  {
    var s1 := s.(videoCount := 0, audioCount := 0);
    if s1.ctx != Live then Throw(NullReference)
    else if a.noFileFlag || !a.openOk then Ok((s1.(ctx := NoCtx, frees := s1.frees + 1), false))
    else Ok((s1, a.headerOk))
  }

  /** `Stop`: a held context gets its trailer only when the sinker is
      initialised, and is then freed and forgotten. */
  function Stop(s: FFSinker): (r: FFSinker)
    ensures r.ctx == NoCtx
    ensures s.ctx == NoCtx ==> r == s
    ensures s.ctx != NoCtx ==> r.frees == s.frees + 1
    ensures r.trailers == s.trailers + (if s.ctx != NoCtx && s.inited then 1 else 0)
    ensures FreedAtMostOnce(s) ==> FreedAtMostOnce(r)
  {
    if s.ctx == NoCtx then s
    else s.(ctx := NoCtx, frees := s.frees + 1, trailers := s.trailers + (if s.inited then 1 else 0))
  }

  /** Every context is freed at most once, and a live one not yet at all. */
  predicate FreedAtMostOnce(s: FFSinker) {
    s.frees <= 1 && (s.ctx == Live ==> s.frees == 0) && s.ctx != Dangling
  }

  /** As written, a sinker whose output cannot be opened frees its context in
      `Start`; the worker then calls `Stop`, which writes a trailer into the
      freed context and frees it a second time. */
  lemma StartFailureFreesTwice()
    ensures var s := NewSinker(true, true, 640, false, 0, true, false);
      && FreedAtMostOnce(s)
      && StartAsWritten(s, StartAnswers(false, false, true)).Ok?
      && var started := StartAsWritten(s, StartAnswers(false, false, true)).value.0;
      && started.ctx == Dangling
      && Stop(started).frees == 2 && Stop(started).trailers == 1
  {
  }

  /** The time stamps written into a packet. */
  datatype Stamps = Stamps(pts: int, dts: int, duration: int)

  /** `Process`: routes by `IsAudio`. A video packet is stamped with the video
      frame count and lasts one frame; an audio packet with the audio frame
      count times 1024 samples, lasting 1024. The count advances whether or
      not the write succeeds, and the result is the write's. */
  function Process(s: FFSinker, isAudio: bool, writeOk: bool): (r: (FFSinker, Stamps, bool))
    ensures !isAudio ==> r.1 == Stamps(s.videoCount, s.videoCount, 1)
    ensures isAudio ==> r.1 == Stamps(s.audioCount * AudioSampleLength, s.audioCount * AudioSampleLength, AudioSampleLength)
    ensures r.0.videoCount == s.videoCount + (if isAudio then 0 else 1)
    ensures r.0.audioCount == s.audioCount + (if isAudio then 1 else 0)
    ensures r.0.ctx == s.ctx && r.0.inited == s.inited && r.2 == writeOk
  {
    if isAudio then
      var n := s.audioCount * AudioSampleLength;
      (s.(audioCount := s.audioCount + 1), Stamps(n, n, AudioSampleLength), writeOk)
    else
      (s.(videoCount := s.videoCount + 1), Stamps(s.videoCount, s.videoCount, 1), writeOk)
  }

  /** A packet to mux and the write's answer for it. */
  datatype Packet = Packet(isAudio: bool, writeOk: bool)

  /** Muxing a run of packets, collecting their stamps. */
  function ProcessAll(s: FFSinker, ps: seq<Packet>): (r: (FFSinker, seq<Stamps>))
    ensures |r.1| == |ps|
    decreases |ps|
  {
    if |ps| == 0 then (s, [])
    else
      var (s1, st, _) := Process(s, ps[0].isAudio, ps[0].writeOk);
      var rest := ProcessAll(s1, ps[1..]);
      (rest.0, [st] + rest.1)
  }

  /** Audio packets among the first `n` of a run. */
  function AudioBefore(ps: seq<Packet>, n: nat): (k: nat)
    requires n <= |ps|
    ensures k <= n
  {
    if n == 0 then 0 else AudioBefore(ps, n - 1) + (if ps[n - 1].isAudio then 1 else 0)
  }

  lemma {:induction false} AudioBeforeTail(ps: seq<Packet>, n: nat)
    requires 0 < |ps| && n < |ps|
    ensures AudioBefore(ps, n + 1) == AudioBefore(ps[1..], n) + (if ps[0].isAudio then 1 else 0)
  {
    if n > 0 {
      AudioBeforeTail(ps, n - 1);
    }
  }

  /** Each stream keeps its own clock: packet `i` of a run is stamped by how
      many packets of its own kind came before it, whatever the writes
      answered. After `Start` (both counts 0) audio runs 0, 1024, 2048, ...
      and video 0, 1, 2, .... */
  lemma {:induction false} StampsCountOwnStream(s: FFSinker, ps: seq<Packet>, i: nat)
    requires i < |ps|
    ensures var a := s.audioCount + AudioBefore(ps, i);
      var v := s.videoCount + (i - AudioBefore(ps, i));
      ProcessAll(s, ps).1[i] ==
        if ps[i].isAudio then Stamps(a * AudioSampleLength, a * AudioSampleLength, AudioSampleLength)
        else Stamps(v, v, 1)
    decreases i
  {
    var s1 := Process(s, ps[0].isAudio, ps[0].writeOk).0;
    if i > 0 {
      StampsCountOwnStream(s1, ps[1..], i - 1);
      AudioBeforeTail(ps, i - 1);
      assert ProcessAll(s, ps).1[i] == ProcessAll(s1, ps[1..]).1[i - 1];
    }
  }

  /** A packet whose write failed is retried by the sinker's cycle, and the
      retry is stamped one frame later: the failed stamp is lost. */
  lemma RetryTakesNextStamp(s: FFSinker, isAudio: bool)
    ensures var first := Process(s, isAudio, false);
      var second := Process(first.0, isAudio, true);
      second.1.pts == first.1.pts + (if isAudio then AudioSampleLength else 1)
  {
  }
}

=== FILE: ff_video_encoder.dfy ===
/** The H.264 encoder's own bookkeeping (`FFVideoEncoder.cs`): the default
    profile, the choice of hardware device from the codec name, and the
    presentation-time counter. The codec and device calls are oracles. */
module VideoEncoding {
  import opened Common

  /** Profile and level after construction: a non-positive profile selects
      Main profile (77) at level 4.1 (41). */
  function ProfileDefault(profile: int, level: int): (r: (int, int))
    ensures profile <= 0 ==> r == (77, 41)
    ensures profile > 0 ==> r == (profile, level)
    ensures r.0 > 0
  {
    if profile <= 0 then (77, 41) else (profile, level)
  }

  datatype HwDevice = Qsv | Cuda | D3D11va | NoDevice

  /** The device type the codec name asks for; the first matching suffix wins. */
  function DeviceFor(codecName: string): (d: HwDevice)
    ensures d == Qsv <==> Contains(codecName, "_qsv")
    ensures d == Cuda <==> !Contains(codecName, "_qsv") && Contains(codecName, "_nvenc")
    ensures d == D3D11va <==>
      !Contains(codecName, "_qsv") && !Contains(codecName, "_nvenc") && Contains(codecName, "_amf")
  {
    if Contains(codecName, "_qsv") then Qsv
    else if Contains(codecName, "_nvenc") then Cuda
    else if Contains(codecName, "_amf") then D3D11va
    else NoDevice
  }

  /** `InitHwDevice`: the result, and the device stored. A codec that needs
      no device succeeds without one; a failed creation stores nothing. */
  function InitHwDevice(codecName: string, createOk: bool): (r: (bool, HwDevice))
    ensures DeviceFor(codecName) == NoDevice ==> r == (true, NoDevice)
    ensures DeviceFor(codecName) != NoDevice ==> r.0 == createOk
    ensures r.1 != NoDevice <==> DeviceFor(codecName) != NoDevice && createOk
    ensures r.1 != NoDevice ==> r.1 == DeviceFor(codecName)
  {
    var d := DeviceFor(codecName);
    if d == NoDevice then (true, NoDevice)
    else if !createOk then (false, NoDevice)
    else (true, d)
  }

  /** The suffixes are checked in order: an NVENC name that also mentions
      QSV is given a QSV device. */
  lemma QsvTakesPrecedence()
    ensures DeviceFor("h264_qsv_nvenc") == Qsv
    ensures DeviceFor("h264_nvenc") == Cuda
    ensures DeviceFor("libx264") == NoDevice
  {
    assert StartsWith("h264_qsv_nvenc"[4..], "_qsv");
    assert StartsWith("h264_nvenc"[4..], "_nvenc");
    NvencNameLacksQsv();
    NoUnderscoreNoSuffix("libx264", "_qsv");
    NoUnderscoreNoSuffix("libx264", "_nvenc");
    NoUnderscoreNoSuffix("libx264", "_amf");
  }

  lemma NvencNameLacksQsv()
    ensures !Contains("h264_nvenc", "_qsv")
  {
    forall i | 0 <= i <= 10 ensures !StartsWith("h264_nvenc"[i..], "_qsv") {
      if i == 4 { assert "h264_nvenc"[i..][1] != 'q'; }
      else if i <= 6 { assert "h264_nvenc"[i..][0] != '_'; }
    }
  }

  /** A name with no underscore mentions no underscore-led suffix. */
  lemma NoUnderscoreNoSuffix(s: string, sub: string)
    requires |sub| > 0 && sub[0] == '_'
    requires forall i :: 0 <= i < |s| ==> s[i] != '_'
    ensures !Contains(s, sub)
  {
    forall i | 0 <= i <= |s| ensures !StartsWith(s[i..], sub) {
      if i < |s| { assert s[i..][0] == s[i]; }
    }
  }

  datatype VideoEncoder = VideoEncoder(inited: bool, frameCount: int, flushed: nat, deinits: nat)

  /** `Encode`: a real sample is stamped with the frame count, which then
      advances; a flush (no sample) stamps nothing and leaves the count. The
      call reports success iff the codec took the frame and the packet loop
      ended on "again" or end-of-stream rather than on an error. */
  function Encode(e: VideoEncoder, isFlush: bool, sendOk: bool, receiveOk: bool): (r: Encoded)
    ensures isFlush <==> r.stamp.NoStamp?
    ensures !isFlush ==> r.stamp.pts == e.frameCount && r.after.frameCount == e.frameCount + 1
    ensures isFlush ==> r.after == e
    ensures r.after.inited == e.inited && r.after.deinits == e.deinits
    ensures r.ok <==> sendOk && receiveOk
  {
    var after := if isFlush then e else e.(frameCount := e.frameCount + 1);
    var stamp := if isFlush then NoStamp else Pts(e.frameCount);
    Encoded(after, stamp, sendOk && receiveOk)
  }

  datatype Stamp = NoStamp | Pts(pts: int)
  datatype Encoded = Encoded(after: VideoEncoder, stamp: Stamp, ok: bool)

  /** The encoder after a run of calls; `flushes[i]` tells whether call `i`
      was a flush. The codec's answers do not affect the count. */
  function EncodeAll(e: VideoEncoder, flushes: seq<bool>): (r: VideoEncoder)
    ensures r.inited == e.inited
    decreases |flushes|
  {
    if |flushes| == 0 then e
    else EncodeAll(Encode(e, flushes[0], true, true).after, flushes[1..])
  }

  /** The number of real samples (non-flush calls) in a run. */
  function CountFalse(s: seq<bool>): (n: nat)
    ensures n <= |s|
  {
    if |s| == 0 then 0 else (if s[0] then 0 else 1) + CountFalse(s[1..])
  }

  /** Pts runs 0, 1, 2, ... over the real samples only: after any run, the
      next stamp is the old count plus the number of real samples. */
  lemma {:induction false} PtsCountsSamplesOnly(e: VideoEncoder, flushes: seq<bool>)
    ensures EncodeAll(e, flushes).frameCount == e.frameCount + CountFalse(flushes)
    decreases |flushes|
  {
    if |flushes| > 0 {
      PtsCountsSamplesOnly(Encode(e, flushes[0], true, true).after, flushes[1..]);
    }
  }

  /** `Stop` flushes only an initialised codec, then tears it down. */
  function Stop(e: VideoEncoder): (r: VideoEncoder)
    ensures r.flushed == e.flushed + (if e.inited then 1 else 0)
    ensures r.deinits == e.deinits + 1
    ensures r.frameCount == e.frameCount
  {
    e.(flushed := e.flushed + (if e.inited then 1 else 0), deinits := e.deinits + 1)
  }
}

=== FILE: file_type.dfy ===
/** File-extension lookup tables for image, video and audio files
    (`FileType.cs`). Lookups lower-case their input; `GetExtension` prints the
    enum member's name in lower case after a dot. */
module FileTypes {
  import opened Common

  datatype ImageFileFormat = None | JPG | PNG | JPEG | BMP | GIF
  datatype VideoFileFormat = None | MP4 | MOV | MKV
  datatype AudioFileFormat = None | MP3 | WAV | AAC | APE | FLAC

  /** The C# enum member names, as `ToString()` prints them. */
  function ImageName(f: ImageFileFormat): string {
    match f
    case None => "None" case JPG => "JPG" case PNG => "PNG"
    case JPEG => "JPEG" case BMP => "BMP" case GIF => "GIF"
  }

  function VideoName(f: VideoFileFormat): string {
    match f
    case None => "None" case MP4 => "MP4" case MOV => "MOV" case MKV => "MKV"
  }

  function AudioName(f: AudioFileFormat): string {
    match f
    case None => "None" case MP3 => "MP3" case WAV => "WAV"
    case AAC => "AAC" case APE => "APE" case FLAC => "FLAC"
  }

  /** The extension list offered for image files. */
  function GetExtensions(): (exts: seq<string>)
    ensures |exts| == 5
    ensures forall i :: 0 <= i < |exts| ==> GetImageFileFormat(exts[i]) != ImageFileFormat.None
  {
    [".jpg", ".png", ".jpeg", ".bmp", ".gif"]
  }

  function GetImageExtension(f: ImageFileFormat): (ext: string)
    ensures f == ImageFileFormat.None <==> ext == ""
    ensures f != ImageFileFormat.None ==> ext == "." + Lower(ImageName(f))
  {
    if f == ImageFileFormat.None then "" else "." + Lower(ImageName(f))
  }

  function GetVideoExtension(f: VideoFileFormat): (ext: string)
    ensures f == VideoFileFormat.None <==> ext == ""
    ensures f != VideoFileFormat.None ==> ext == "." + Lower(VideoName(f))
  {
    if f == VideoFileFormat.None then "" else "." + Lower(VideoName(f))
  }

  function GetAudioExtension(f: AudioFileFormat): (ext: string)
    ensures f == AudioFileFormat.None <==> ext == ""
    ensures f != AudioFileFormat.None ==> ext == "." + Lower(AudioName(f))
  {
    if f == AudioFileFormat.None then "" else "." + Lower(AudioName(f))
  }

  /** The lower-case extensions each lookup recognises. */
  predicate KnownImage(e: string) { e == ".jpg" || e == ".png" || e == ".jpeg" || e == ".bmp" || e == ".gif" }
  predicate KnownVideo(e: string) { e == ".mp4" || e == ".mkv" || e == ".mov" }
  predicate KnownAudio(e: string) { e == ".mp3" || e == ".wav" || e == ".aac" || e == ".ape" || e == ".flac" }

  /** Case-insensitive image lookup; both `.jpg` and `.jpeg` give JPG, so the
      JPEG member is never returned. */
  function GetImageFileFormat(ext: string): (f: ImageFileFormat)
    ensures f != ImageFileFormat.None <==> KnownImage(Lower(ext))
    ensures f == JPG <==> Lower(ext) == ".jpg" || Lower(ext) == ".jpeg"
    ensures f != JPEG
    ensures |ext| == 0 ==> f == ImageFileFormat.None
  {
    if |ext| == 0 then ImageFileFormat.None
    else
      var e := Lower(ext);
      if e == ".png" then PNG
      else if e == ".jpg" then JPG
      else if e == ".jpeg" then JPG
      else if e == ".bmp" then BMP
      else if e == ".gif" then GIF
      else ImageFileFormat.None
  }

  function GetVideoFileFormat(ext: string): (f: VideoFileFormat)
    ensures f != VideoFileFormat.None <==> KnownVideo(Lower(ext))
    ensures |ext| == 0 ==> f == VideoFileFormat.None
  {
    if |ext| == 0 then VideoFileFormat.None
    else
      var e := Lower(ext);
      if e == ".mp4" then MP4
      else if e == ".mkv" then MKV
      else if e == ".mov" then MOV
      else VideoFileFormat.None
  }

  function GetAudioFileFormat(ext: string): (f: AudioFileFormat)
    ensures f != AudioFileFormat.None <==> KnownAudio(Lower(ext))
    ensures |ext| == 0 ==> f == AudioFileFormat.None
  {
    if |ext| == 0 then AudioFileFormat.None
    else
      var e := Lower(ext);
      if e == ".mp3" then MP3
      else if e == ".wav" then WAV
      else if e == ".aac" then AAC
      else if e == ".ape" then APE
      else if e == ".flac" then FLAC
      else AudioFileFormat.None
  }

  predicate IsImageFile(ext: string) { GetImageFileFormat(ext) != ImageFileFormat.None }
  predicate IsVideoFile(ext: string) { GetVideoFileFormat(ext) != VideoFileFormat.None }
  predicate IsAudioFile(ext: string) { GetAudioFileFormat(ext) != AudioFileFormat.None }

  /** The lookups ignore case: an extension and its lower-cased form agree. */
  lemma LookupIgnoresCase(ext: string)
    ensures GetImageFileFormat(Lower(ext)) == GetImageFileFormat(ext)
    ensures GetVideoFileFormat(Lower(ext)) == GetVideoFileFormat(ext)
    ensures GetAudioFileFormat(Lower(ext)) == GetAudioFileFormat(ext)
  {
    LowerIdempotent(ext);
    ImageLookupIgnoresCase(ext);
    VideoLookupIgnoresCase(ext);
    AudioLookupIgnoresCase(ext);
  }

  lemma ImageLookupIgnoresCase(ext: string)
    requires Lower(Lower(ext)) == Lower(ext)
    ensures GetImageFileFormat(Lower(ext)) == GetImageFileFormat(ext)
  {
    assert |Lower(ext)| == |ext|;
  }

  lemma VideoLookupIgnoresCase(ext: string)
    requires Lower(Lower(ext)) == Lower(ext)
    ensures GetVideoFileFormat(Lower(ext)) == GetVideoFileFormat(ext)
  {
    assert |Lower(ext)| == |ext|;
  }

  lemma AudioLookupIgnoresCase(ext: string)
    requires Lower(Lower(ext)) == Lower(ext)
    ensures GetAudioFileFormat(Lower(ext)) == GetAudioFileFormat(ext)
  {
    assert |Lower(ext)| == |ext|;
  }

  /** Every named video format survives the trip through its extension. */
  lemma VideoRoundTrip(f: VideoFileFormat)
    requires f != VideoFileFormat.None
    ensures GetVideoFileFormat(GetVideoExtension(f)) == f
  {
    var ext := GetVideoExtension(f);
    ExtensionIsLower(VideoName(f));
    match f
    case MP4 => assert Lower("MP4") == "mp4"; assert ext == ".mp4";
    case MOV => assert Lower("MOV") == "mov"; assert ext == ".mov";
    case MKV => assert Lower("MKV") == "mkv"; assert ext == ".mkv";
  }

  /** Every named audio format survives the trip through its extension. */
  lemma AudioRoundTrip(f: AudioFileFormat)
    requires f != AudioFileFormat.None
    ensures GetAudioFileFormat(GetAudioExtension(f)) == f
  {
    var ext := GetAudioExtension(f);
    ExtensionIsLower(AudioName(f));
    match f
    case MP3 => assert Lower("MP3") == "mp3"; assert ext == ".mp3";
    case WAV => assert Lower("WAV") == "wav"; assert ext == ".wav";
    case AAC => assert Lower("AAC") == "aac"; assert ext == ".aac";
    case APE => assert Lower("APE") == "ape"; assert ext == ".ape";
    case FLAC => assert Lower("FLAC") == "flac"; assert ext == ".flac";
  }

  /** Images round-trip except JPEG, whose extension `.jpeg` reads back as JPG. */
  lemma ImageRoundTrip(f: ImageFileFormat)
    requires f != ImageFileFormat.None
    ensures f != JPEG ==> GetImageFileFormat(GetImageExtension(f)) == f
    ensures f == JPEG ==> GetImageFileFormat(GetImageExtension(f)) == JPG
  {
    var ext := GetImageExtension(f);
    ExtensionIsLower(ImageName(f));
    match f
    case JPG => assert Lower("JPG") == "jpg"; assert ext == ".jpg";
    case PNG => assert Lower("PNG") == "png"; assert ext == ".png";
    case JPEG => assert Lower("JPEG") == "jpeg"; assert ext == ".jpeg";
    case BMP => assert Lower("BMP") == "bmp"; assert ext == ".bmp";
    case GIF => assert Lower("GIF") == "gif"; assert ext == ".gif";
  }

  /** An extension built from a lower-cased name is already lower case. */
  lemma ExtensionIsLower(name: string)
    ensures Lower("." + Lower(name)) == "." + Lower(name)
  {
    var e := "." + Lower(name);
    assert forall i :: 0 <= i < |e| ==> LowerChar(e[i]) == e[i];
  }

  /** `IsImageFile` holds exactly for the listed extensions, in any case. */
  lemma IsImageFileMatchesExtensionList(ext: string)
    ensures IsImageFile(ext) <==> Lower(ext) in GetExtensions()
  {
  }
}

=== FILE: interop.dfy ===
/** FFmpeg start-up and log forwarding (`FFInterop.cs`): the one-time library
    registration and the assembly of FFmpeg's log fragments into lines.
    Loading a library is an oracle; the library list itself (`FFLibrary`) is
    given as data. */
module Interop {
  import opened Common

  /** A native library: its identifier bits (a flag mask, as the set of
      its set bits), whether it was already loaded, and whether loading it
      now succeeds. */
  datatype Library = Library(flagId: set<nat>, wasLoaded: bool, loadOk: bool)

  /** Whether the call asks for the library (its flag meets the requested
      mask) and loads it. */
  predicate Registers(lib: Library, requested: set<nat>) {
    lib.flagId * requested != {} && lib.loadOk
  }

  /** The identifiers collected over the library list: the or of the flags
      of every library the call asked for and loaded, and nothing else. */
  function Registered(libs: seq<Library>, requested: set<nat>): (ids: set<nat>)
    ensures forall b :: b in ids <==> exists i :: 0 <= i < |libs| && Registers(libs[i], requested) && b in libs[i].flagId
  {
    if |libs| == 0 then {}
    else
      var last := libs[|libs| - 1];
      var before := Registered(libs[..|libs| - 1], requested);
      assert forall i :: 0 <= i < |libs| - 1 ==> libs[..|libs| - 1][i] == libs[i];
      if Registers(last, requested) then before + last.flagId else before
  }

  datatype Interop = Interop(isInitialized: bool, libraryIds: set<nat>)

  /** A library is loaded after the call if it was before, or the call asked
      for it and it loaded. */
  predicate LoadedAfter(lib: Library, requested: set<nat>) {
    lib.wasLoaded || Registers(lib, requested)
  }

  /** `Initialize`: a second call answers false and changes nothing. Otherwise
      the requested libraries are loaded; if no library at all is loaded
      afterwards the call raises and leaves the state uninitialised with no
      identifiers; else the identifiers of the libraries it loaded are
      stored and the call answers true. */
  function Initialize(s: Interop, requested: set<nat>, libs: seq<Library>): (r: (Interop, Outcome<bool>))
    ensures s.isInitialized ==> r == (s, Ok(false))
    ensures !s.isInitialized ==>
      (r.1.Throw? <==> forall i :: 0 <= i < |libs| ==> !LoadedAfter(libs[i], requested))
    ensures !s.isInitialized && r.1.Throw? ==> r.1.fault == FileNotFound && r.0 == Interop(false, {})
    ensures !s.isInitialized && r.1.Ok? ==> r.1.value && r.0 == Interop(true, Registered(libs, requested))
  {
    if s.isInitialized then (s, Ok(false))
    else if forall i :: 0 <= i < |libs| ==> !LoadedAfter(libs[i], requested) then
      (Interop(false, {}), Throw(FileNotFound))
    else (Interop(true, Registered(libs, requested)), Ok(true))
  }

  /** Initialising is idempotent: once it has succeeded, further calls with
      any request change nothing. */
  lemma {:induction false} InitializeOnce(s: Interop, r1: set<nat>, r2: set<nat>, libs: seq<Library>, libs2: seq<Library>)
    requires !s.isInitialized && Initialize(s, r1, libs).1.Ok?
    ensures var t := Initialize(s, r1, libs).0;
      t.isInitialized && Initialize(t, r2, libs2) == (t, Ok(false))
  {
  }

  /** A library already loaded by someone else is enough for success, even
      when nothing the call asked for loaded: the call then answers true with
      no identifiers. */
  lemma PreloadedLibrarySucceedsEmpty(f: set<nat>)
    requires f != {}
    ensures Initialize(Interop(false, {}), f, [Library(f, true, false)]) == (Interop(true, {}), Ok(true))
  {
    var libs := [Library(f, true, false)];
    assert LoadedAfter(libs[0], f);
    assert Registered(libs, f) == {};
  }

  /** The message kinds log lines are forwarded with. */
  datatype MessageType = Debug | Error | Info | Trace | Warning

  /** FFmpeg's log levels (libavutil/log.h). */
  const AvLogPanic := 0
  const AvLogFatal := 8
  const AvLogError := 16
  const AvLogWarning := 24
  const AvLogInfo := 32
  const AvLogVerbose := 40
  const AvLogDebug := 48
  const AvLogTrace := 56

  /** The level table; a level not in it is reported as Debug. */
  function MessageTypeOf(level: int): (t: MessageType)
    ensures level in {AvLogPanic, AvLogFatal, AvLogError} ==> t == Error
    ensures level == AvLogWarning ==> t == Warning
    ensures level == AvLogInfo ==> t == Info
    ensures level == AvLogTrace ==> t == Trace
    ensures level !in {AvLogPanic, AvLogFatal, AvLogError, AvLogWarning, AvLogInfo, AvLogTrace} ==> t == Debug
  {
    if level == AvLogDebug then Debug
    else if level == AvLogError || level == AvLogFatal || level == AvLogPanic then Error
    else if level == AvLogInfo then Info
    else if level == AvLogTrace then Trace
    else if level == AvLogWarning then Warning
    else Debug
  }

  datatype Line = Line(kind: MessageType, text: string)

  datatype LogState = LogState(buffer: seq<string>, emitted: seq<Line>)

  /** One log callback: `line` is the fragment FFmpeg formatted for this call. */
  datatype Message = Message(level: int, line: string)

  /** Whether the callback keeps the fragment: its level is within the
      current one and it is not empty. */
  predicate Accepted(m: Message, currentLevel: int) {
    m.level <= currentLevel && m.line != ""
  }

  predicate Terminated(line: string) {
    EndsWith(line, "\n")
  }

  /** `OnFFmpegMessageLogged`: a kept fragment is buffered; a fragment that
      ends a line flushes the buffer as one line, trailing white space
      trimmed, of the kind of the fragment that ended it. */
  function OnMessage(st: LogState, m: Message, currentLevel: int): (r: LogState)
    ensures !Accepted(m, currentLevel) ==> r == st
    ensures Accepted(m, currentLevel) && !Terminated(m.line) ==> r == st.(buffer := st.buffer + [m.line])
    ensures Accepted(m, currentLevel) && Terminated(m.line) ==>
      r.buffer == [] && |r.emitted| == |st.emitted| + 1 && r.emitted[..|st.emitted|] == st.emitted
    ensures Accepted(m, currentLevel) && Terminated(m.line) ==>
      r.emitted[|st.emitted|] == Line(MessageTypeOf(m.level), TrimEnd(Concat(st.buffer + [m.line])))
  {
    if !Accepted(m, currentLevel) then st
    else
      var buffer := st.buffer + [m.line];
      if !Terminated(m.line) then st.(buffer := buffer)
      else LogState([], st.emitted + [Line(MessageTypeOf(m.level), TrimEnd(Concat(buffer)))])
  }

  /** The callbacks in order. */
  function Feed(st: LogState, ms: seq<Message>, currentLevel: int): (r: LogState)
    decreases |ms|
  {
    if |ms| == 0 then st else Feed(OnMessage(st, ms[0], currentLevel), ms[1..], currentLevel)
  }

  /** The fragments the callbacks keep, in order. */
  function Kept(ms: seq<Message>, currentLevel: int): (s: seq<string>)
    ensures |s| <= |ms|
  {
    if |ms| == 0 then [] else KeptOne(ms[0], currentLevel) + Kept(ms[1..], currentLevel)
  }

  function KeptOne(m: Message, currentLevel: int): (s: seq<string>)
    ensures |s| <= 1
  {
    if Accepted(m, currentLevel) then [m.line] else []
  }

  /** The line a callback flushes, before trimming, if it flushes one. */
  function Flushed(st: LogState, m: Message, currentLevel: int): (s: seq<string>)
    ensures |s| <= 1
  {
    if Accepted(m, currentLevel) && Terminated(m.line) then [Concat(st.buffer + [m.line])] else []
  }

  /** The lines before trimming: what each flush joined. */
  function Raw(st: LogState, ms: seq<Message>, currentLevel: int): (s: seq<string>)
    decreases |ms|
  {
    if |ms| == 0 then []
    else Flushed(st, ms[0], currentLevel) + Raw(OnMessage(st, ms[0], currentLevel), ms[1..], currentLevel)
  }

  lemma {:induction false} ConcatAppend(a: seq<string>, b: seq<string>)
    ensures Concat(a + b) == Concat(a) + Concat(b)
    decreases |b|
  {
    if |b| == 0 {
      assert a + b == a;
    } else {
      var b0 := b[..|b| - 1];
      ConcatAppend(a, b0);
      assert (a + b)[..|a + b| - 1] == a + b0;
      assert (a + b)[|a + b| - 1] == b[|b| - 1];
      assert b[..|b| - 1] == b0;
    }
  }

  function Texts(ls: seq<Line>): (s: seq<string>)
    ensures |s| == |ls|
    ensures forall i :: 0 <= i < |ls| ==> s[i] == ls[i].text
  {
    if |ls| == 0 then [] else [ls[0].text] + Texts(ls[1..])
  }

  function TrimAll(ss: seq<string>): (s: seq<string>)
    ensures |s| == |ss|
    ensures forall i :: 0 <= i < |ss| ==> s[i] == TrimEnd(ss[i])
  {
    if |ss| == 0 then [] else [TrimEnd(ss[0])] + TrimAll(ss[1..])
  }

  /** One callback keeps the joined text: what was buffered and kept, then
      the rest, joins to what it flushed, then whatever the rest makes of
      the new buffer. */
  lemma StepKeepsFragments(st: LogState, m: Message, currentLevel: int,
                            rest: seq<string>, raw1: seq<string>, tail: string)
    requires Concat(OnMessage(st, m, currentLevel).buffer + rest) == Concat(raw1) + tail
    ensures Concat(st.buffer + (KeptOne(m, currentLevel) + rest)) ==
            Concat(Flushed(st, m, currentLevel) + raw1) + tail
  {
    var kept := KeptOne(m, currentLevel);
    assert st.buffer + (kept + rest) == (st.buffer + kept) + rest;
    ConcatAppend(st.buffer + kept, rest);
    ConcatAppend(Flushed(st, m, currentLevel), raw1);
    if Accepted(m, currentLevel) && Terminated(m.line) {
      FlushStep(st, m, currentLevel, rest, raw1, tail);
    } else {
      BufferStep(st, m, currentLevel, rest, raw1, tail);
    }
  }

  /** A flushing callback: the buffered and kept fragments become the
      flushed line, and the buffer starts again empty. */
  lemma FlushStep(st: LogState, m: Message, currentLevel: int,
                  rest: seq<string>, raw1: seq<string>, tail: string)
    requires Accepted(m, currentLevel) && Terminated(m.line)
    requires Concat(OnMessage(st, m, currentLevel).buffer + rest) == Concat(raw1) + tail
    ensures Concat(st.buffer + KeptOne(m, currentLevel)) + Concat(rest) ==
            Concat(Flushed(st, m, currentLevel)) + Concat(raw1) + tail
  {
    var x := Concat(st.buffer + [m.line]);
    assert Flushed(st, m, currentLevel) == [x];
    assert KeptOne(m, currentLevel) == [m.line];
    assert OnMessage(st, m, currentLevel).buffer + rest == rest;
    ConcatSingle(x);
    JoinAssoc(x, Concat(raw1), tail);
  }

  lemma ConcatSingle(x: string)
    ensures Concat([x]) == x
  {
    assert [x][..0] == [];
  }

  lemma JoinAssoc(a: string, b: string, c: string)
    ensures a + (b + c) == a + b + c
  {
  }

  /** A buffering or dropping callback: nothing is flushed and the kept
      fragment, if any, joins the buffer. */
  lemma BufferStep(st: LogState, m: Message, currentLevel: int,
                   rest: seq<string>, raw1: seq<string>, tail: string)
    requires !(Accepted(m, currentLevel) && Terminated(m.line))
    requires Concat(OnMessage(st, m, currentLevel).buffer + rest) == Concat(raw1) + tail
    ensures Concat((st.buffer + KeptOne(m, currentLevel)) + rest) ==
            Concat(Flushed(st, m, currentLevel) + raw1) + tail
  {
    assert OnMessage(st, m, currentLevel).buffer == st.buffer + KeptOne(m, currentLevel);
    assert Flushed(st, m, currentLevel) + raw1 == raw1;
  }


  /** Nothing is lost or reordered: the kept fragments, joined, are the
      joined raw lines followed by what is still buffered. */
  lemma {:induction false} FeedKeepsEveryFragment(st: LogState, ms: seq<Message>, currentLevel: int)
    ensures Concat(st.buffer + Kept(ms, currentLevel)) ==
            Concat(Raw(st, ms, currentLevel)) + Concat(Feed(st, ms, currentLevel).buffer)
    decreases |ms|
  {
    if |ms| > 0 {
      var st1 := OnMessage(st, ms[0], currentLevel);
      FeedKeepsEveryFragment(st1, ms[1..], currentLevel);
      StepKeepsFragments(st, ms[0], currentLevel, Kept(ms[1..], currentLevel),
                         Raw(st1, ms[1..], currentLevel), Concat(Feed(st1, ms[1..], currentLevel).buffer));
    } else {
      assert st.buffer + Kept(ms, currentLevel) == st.buffer;
    }
  }

  lemma {:induction false} TrimAllAppend(a: seq<string>, b: seq<string>)
    ensures TrimAll(a + b) == TrimAll(a) + TrimAll(b)
    decreases |a|
  {
    if |a| == 0 {
      assert a + b == b;
    } else {
      assert (a + b)[1..] == a[1..] + b;
      TrimAllAppend(a[1..], b);
    }
  }

  /** One callback emits the trimmed form of what it flushes, after the lines
      already emitted. */
  lemma EmitStep(st: LogState, m: Message, currentLevel: int)
    ensures Texts(OnMessage(st, m, currentLevel).emitted) == Texts(st.emitted) + TrimAll(Flushed(st, m, currentLevel))
  {
    var r := OnMessage(st, m, currentLevel);
    var flushed := Flushed(st, m, currentLevel);
    if Accepted(m, currentLevel) && Terminated(m.line) {
      var a, b := Texts(r.emitted), Texts(st.emitted) + TrimAll(flushed);
      assert |a| == |b|;
      forall i | 0 <= i < |a|
        ensures a[i] == b[i]
      {
        if i < |st.emitted| {
          assert r.emitted[i] == r.emitted[..|st.emitted|][i];
        }
      }
    } else {
      assert TrimAll(flushed) == [];
    }
  }

  /** Each line emitted is its raw line with trailing white space trimmed,
      in order, after the lines emitted before. */
  lemma {:induction false} FeedEmitsTrimmed(st: LogState, ms: seq<Message>, currentLevel: int)
    ensures Texts(Feed(st, ms, currentLevel).emitted) == Texts(st.emitted) + TrimAll(Raw(st, ms, currentLevel))
    decreases |ms|
  {
    if |ms| > 0 {
      var m := ms[0];
      var st1 := OnMessage(st, m, currentLevel);
      FeedEmitsTrimmed(st1, ms[1..], currentLevel);
      var flushed := Flushed(st, m, currentLevel);
      var raw1 := Raw(st1, ms[1..], currentLevel);
      TrimAllAppend(flushed, raw1);
      EmitStep(st, m, currentLevel);
      assert Raw(st, ms, currentLevel) == flushed + raw1;
    } else {
      assert TrimAll([]) == [];
    }
  }

  /** No buffered fragment ends a line. */
  predicate Pending(st: LogState) {
    forall i :: 0 <= i < |st.buffer| ==> !Terminated(st.buffer[i]) && st.buffer[i] != ""
  }

  lemma {:induction false} FeedKeepsPending(st: LogState, ms: seq<Message>, currentLevel: int)
    requires Pending(st)
    ensures Pending(Feed(st, ms, currentLevel))
    decreases |ms|
  {
    if |ms| > 0 {
      var st1 := OnMessage(st, ms[0], currentLevel);
      assert Pending(st1);
      FeedKeepsPending(st1, ms[1..], currentLevel);
    }
  }
}

=== FILE: media_source.dfy ===
/** The demuxer front end (`MediaSource.cs`): URI checks, the change-only
    property setters, which streams `Open` looks up, and how `ReadNext`
    routes a packet. The FFmpeg lookups and reads are oracles. */
module MediaSources {
  import opened Common
  import Readers

  /** The `StreamType` flags: which kinds of stream the source wants. */
  datatype StreamType = StreamType(video: bool, audio: bool)

  const Media := StreamType(true, true)
  const AudioOnly := StreamType(false, true)

  datatype MediaSource = MediaSource(
    uri: string,
    isNetStream: bool,
    streamType: StreamType,
    hasContext: bool,
    isValid: bool,
    isEndOfStream: bool,
    videoIndex: int,
    audioIndex: int)

  /** The network schemes the URI is checked for. */
  predicate NetScheme(uri: string) {
    StartsWith(uri, "rtsp") || StartsWith(uri, "rtmp") || StartsWith(uri, "http")
  }

  /** The constructor: a blank URI is refused; a URI with a network scheme
      marks the source as a network stream. Nothing is opened yet. */
  function NewMediaSource(uri: string, t: StreamType): (r: Outcome<MediaSource>)
    ensures r.Throw? <==> IsBlank(uri)
    ensures r.Throw? ==> r.fault == ArgumentNull
    ensures r.Ok? ==> r.value.uri == uri && r.value.streamType == t
    ensures r.Ok? ==> (r.value.isNetStream <==> NetScheme(uri))
    ensures r.Ok? ==> !r.value.hasContext && !r.value.isValid && !r.value.isEndOfStream
    ensures r.Ok? ==> r.value.videoIndex == -1 && r.value.audioIndex == -1
  {
    if IsBlank(uri) then Throw(ArgumentNull)
    else Ok(MediaSource(uri, NetScheme(uri), t, false, false, false, -1, -1))
  }

  /** A URI of nothing but an ideographic space is refused like an empty one. */
  lemma WideSpaceUriRefused(t: StreamType)
    ensures NewMediaSource("\U{3000}", t) == Throw(ArgumentNull)
  {
  }

  /** A property setter: the new value is stored, and listeners are told,
      only when it differs from the current one. */
  datatype Set<T> = Set(value: T, notified: bool)

  function SetIfChanged<T(==)>(current: T, v: T): (r: Set<T>)
    ensures r.value == v
    ensures r.notified <==> current != v
  {
    Set(v, current != v)
  }

  /** Setting the same value twice notifies at most once. */
  lemma SetTwiceNotifiesOnce<T>(current: T, v: T)
    ensures !SetIfChanged(SetIfChanged(current, v).value, v).notified
  {
  }

  /** The frame rate is a numerator/denominator pair and is compared on both. */
  datatype FrameRate = FrameRate(num: int, den: int)

  lemma FrameRateComparesBoth(a: FrameRate, b: FrameRate)
    requires a.num == b.num && a.den != b.den
    ensures SetIfChanged(a, b).notified
  {
  }

  /** The answers of the native calls `Open` makes; a stream lookup answers
      an index, or a negative error. */
  datatype OpenAnswers = OpenAnswers(allocOk: bool, openOk: bool, infoOk: bool,
                                     bestVideo: int, bestAudio: int)

  /** `Open`: any previous context is closed first. A failed allocation,
      open or stream probe returns false. Otherwise only the streams the
      stream type asks for are looked up, and the source becomes valid. */
  function Open(s: MediaSource, a: OpenAnswers): (r: (MediaSource, bool))
    ensures r.1 <==> a.allocOk && a.openOk && a.infoOk
    ensures r.0.hasContext <==> a.allocOk
    ensures r.1 ==> r.0.isValid
    ensures !r.1 ==> r.0.isValid == s.isValid
    ensures r.1 && s.streamType.video ==> r.0.videoIndex == a.bestVideo
    ensures r.1 && s.streamType.audio ==> r.0.audioIndex == a.bestAudio
    ensures !(r.1 && s.streamType.video) ==> r.0.videoIndex == s.videoIndex
    ensures !(r.1 && s.streamType.audio) ==> r.0.audioIndex == s.audioIndex
    ensures r.0.uri == s.uri && r.0.streamType == s.streamType && r.0.isNetStream == s.isNetStream
  {
    var s0 := s.(hasContext := false);
    if !a.allocOk then (s0, false)
    else
      var s1 := s0.(hasContext := true);
      if !a.openOk || !a.infoOk then (s1, false)
      else
        var s2 := if s.streamType.video then s1.(videoIndex := a.bestVideo) else s1;
        var s3 := if s.streamType.audio then s2.(audioIndex := a.bestAudio) else s2;
        (s3.(isValid := true), true)
  }

  /** What `av_read_frame` answers: end of file, another error, or a packet
      of the stream with the given (non-negative) index. */
  datatype ReadAnswer = Eof | ReadError | Frame(streamIndex: nat)

  /** `ReadNext`: end of file marks the stream ended and raises end-of-stream;
      an error, or a packet of a stream the source did not select, is a
      failed read; the video index is checked before the audio one. */
  function ReadNext(s: MediaSource, a: ReadAnswer): (r: (MediaSource, Readers.ReadResult))
    ensures a == Eof <==> r.1 == Readers.EndOfStream
    ensures a == Eof ==> r.0 == s.(isEndOfStream := true)
    ensures a != Eof ==> r.0 == s
    ensures r.1 == Readers.Packet(true) <==> a.Frame? && a.streamIndex == s.videoIndex
    ensures r.1 == Readers.Packet(false) <==>
      a.Frame? && a.streamIndex != s.videoIndex && a.streamIndex == s.audioIndex
  {
    match a
    case Eof => (s.(isEndOfStream := true), Readers.EndOfStream)
    case ReadError => (s, Readers.ReadFailed)
    case Frame(i) =>
      if i == s.videoIndex then (s, Readers.Packet(true))
      else if i == s.audioIndex then (s, Readers.Packet(false))
      else (s, Readers.ReadFailed)
  }

  /** `Close`: the context is released and both indices reset. */
  function Close(s: MediaSource): (r: MediaSource)
    ensures !r.hasContext && r.videoIndex == -1 && r.audioIndex == -1
    ensures r.uri == s.uri && r.isValid == s.isValid && r.streamType == s.streamType
  {
    s.(hasContext := false, videoIndex := -1, audioIndex := -1)
  }

  /** A closed source routes no packet to either stream. */
  lemma ClosedRoutesNothing(s: MediaSource, i: nat)
    ensures ReadNext(Close(s), Frame(i)).1 == Readers.ReadFailed
  {
  }

  /** An audio-only source opened from scratch never reports a video packet:
      its video index stays -1, which no packet carries. */
  lemma {:induction false} AudioOnlyNeverVideo(uri: string, a: OpenAnswers, answers: seq<ReadAnswer>)
    requires !IsBlank(uri)
    ensures var s := Open(NewMediaSource(uri, AudioOnly).value, a).0;
      forall k :: 0 <= k < |answers| ==> ReadNext(s, answers[k]).1 != Readers.Packet(true)
  {
    var s := Open(NewMediaSource(uri, AudioOnly).value, a).0;
    assert s.videoIndex == -1;
    forall k | 0 <= k < |answers|
      ensures ReadNext(s, answers[k]).1 != Readers.Packet(true)
    {
      if answers[k].Frame? {
        assert answers[k].streamIndex >= 0;
      }
    }
  }
}

=== FILE: pacing.dfy ===
/** The drains that hand decoded samples downstream (`PostSamplesRealTime`
    and `PostSamples` in `SourceReader.cs` and `AudioReader.cs`). A drain
    walks one queue with its own presentation clock: it stamps the head with
    the clock, posts it, and on acceptance advances the clock by the
    sample's duration and releases the head; it stops at the first
    rejection, on an empty queue, or, in real time, once the clock has
    caught up with the elapsed time. Times are in 100-ns ticks; the elapsed
    time is read once per drain and is a parameter. */
module Pacing {

  /** A `Post` call: the sample posted and the time it was stamped with. */
  datatype Stamp = Stamp(id: nat, time: int)

  /** Sum of a sequence of durations. */
  function Sum(s: seq<int>): int {
    if |s| == 0 then 0 else s[0] + Sum(s[1..])
  }

  lemma {:induction false} SumSnoc(s: seq<int>, i: nat)
    requires i < |s|
    ensures Sum(s[..i + 1]) == Sum(s[..i]) + s[i]
  {
    if i > 0 {
      assert s[..i + 1][1..] == s[1..][..i];
      assert s[..i][1..] == s[1..][..i - 1];
      SumSnoc(s[1..], i - 1);
    }
  }

  lemma SumCons(s: seq<int>, i: nat)
    requires i < |s|
    ensures Sum(s[..i + 1]) == s[0] + Sum(s[1..][..i])
  {
    assert s[..i + 1][1..] == s[1..][..i];
  }

  /** The answer of the `i`-th `Post` call of a drain; listeners that were
      not asked for are taken to refuse. */
  predicate Accepts(answers: seq<bool>, i: nat) {
    i < |answers| && answers[i]
  }

  /** The clock after the first `k` samples have gone out. */
  function ClockAt(durs: seq<int>, t: int, k: nat): int
    requires k <= |durs|
  {
    t + Sum(durs[..k])
  }

  /** Whether a drain that has posted `k` samples stops there. */
  predicate StopsAt(q: seq<nat>, durs: seq<int>, t: int, elapsed: int, realTime: bool,
                    answers: seq<bool>, k: nat)
    requires |durs| == |q| && k <= |q|
  {
    k == |q| || (realTime && elapsed <= ClockAt(durs, t, k)) || !Accepts(answers, k)
  }

  /** What a drain leaves: the samples still queued with their durations, the
      clock, how many samples went out, and every `Post` call made. */
  datatype Drained = Drained(rest: seq<nat>, restDurs: seq<int>, time: int, count: nat, posts: seq<Stamp>)

  /** The drain over queue `q` whose samples last `durs`, from clock `t`. */
  function Drain(q: seq<nat>, durs: seq<int>, t: int, elapsed: int, realTime: bool,
                 answers: seq<bool>): (r: Drained)
    requires |durs| == |q|
    ensures r.count <= |q|
    ensures r.rest == q[r.count..] && r.restDurs == durs[r.count..]
    ensures |r.posts| == r.count || |r.posts| == r.count + 1
    ensures |r.posts| <= |q|
    decreases |q|
  {
    if |q| == 0 || (realTime && elapsed <= t) then Drained(q, durs, t, 0, [])
    else if !Accepts(answers, 0) then Drained(q, durs, t, 0, [Stamp(q[0], t)])
    else
      var r := Drain(q[1..], durs[1..], t + durs[0], elapsed, realTime, answers[1..]);
      Drained(r.rest, r.restDurs, r.time, r.count + 1, [Stamp(q[0], t)] + r.posts)
  }

  /** An accepted head: the drain is the head's post and clock step followed
      by the drain of the tail. */
  lemma DrainUnfold(q: seq<nat>, durs: seq<int>, t: int, elapsed: int,
                    realTime: bool, answers: seq<bool>)
    requires |durs| == |q| && |q| > 0 && !(realTime && elapsed <= t) && Accepts(answers, 0)
    ensures var r := Drain(q, durs, t, elapsed, realTime, answers);
      var s := Drain(q[1..], durs[1..], t + durs[0], elapsed, realTime, answers[1..]);
      r.time == s.time && r.count == s.count + 1 && r.posts == [Stamp(q[0], t)] + s.posts
  {
  }

  /** After a drain the clock has advanced by the durations of the samples
      that went out. */
  lemma {:induction false} DrainClock(q: seq<nat>, durs: seq<int>, t: int, elapsed: int,
                                      realTime: bool, answers: seq<bool>)
    requires |durs| == |q|
    ensures var r := Drain(q, durs, t, elapsed, realTime, answers);
      r.time == ClockAt(durs, t, r.count)
    decreases |q|
  {
    if |q| == 0 || (realTime && elapsed <= t) || !Accepts(answers, 0) {
      assert durs[..0] == [];
    } else {
      var r := Drain(q[1..], durs[1..], t + durs[0], elapsed, realTime, answers[1..]);
      DrainUnfold(q, durs, t, elapsed, realTime, answers);
      DrainClock(q[1..], durs[1..], t + durs[0], elapsed, realTime, answers[1..]);
      SumCons(durs, r.count);
    }
  }

  /** Past an accepted head, stopping after `k + 1` samples is the tail's
      drain stopping after `k`. */
  lemma StopsAtShift(q: seq<nat>, durs: seq<int>, t: int, elapsed: int,
                     realTime: bool, answers: seq<bool>, k: nat)
    requires |durs| == |q| && k < |q| && Accepts(answers, 0)
    ensures StopsAt(q, durs, t, elapsed, realTime, answers, k + 1) <==>
      StopsAt(q[1..], durs[1..], t + durs[0], elapsed, realTime, answers[1..], k)
  {
    SumCons(durs, k);
    assert Accepts(answers, k + 1) == Accepts(answers[1..], k);
  }

  /** A drain stops at the first index where the queue runs out, the clock
      has caught up, or a listener refuses. */
  lemma {:induction false} DrainStopsAtFirstStop(q: seq<nat>, durs: seq<int>, t: int, elapsed: int,
                                                 realTime: bool, answers: seq<bool>)
    requires |durs| == |q|
    ensures var r := Drain(q, durs, t, elapsed, realTime, answers);
      && StopsAt(q, durs, t, elapsed, realTime, answers, r.count)
      && (forall i :: 0 <= i < r.count ==> !StopsAt(q, durs, t, elapsed, realTime, answers, i))
    decreases |q|
  {
    var out := Drain(q, durs, t, elapsed, realTime, answers);
    if |q| == 0 || (realTime && elapsed <= t) || !Accepts(answers, 0) {
      assert durs[..0] == [];
    } else {
      var q', d', t', a' := q[1..], durs[1..], t + durs[0], answers[1..];
      var r := Drain(q', d', t', elapsed, realTime, a');
      DrainStopsAtFirstStop(q', d', t', elapsed, realTime, a');
      DrainUnfold(q, durs, t, elapsed, realTime, answers);
      StopsAtShift(q, durs, t, elapsed, realTime, answers, r.count);
      forall i | 0 <= i < out.count
        ensures !StopsAt(q, durs, t, elapsed, realTime, answers, i)
      {
        if i > 0 {
          StopsAtShift(q, durs, t, elapsed, realTime, answers, i - 1);
        } else {
          assert durs[..0] == [];
        }
      }
    }
  }

  /** One post more than went out is made exactly when the drain stopped at a
      refusal. */
  lemma {:induction false} DrainRefusalPost(q: seq<nat>, durs: seq<int>, t: int, elapsed: int,
                                            realTime: bool, answers: seq<bool>)
    requires |durs| == |q|
    ensures var r := Drain(q, durs, t, elapsed, realTime, answers);
      |r.posts| == r.count + 1 <==> r.count < |q| && !(realTime && elapsed <= r.time)
    decreases |q|
  {
    if !(|q| == 0 || (realTime && elapsed <= t) || !Accepts(answers, 0)) {
      DrainRefusalPost(q[1..], durs[1..], t + durs[0], elapsed, realTime, answers[1..]);
    }
  }

  /** Stamps of the drain of the tail, shifted by the head's post. */
  lemma ShiftStamps(q: seq<nat>, durs: seq<int>, t: int, rest: seq<Stamp>)
    requires |durs| == |q| && 0 < |q| && |rest| < |q|
    requires forall i :: 0 <= i < |rest| ==> rest[i] == Stamp(q[1..][i], ClockAt(durs[1..], t + durs[0], i))
    ensures var all := [Stamp(q[0], t)] + rest;
      forall i :: 0 <= i < |all| ==> all[i] == Stamp(q[i], ClockAt(durs, t, i))
  {
    var all := [Stamp(q[0], t)] + rest;
    forall i | 0 <= i < |all|
      ensures all[i] == Stamp(q[i], ClockAt(durs, t, i))
    {
      if i > 0 {
        SumCons(durs, i - 1);
        assert all[i] == rest[i - 1];
      } else {
        assert durs[..0] == [];
      }
    }
  }

  /** The `i`-th post carried the `i`-th sample stamped with the clock at
      `i`. */
  lemma {:induction false} DrainPosts(q: seq<nat>, durs: seq<int>, t: int, elapsed: int,
                                      realTime: bool, answers: seq<bool>)
    requires |durs| == |q|
    ensures var r := Drain(q, durs, t, elapsed, realTime, answers);
      forall i :: 0 <= i < |r.posts| ==> r.posts[i] == Stamp(q[i], ClockAt(durs, t, i))
    decreases |q|
  {
    if |q| == 0 || (realTime && elapsed <= t) || !Accepts(answers, 0) {
      assert durs[..0] == [];
    } else {
      DrainPosts(q[1..], durs[1..], t + durs[0], elapsed, realTime, answers[1..]);
      DrainPostsStep(q, durs, t, elapsed, realTime, answers);
    }
  }

  /** The inductive step of `DrainPosts`: the head's post followed by the
      posts of the tail's drain. */
  lemma DrainPostsStep(q: seq<nat>, durs: seq<int>, t: int, elapsed: int,
                       realTime: bool, answers: seq<bool>)
    requires |durs| == |q| && |q| > 0 && !(realTime && elapsed <= t) && Accepts(answers, 0)
    requires var r := Drain(q[1..], durs[1..], t + durs[0], elapsed, realTime, answers[1..]);
      forall i :: 0 <= i < |r.posts| ==> r.posts[i] == Stamp(q[1..][i], ClockAt(durs[1..], t + durs[0], i))
    ensures var r := Drain(q, durs, t, elapsed, realTime, answers);
      forall i :: 0 <= i < |r.posts| ==> r.posts[i] == Stamp(q[i], ClockAt(durs, t, i))
  {
    var r := Drain(q[1..], durs[1..], t + durs[0], elapsed, realTime, answers[1..]);
    DrainUnfold(q, durs, t, elapsed, realTime, answers);
    ShiftStamps(q, durs, t, r.posts);
  }

  /** The count a drain reaches is the first index at which it stops, so
      any two characterisations of a drain agree. */
  lemma FirstStopIsUnique(q: seq<nat>, durs: seq<int>, t: int, elapsed: int, realTime: bool,
                          answers: seq<bool>, k: nat, j: nat)
    requires |durs| == |q| && k <= |q| && j <= |q|
    requires StopsAt(q, durs, t, elapsed, realTime, answers, k)
    requires forall i :: 0 <= i < k ==> !StopsAt(q, durs, t, elapsed, realTime, answers, i)
    requires StopsAt(q, durs, t, elapsed, realTime, answers, j)
    requires forall i :: 0 <= i < j ==> !StopsAt(q, durs, t, elapsed, realTime, answers, i)
    ensures k == j
  {
  }

  /** The drain loop as the code writes it, with the per-drain clock and
      queue as local state. */
  method PostSamples(q: seq<nat>, durs: seq<int>, t: int, elapsed: int, realTime: bool,
                     answers: seq<bool>) returns (rest: seq<nat>, time: int, posts: seq<Stamp>)
    requires |durs| == |q|
    ensures var d := Drain(q, durs, t, elapsed, realTime, answers);
      rest == d.rest && time == d.time && posts == d.posts
  {
    var k := 0;
    time := t;
    posts := [];
    rest := q;
    var stopped := false;
    while !stopped && (!realTime || elapsed > time)
      invariant 0 <= k <= |q| && rest == q[k..]
      invariant time == ClockAt(durs, t, k)
      invariant forall i :: 0 <= i < k ==> !StopsAt(q, durs, t, elapsed, realTime, answers, i)
      invariant !stopped ==> |posts| == k
      invariant stopped ==> !(realTime && elapsed <= time)
      invariant stopped ==> k < |q| && |posts| == k + 1 && StopsAt(q, durs, t, elapsed, realTime, answers, k)
      invariant forall i :: 0 <= i < |posts| ==> posts[i] == Stamp(q[i], ClockAt(durs, t, i))
      decreases |q| - k, if stopped then 0 else 1
    {
      if |rest| == 0 {
        break;
      }
      posts := posts + [Stamp(rest[0], time)];
      if !Accepts(answers, k) {
        stopped := true;
      } else {
        SumSnoc(durs, k);
        time := time + durs[k];
        rest := rest[1..];
        k := k + 1;
      }
    }
    var d := Drain(q, durs, t, elapsed, realTime, answers);
    DrainClock(q, durs, t, elapsed, realTime, answers);
    DrainStopsAtFirstStop(q, durs, t, elapsed, realTime, answers);
    DrainRefusalPost(q, durs, t, elapsed, realTime, answers);
    DrainPosts(q, durs, t, elapsed, realTime, answers);
    if !stopped {
      assert StopsAt(q, durs, t, elapsed, realTime, answers, k);
    }
    FirstStopIsUnique(q, durs, t, elapsed, realTime, answers, k, d.count);
    assert |posts| == |d.posts|;
  }

  /** With a fixed nominal duration `d` the `i`-th post is stamped `t + i*d`. */
  lemma {:induction false} NominalClock(k: nat, d: int, t: int, i: nat)
    requires i <= k
    ensures ClockAt(seq(k, _ => d), t, i) == t + i * d
  {
    if i > 0 {
      var s := seq(k, _ => d);
      SumSnoc(s, i - 1);
      NominalClock(k, d, t, i - 1);
    }
  }

  /** Durations are positive, so stamps strictly increase. */
  lemma {:induction false} ClockIncreases(durs: seq<int>, t: int, i: nat, j: nat)
    requires forall n :: 0 <= n < |durs| ==> durs[n] > 0
    requires i < j <= |durs|
    ensures ClockAt(durs, t, i) < ClockAt(durs, t, j)
    decreases j - i
  {
    SumSnoc(durs, j - 1);
    if i < j - 1 {
      ClockIncreases(durs, t, i, j - 1);
    }
  }

  /** At time zero in real time nothing is posted: the first post needs the
      elapsed time to exceed the clock. With every listener accepting and
      elapsed time `e > t`, the drain posts at least the head. */
  lemma RealTimeGate(q: seq<nat>, durs: seq<int>, t: int, e: int, answers: seq<bool>)
    requires |durs| == |q|
    ensures e <= t ==> Drain(q, durs, t, e, true, answers).posts == []
    ensures e > t && |q| > 0 && Accepts(answers, 0) ==> Drain(q, durs, t, e, true, answers).count >= 1
  {
    DrainStopsAtFirstStop(q, durs, t, e, true, answers);
    if e > t && |q| > 0 && Accepts(answers, 0) {
      assert !StopsAt(q, durs, t, e, true, answers, 0);
    }
  }
}

=== FILE: pcm_reader.dfy ===
/** The PCM extractor (`PcmReader.cs`): reads one channel of a media file as
    16-bit samples, keeping the decoded samples a request did not need as a
    leftover for the next one. Decoding and resampling are oracles: each
    converted frame is given as its interleaved samples. */
module PcmReading {
  import opened Common

  datatype PcmReader = PcmReader(
    initialized: bool,
    path: string,
    channels: int,
    leftover: seq<int>,   // extracted samples kept for the next request
    frameCached: bool,    // a decoded frame may still hold more output
    closes: nat)

  function NewPcmReader(): (r: PcmReader)
    ensures !r.initialized && r.leftover == [] && !r.frameCached
  {
    PcmReader(false, "", 0, [], false, 0)
  }

  /** `Load` as written: a blank path is refused; a loaded reader is closed
      first; the reader is loaded iff initialisation succeeds. `Close` and
      `Initialize` leave the leftover count and the cached-frame flag alone,
      while `Initialize` allocates a new sample buffer: the leftover keeps
      its length, but its contents are whatever the new buffer holds
      (`junk`, of the old length and otherwise arbitrary). */
  function LoadAsWritten(r: PcmReader, path: string, initOk: bool, channels: int, junk: seq<int>)
    : (o: Outcome<(PcmReader, bool)>)
    requires |junk| == |r.leftover|
    ensures o.Throw? <==> IsBlank(path)
    ensures o.Throw? ==> o.fault == ArgumentNull
    ensures o.Ok? ==> o.value.1 == initOk && o.value.0.initialized == initOk && o.value.0.path == path
    ensures o.Ok? ==> |o.value.0.leftover| == |r.leftover| && o.value.0.frameCached == r.frameCached
  {
    if IsBlank(path) then Throw(ArgumentNull)
    else
      var r1 := if r.initialized then r.(closes := r.closes + 1) else r;
      Ok((r1.(path := path, initialized := initOk, channels := channels, leftover := junk), initOk))
  }

  /** `Load` with the leftover of the previous file dropped, as the rest of
      the model uses it. */
  function Load(r: PcmReader, path: string, initOk: bool, channels: int): (o: Outcome<(PcmReader, bool)>)
    ensures o.Throw? <==> IsBlank(path)
    ensures o.Throw? ==> o.fault == ArgumentNull
    ensures o.Ok? ==> o.value.1 == initOk && o.value.0.initialized == initOk && o.value.0.path == path
    ensures o.Ok? ==> o.value.0.closes == r.closes + (if r.initialized then 1 else 0)
    ensures o.Ok? ==> o.value.0.leftover == [] && !o.value.0.frameCached
  {
    if IsBlank(path) then Throw(ArgumentNull)
    else
      var r1 := if r.initialized then r.(closes := r.closes + 1) else r;
      Ok((r1.(path := path, initialized := initOk, channels := channels, leftover := [], frameCached := false), initOk))
  }

  /** `Seek`: a negative time is refused; a successful seek empties the
      leftover and forgets the cached frame; a failed one changes nothing. */
  function Seek(r: PcmReader, time: int, seekOk: bool): (o: (PcmReader, bool))
    ensures o.1 <==> time >= 0 && seekOk
    ensures o.1 ==> o.0 == r.(leftover := [], frameCached := false)
    ensures !o.1 ==> o.0 == r
  {
    if time < 0 || !seekOk then (r, false)
    else (r.(leftover := [], frameCached := false), true)
  }

  /** What one pass of the packet reader answers: the read side (ignored
      while a frame is cached) and the decoder's receive side. */
  datatype ReadSide = GotPacket | OtherStream | ReadFailed | SendFailed
  datatype ReceiveSide = Again | EndOfFile | ReceiveFailed | GotFrame
  datatype Pass = Pass(read: ReadSide, receive: ReceiveSide)

  datatype PacketRead = PacketRead(ok: bool, frameCached: bool, passes: nat)

  const MaxPasses := 200

  /** `ReadNextAudioPacket`, from pass `index` on: a packet of another stream
      or a decoder that wants more input starts another pass; an error or the
      end of the file gives up; a frame ends the call with the frame cached.
      After 200 passes the call gives up. */
  function ReadNextAudioPacket(cached: bool, answer: nat -> Pass, index: nat): (r: PacketRead)
    requires index <= MaxPasses
    ensures index <= r.passes <= MaxPasses
    ensures r.ok ==> r.passes > 0 && r.frameCached && answer(r.passes - 1).receive == GotFrame
    decreases MaxPasses - index
  {
    if index >= MaxPasses then PacketRead(false, cached, index)
    else
      var a := answer(index);
      if !cached && a.read == OtherStream then ReadNextAudioPacket(cached, answer, index + 1)
      else if !cached && (a.read == ReadFailed || a.read == SendFailed) then PacketRead(false, cached, index + 1)
      else if a.receive == Again then ReadNextAudioPacket(false, answer, index + 1)
      else if a.receive == GotFrame then PacketRead(true, true, index + 1)
      else PacketRead(false, cached, index + 1)
  }

  /** A pass that neither yields a frame nor fails. */
  predicate Idle(a: Pass, cached: bool) {
    (!cached && a.read == OtherStream) || ((cached || a.read == GotPacket) && a.receive == Again)
  }

  /** A stream that keeps the reader waiting for 200 passes makes it give up. */
  lemma {:induction false} GivesUpAfterMaxPasses(cached: bool, answer: nat -> Pass, index: nat)
    requires index <= MaxPasses
    requires forall i :: index <= i < MaxPasses ==> Idle(answer(i), false) && Idle(answer(i), true)
    ensures !ReadNextAudioPacket(cached, answer, index).ok
    ensures ReadNextAudioPacket(cached, answer, index).passes == MaxPasses
    decreases MaxPasses - index
  {
    if index < MaxPasses {
      var a := answer(index);
      assert Idle(a, false) && Idle(a, true);
      if !cached && a.read == OtherStream {
        GivesUpAfterMaxPasses(cached, answer, index + 1);
      } else {
        GivesUpAfterMaxPasses(false, answer, index + 1);
      }
    }
  }

  /** A frame as `BeginRead` meets it: no frame (the packet reader gave up),
      a frame with no samples, a failed conversion, or the converted
      interleaved samples. */
  datatype FrameAnswer = NoFrame | EmptyFrame | ConvertFailed | Converted(pcm: seq<int>)

  /** The channel offset: the left channel, or the only one, is 0. */
  function Delta(isLeftChannel: bool, channels: int): (d: int)
    ensures d == 0 || d == 1
    ensures channels == 1 ==> d == 0
    ensures channels != 1 ==> (d == 0 <==> isLeftChannel)
  {
    if channels == 1 || isLeftChannel then 0 else 1
  }

  lemma ChannelIndexInRange(n: int, ch: int, delta: int, i: int)
    requires ch >= 1 && 0 <= delta < ch && 0 <= i < n / ch
    ensures 0 <= i * ch + delta < n
  {
    MulLe(ch, i + 1, n / ch);
    assert (i + 1) * ch == i * ch + ch;
    assert (n / ch) * ch <= n;
  }

  /** One channel of interleaved samples: sample `i` of the channel is
      `pcm[i*ch + delta]`, for every whole frame of `ch` samples. */
  function Channel(pcm: seq<int>, ch: int, delta: int): (c: seq<int>)
    requires ch >= 1 && 0 <= delta < ch
    ensures |c| == |pcm| / ch
    ensures forall i :: 0 <= i < |c| ==> 0 <= i * ch + delta < |pcm| && c[i] == pcm[i * ch + delta]
  {
    DivNonNegative(|pcm|, ch);
    assert forall i :: 0 <= i < |pcm| / ch ==> 0 <= i * ch + delta < |pcm| by {
      forall i | 0 <= i < |pcm| / ch ensures 0 <= i * ch + delta < |pcm| {
        ChannelIndexInRange(|pcm|, ch, delta, i);
      }
    }
    seq(|pcm| / ch, i requires 0 <= i < |pcm| / ch => pcm[i * ch + delta])
  }

  /** The samples a frame adds to the channel. */
  function Yield(f: FrameAnswer, ch: int, delta: int): (s: seq<int>)
    requires ch >= 1 && 0 <= delta < ch
  {
    if f.Converted? then Channel(f.pcm, ch, delta) else []
  }

  /** The channel as the frames deliver it, in order. */
  function Stream(fs: seq<FrameAnswer>, ch: int, delta: int): (s: seq<int>)
    requires ch >= 1 && 0 <= delta < ch
  {
    if |fs| == 0 then [] else Stream(fs[..|fs| - 1], ch, delta) + Yield(fs[|fs| - 1], ch, delta)
  }

  /** How many samples the frames supply before the first failure. */
  function Supply(fs: seq<FrameAnswer>, ch: int, delta: int): (n: nat)
    requires ch >= 1 && 0 <= delta < ch
  {
    if |fs| == 0 then 0
    else match fs[0]
      case NoFrame => 0
      case ConvertFailed => 0
      case EmptyFrame => Supply(fs[1..], ch, delta)
      case Converted(pcm) => |Channel(pcm, ch, delta)| + Supply(fs[1..], ch, delta)
  }

  function Min(a: int, b: int): int { if a <= b then a else b }

  /** The samples handed back: none, or a buffer. */
  datatype Pcm = NoData | Data(samples: seq<int>)

  datatype ReadOut = ReadOut(reader: PcmReader, data: Pcm, length: int, used: nat)

  lemma StreamSnoc(fs: seq<FrameAnswer>, k: nat, ch: int, delta: int)
    requires ch >= 1 && 0 <= delta < ch && k < |fs|
    ensures Stream(fs[..k + 1], ch, delta) == Stream(fs[..k], ch, delta) + Yield(fs[k], ch, delta)
  {
    assert fs[..k + 1][..k] == fs[..k];
  }

  lemma SupplyStep(fs: seq<FrameAnswer>, k: nat, ch: int, delta: int)
    requires ch >= 1 && 0 <= delta < ch && k < |fs|
    ensures Supply(fs[k..], ch, delta) ==
      if fs[k].NoFrame? || fs[k].ConvertFailed? then 0
      else |Yield(fs[k], ch, delta)| + Supply(fs[k + 1..], ch, delta)
  {
    assert fs[k..][1..] == fs[k + 1..];
  }

  /** A frame's samples cut at what the request still needs: the part
      copied out and the excess kept as leftover. */
  function Split(c: seq<int>, rest: int): (r: (seq<int>, seq<int>))
    requires rest > 0
    ensures r.0 + r.1 == c
    ensures |r.0| == Min(rest, |c|)
    ensures |r.0| < rest ==> r.1 == []
  {
    if rest <= |c| then (c[..rest], c[rest..]) else (c, [])
  }

  /** A frame that fails ends the read: what was copied is all the frames
      supply, and the channel so far is unchanged. */
  lemma DecodeStopStep(ch: int, delta: int, frames: seq<FrameAnswer>, k: nat, got: seq<int>)
    requires ch >= 1 && 0 <= delta < ch && k < |frames|
    requires frames[k].NoFrame? || frames[k].ConvertFailed?
    requires got == Stream(frames[..k], ch, delta)
    requires Supply(frames, ch, delta) == |got| + Supply(frames[k..], ch, delta)
    ensures got == Stream(frames[..k + 1], ch, delta)
    ensures |got| == Supply(frames, ch, delta)
  {
    StreamSnoc(frames, k, ch, delta);
    SupplyStep(frames, k, ch, delta);
  }

  /** A frame that converts has its samples split between the request and
      the leftover; together they extend the channel by the frame's samples. */
  lemma DecodeTakeStep(ch: int, delta: int, frames: seq<FrameAnswer>, k: nat, got: seq<int>,
                       rest: int, taken: seq<int>, excess: seq<int>)
    requires ch >= 1 && 0 <= delta < ch && k < |frames| && rest > 0
    requires !(frames[k].NoFrame? || frames[k].ConvertFailed?)
    requires (taken, excess) == Split(Yield(frames[k], ch, delta), rest)
    requires got == Stream(frames[..k], ch, delta)
    requires Supply(frames, ch, delta) == |got| + Supply(frames[k..], ch, delta)
    ensures (got + taken) + excess == Stream(frames[..k + 1], ch, delta)
    ensures |taken| < rest ==> Supply(frames, ch, delta) == |got + taken| + Supply(frames[k + 1..], ch, delta)
    ensures |taken| == rest ==> Supply(frames, ch, delta) >= |got| + rest
  {
    StreamSnoc(frames, k, ch, delta);
    SupplyStep(frames, k, ch, delta);
    AppendAssoc(got, taken, excess);
  }

  lemma AppendAssoc(a: seq<int>, b: seq<int>, c: seq<int>)
    ensures (a + b) + c == a + (b + c)
  {
  }

  /** Decoding frames into a request of `need` more samples: the loop of
      `BeginRead` after the leftover has been served. `got` is what the
      request receives and `left` the excess of the last frame. */
  method DecodeInto(ch: int, delta: int, need: int, frames: seq<FrameAnswer>)
    returns (got: seq<int>, left: seq<int>, used: nat, failed: bool)
    requires ch >= 1 && 0 <= delta < ch && need > 0
    ensures used <= |frames|
    ensures got + left == Stream(frames[..used], ch, delta)
    ensures failed ==> left == [] && |got| == Supply(frames, ch, delta) < need
    ensures !failed ==> |got| == need <= Supply(frames, ch, delta)
  {
    got, left, used, failed := [], [], 0, false;
    var rest := need;
    assert frames[0..] == frames;
    assert frames[..0] == [];
    assert Stream(frames[..0], ch, delta) == [];
    while rest > 0 && !failed && used < |frames|
      invariant used <= |frames|
      invariant rest >= 0 && |got| + rest == need
      invariant got + left == Stream(frames[..used], ch, delta)
      invariant rest > 0 ==> left == []
      invariant rest > 0 && !failed ==> Supply(frames, ch, delta) == |got| + Supply(frames[used..], ch, delta)
      invariant failed ==> rest > 0 && |got| == Supply(frames, ch, delta)
      invariant rest == 0 ==> Supply(frames, ch, delta) >= need
      decreases |frames| - used
    {
      var f := frames[used];
      if f.NoFrame? || f.ConvertFailed? {
        DecodeStopStep(ch, delta, frames, used, got);
        failed := true;
      } else {
        var (taken, excess) := Split(Yield(f, ch, delta), rest);
        DecodeTakeStep(ch, delta, frames, used, got, rest, taken, excess);
        got, left := got + taken, excess;
        rest := rest - |taken|;
      }
      used := used + 1;
    }
    if rest > 0 && !failed {
      assert frames[used..] == [];
      failed := true;
    }
  }

  /** `BeginRead`. An unloaded reader raises. The leftover is served first;
      then frames are decoded until the request is met, a frame yielding
      more than needed leaving its excess as the new leftover. A frame list
      that runs out counts as a failed read. The reported length is what was
      copied; the buffer is withheld after a failure or when nothing was
      copied. Nothing is lost or duplicated: the samples handed back and
      the new leftover are exactly the old leftover followed by the channel
      of the frames consumed. */
  method BeginRead(r: PcmReader, sampleCount: int, isLeftChannel: bool, frames: seq<FrameAnswer>)
    returns (o: Outcome<ReadOut>)
    requires sampleCount >= 0
    requires r.initialized ==> r.channels >= 1
    ensures o.Throw? <==> !r.initialized
    ensures o.Throw? ==> o.fault == InvalidOperation
    ensures o.Ok? ==> var d := Delta(isLeftChannel, r.channels);
      && o.value.length == Min(sampleCount, |r.leftover| + Supply(frames, r.channels, d))
      && (o.value.data.Data? <==> 0 < sampleCount == o.value.length)
      && (o.value.data.Data? ==> |o.value.data.samples| == sampleCount)
      && o.value.used <= |frames|
      && (o.value.data.Data? ==>
            o.value.data.samples + o.value.reader.leftover == r.leftover + Stream(frames[..o.value.used], r.channels, d))
      && o.value.reader.channels == r.channels && o.value.reader.initialized
    ensures o.Ok? && sampleCount <= |r.leftover| ==>
      && o.value.used == 0 && o.value.reader.leftover == r.leftover[sampleCount..]
      && (sampleCount > 0 ==> o.value.data == Data(r.leftover[..sampleCount]))
  {
    if !r.initialized {
      return Throw(InvalidOperation);
    }
    var ch := r.channels;
    var delta := Delta(isLeftChannel, ch);
    if sampleCount <= |r.leftover| {
      var served := r.leftover[..sampleCount];
      assert frames[..0] == [];
      assert served + r.leftover[sampleCount..] == r.leftover;
      var data := if sampleCount == 0 then NoData else Data(served);
      return Ok(ReadOut(r.(leftover := r.leftover[sampleCount..]), data, sampleCount, 0));
    }
    var got, left, used, failed := DecodeInto(ch, delta, sampleCount - |r.leftover|, frames);
    var out := r.leftover + got;
    assert out + left == r.leftover + Stream(frames[..used], ch, delta);
    var data := if failed then NoData else Data(out);
    o := Ok(ReadOut(r.(leftover := left), data, |out|, used));
  }

  /** `ReadData`: a refused seek, fewer than 10 samples asked for, or a read
      that copies nothing yields nothing; so does a read that fails part
      way, since its buffer is withheld. A reader whose last load failed
      raises in `BeginRead`, inside the `try`, when its seek gets through
      (a failed `avformat_open_input` has already freed the context that
      `Seek` reads), and that error is swallowed too. (A reader never loaded fails earlier, in `Seek`, outside the
      `try`; the model's `Seek` returns its answer instead.) The seek empties
      the leftover, so the data, when there is any, is the start of the
      channel the frames deliver. */
  method ReadData(r: PcmReader, time: int, seekOk: bool, count: int, isLeftChannel: bool, frames: seq<FrameAnswer>)
    returns (reader: PcmReader, data: Pcm)
    requires r.initialized ==> r.channels >= 1
    ensures data.Data? ==> r.initialized && time >= 0 && seekOk && count >= 10
    ensures data.Data? <==> (r.initialized && time >= 0 && seekOk && count >= 10 &&
                             Supply(frames, r.channels, Delta(isLeftChannel, r.channels)) >= count)
    ensures data.Data? ==> |data.samples| == count
    ensures data.Data? ==> (exists k :: 0 <= k <= |frames| &&
                             data.samples <= Stream(frames[..k], r.channels, Delta(isLeftChannel, r.channels)))
  {
    var (r1, ok) := Seek(r, time, seekOk);
    reader := r1;
    if !ok || count < 10 {
      return reader, NoData;
    }
    var o := BeginRead(r1, count, isLeftChannel, frames);
    if o.Throw? {
      return reader, NoData;
    }
    reader := o.value.reader;
    if o.value.length == 0 || o.value.data.NoData? {
      return reader, NoData;
    }
    data := o.value.data;
    assert data.samples <= Stream(frames[..o.value.used], r.channels, Delta(isLeftChannel, r.channels)) by {
      assert data.samples + reader.leftover == Stream(frames[..o.value.used], r.channels, Delta(isLeftChannel, r.channels));
    }
  }

  /** As written, the leftover count of the previous file survives a reload
      while its buffer is replaced: whatever the new buffer holds (any
      `junk` of that length) is what the next `BeginRead` serves first, and
      a non-empty leftover stays non-empty. The corrected `Load` empties it. */
  lemma ReloadKeepsStaleLeftover(r: PcmReader, path: string, channels: int, junk: seq<int>)
    requires !IsBlank(path) && |junk| == |r.leftover|
    ensures var o := LoadAsWritten(r, path, true, channels, junk);
      o.Ok? && |o.value.0.leftover| == |r.leftover| && o.value.0.leftover == junk
    ensures |r.leftover| > 0 ==> LoadAsWritten(r, path, true, channels, junk).value.0.leftover != []
    ensures Load(r, path, true, channels).value.0.leftover == []
  {
  }
}

=== FILE: pool.dfy ===
/** The reference-counted bounded pool (`Pool.cs`, `Pooled.cs`).

    A `World` holds the pool's state and every handle ever allocated, indexed
    by position: a handle id is an index into `handles`, standing for the C#
    object reference. The free collection is a sequence of ids; the bag hands
    out the most recently added item first, as a thread-local bag does when
    one thread both adds and takes. The pool's `Allocate` is the one the two
    sample pools share: it constructs up to `capacity` payloads in turn, and
    `made` lists the payloads whose construction succeeded before the first
    failure (a short list is a failed allocation). */
module Pooling {
  import opened Common

  /** A `Pooled<T>`: payload, reference count, whether its pool back-reference
      is still set, the handle's disposed flag, how often its payload was
      disposed, and the debugging index. */
  datatype Handle<T> = Handle(
    data: T,
    refCount: int,
    attached: bool,
    disposed: bool,
    frees: nat,
    index: int)

  datatype PoolState = PoolState(
    free: seq<nat>,
    total: int,
    capacity: int,
    max: int,
    disposed: bool)

  datatype World<T> = World(pool: PoolState, handles: seq<Handle<T>>)

  /** The result of `Get`: no item (`null`) or a handle id. */
  datatype Taken = Null | Item(id: nat)

  /** A new state together with what the call returned or raised. */
  datatype Res<T, V> = Res(world: World<T>, out: Outcome<V>)

  const DefaultCapacity: int := 3
  const DefaultMax: int := 100

  function NewPool<T>(capacity: int, max: int): (w: World<T>)
    ensures w.pool.total == 0 && |w.pool.free| == 0 && |w.handles| == 0
    ensures w.pool.capacity == capacity && w.pool.max == max && !w.pool.disposed
  {
    World(PoolState([], 0, capacity, max, false), [])
  }

  /** The constructor's defaults. */
  lemma DefaultPoolShape<T>()
    ensures var w := NewPool<T>(DefaultCapacity, DefaultMax);
      w.pool.capacity == 3 && w.pool.max == 100 && Invariant(w)
  {
  }

  /** Every free entry names an allocated handle. */
  predicate IdsValid<T>(w: World<T>) {
    forall i :: 0 <= i < |w.pool.free| ==> w.pool.free[i] < |w.handles|
  }

  /** The pool never holds more than `max + capacity` items once `max` is set:
      the ceiling test is strict and a batch is allocated whole. */
  predicate Bounded<T>(w: World<T>) {
    w.pool.max != 0 ==> w.pool.total <= w.pool.max + w.pool.capacity
  }

  /** With a positive `max`, the free collection never exceeds `capacity + 1`. */
  predicate FreeBounded<T>(w: World<T>) {
    w.pool.max > 0 && w.pool.capacity >= 0 ==> |w.pool.free| <= w.pool.capacity + 1
  }

  /** Each payload is disposed at most once, exactly when its handle is. */
  predicate DisposedOnce<T>(w: World<T>) {
    forall i :: 0 <= i < |w.handles| ==>
      w.handles[i].frees == (if w.handles[i].disposed then 1 else 0)
  }

  /** A handle whose payload is alive has a positive count. */
  predicate LiveCounted<T>(w: World<T>) {
    forall i :: 0 <= i < |w.handles| ==> !w.handles[i].disposed ==> w.handles[i].refCount >= 1
  }

  /** A disposed pool holds no free items. */
  predicate DisposedEmpty<T>(w: World<T>) {
    w.pool.disposed ==> |w.pool.free| == 0
  }

  predicate Invariant<T>(w: World<T>) {
    IdsValid(w) && Bounded(w) && FreeBounded(w) && DisposedOnce(w) && LiveCounted(w) && DisposedEmpty(w)
  }

  /** The shared `Allocate`: one handle per constructed payload, each with
      count 1, attached, and indexed by the running total; each is added to
      the free collection. It succeeds only when all `capacity` payloads were
      constructed; a partial batch is kept. */
  function Allocate<T>(w: World<T>, made: seq<T>): (r: (World<T>, bool))
    requires |made| <= w.pool.capacity
    ensures r.1 <==> |made| == w.pool.capacity
    ensures r.0.pool.total == w.pool.total + |made|
    ensures r.0.pool.capacity == w.pool.capacity && r.0.pool.max == w.pool.max
    ensures r.0.pool.disposed == w.pool.disposed
    ensures |r.0.handles| == |w.handles| + |made| && r.0.handles[..|w.handles|] == w.handles
    ensures |r.0.pool.free| == |w.pool.free| + |made| && r.0.pool.free[..|w.pool.free|] == w.pool.free
    ensures forall i :: 0 <= i < |made| ==>
      r.0.pool.free[|w.pool.free| + i] == |w.handles| + i
      && r.0.handles[|w.handles| + i] == Handle(made[i], 1, true, false, 0, w.pool.total + i)
  {
    var n := |w.handles|;
    var added := seq(|made|, i requires 0 <= i < |made| => Handle(made[i], 1, true, false, 0, w.pool.total + i));
    var ids := seq(|made|, i requires 0 <= i < |made| => n + i);
    (World(w.pool.(free := w.pool.free + ids, total := w.pool.total + |made|), w.handles + added),
     |made| == w.pool.capacity)
  }

  /** `TryTake` on a non-empty bag. */
  function TakeLast<T>(w: World<T>): (r: Res<T, Taken>)
    requires |w.pool.free| > 0
    ensures r.out == Ok(Item(w.pool.free[|w.pool.free| - 1]))
    ensures r.world == w.(pool := w.pool.(free := w.pool.free[..|w.pool.free| - 1]))
    ensures multiset(r.world.pool.free) + multiset{r.out.value.id} == multiset(w.pool.free)
  {
    var k := |w.pool.free| - 1;
    assert w.pool.free == w.pool.free[..k] + [w.pool.free[k]];
    Res(w.(pool := w.pool.(free := w.pool.free[..k])), Ok(Item(w.pool.free[k])))
  }

  /** `Pool.Get`. A disposed pool yields null. A free item is taken if there is
      one. Otherwise null when `max` is set and `total > max`; else a batch is
      allocated (a failed one raises) and an item of it is taken. A capacity
      of zero or less would make the source recurse without end, so callers
      must use a positive capacity. */
  function Get<T>(w: World<T>, made: seq<T>): (r: Res<T, Taken>)
    requires w.pool.capacity > 0 && |made| <= w.pool.capacity
    ensures w.pool.disposed ==> r == Res(w, Ok(Null))
    ensures !w.pool.disposed && |w.pool.free| > 0 ==> r == TakeLast(w)
    ensures r.out == Ok(Null) <==>
      w.pool.disposed || (|w.pool.free| == 0 && w.pool.max != 0 && w.pool.total > w.pool.max)
    ensures r.out.Throw? <==>
      !w.pool.disposed && |w.pool.free| == 0 && !(w.pool.max != 0 && w.pool.total > w.pool.max)
      && |made| < w.pool.capacity
    ensures r.out.Throw? ==> r.out.fault == InvalidProgram
    ensures r.world.pool.total == w.pool.total
      || (|w.pool.free| == 0 && r.world.pool.total == w.pool.total + |made|)
    ensures r.world.pool.total > w.pool.total ==> w.pool.max == 0 || w.pool.total <= w.pool.max
    ensures |r.world.handles| >= |w.handles| && r.world.handles[..|w.handles|] == w.handles
    ensures r.world.pool.capacity == w.pool.capacity && r.world.pool.max == w.pool.max
    ensures r.world.pool.disposed == w.pool.disposed
  {
    if w.pool.disposed then Res(w, Ok(Null))
    else if |w.pool.free| > 0 then TakeLast(w)
    else if w.pool.max != 0 && w.pool.total > w.pool.max then Res(w, Ok(Null))
    else GetFresh(w, made)
  }

  /** The allocating branch of `Get`: the free collection is empty and the
      ceiling lets a batch through. */
  function GetFresh<T>(w: World<T>, made: seq<T>): (r: Res<T, Taken>)
    requires |made| <= w.pool.capacity && w.pool.capacity > 0
    requires !w.pool.disposed && |w.pool.free| == 0
    requires !(w.pool.max != 0 && w.pool.total > w.pool.max)
    ensures r.out.Throw? <==> |made| < w.pool.capacity
    ensures r.out.Throw? ==> r.out.fault == InvalidProgram
    ensures r.out.Ok? ==> r.out.value.Item? && r.out.value.id < |r.world.handles|
    ensures r.world.pool.total == w.pool.total + |made|
    ensures |r.world.handles| >= |w.handles| && r.world.handles[..|w.handles|] == w.handles
    ensures r.world.pool.capacity == w.pool.capacity && r.world.pool.max == w.pool.max
    ensures r.world.pool.disposed == w.pool.disposed
    ensures IdsValid(w) ==> IdsValid(r.world)
    ensures Invariant(w) ==> Invariant(r.world)
  {
    var (w1, ok) := Allocate(w, made);
    assert Invariant(w) ==> Invariant(w1) by {
      if Invariant(w) {
        AllocateKeepsInvariant(w, made);
      }
    }
    if !ok then Res(w1, Throw(InvalidProgram))
    else TakeLast(w1)
  }

  /** Taking a free item keeps the invariant, and the item names a handle. */
  lemma TakeLastKeepsInvariant<T>(w: World<T>)
    requires |w.pool.free| > 0
    ensures IdsValid(w) ==> IdsValid(TakeLast(w).world) && TakeLast(w).out.value.id < |w.handles|
    ensures Invariant(w) ==> Invariant(TakeLast(w).world)
  {
    var k := |w.pool.free| - 1;
    assert forall i :: 0 <= i < k ==> TakeLast(w).world.pool.free[i] == w.pool.free[i];
  }

  /** `Get` keeps the invariant, and an item it hands out names a handle. */
  lemma GetKeepsInvariant<T>(w: World<T>, made: seq<T>)
    requires w.pool.capacity > 0 && |made| <= w.pool.capacity
    ensures IdsValid(w) ==> IdsValid(Get(w, made).world)
    ensures IdsValid(w) && Get(w, made).out.Ok? && Get(w, made).out.value.Item? ==>
      Get(w, made).out.value.id < |Get(w, made).world.handles|
    ensures Invariant(w) ==> Invariant(Get(w, made).world)
  {
    if !w.pool.disposed && |w.pool.free| > 0 {
      TakeLastKeepsInvariant(w);
    }
  }

  /** A batch allocated on an empty, undisposed pool below its ceiling keeps
      the invariant: the new handles are live and counted once, and the
      ceiling test let the batch through only while `total <= max`. */
  lemma AllocateKeepsInvariant<T>(w: World<T>, made: seq<T>)
    requires |made| <= w.pool.capacity
    requires Invariant(w) && !w.pool.disposed && |w.pool.free| == 0
    requires !(w.pool.max != 0 && w.pool.total > w.pool.max)
    ensures Invariant(Allocate(w, made).0)
  {
    var w1 := Allocate(w, made).0;
    assert forall i :: 0 <= i < |w.handles| ==> w1.handles[i] == w.handles[i];
  }

  /** `Pool.Return`: a disposed pool, or a bounded pool already holding more
      than `capacity` free items, rejects the item and forgets it (decrements
      `total`); otherwise the item goes back to the free collection. */
  function Return(p: PoolState, id: nat): (r: (PoolState, bool))
    ensures r.1 <==> !p.disposed && !(p.max > 0 && |p.free| > p.capacity)
    ensures r.1 ==> r.0 == p.(free := p.free + [id])
    ensures !r.1 ==> r.0 == p.(total := p.total - 1)
    ensures r.1 && p.max > 0 ==> |r.0.free| <= p.capacity + 1
  {
    if p.disposed then (p.(total := p.total - 1), false)
    else if p.max > 0 && |p.free| > p.capacity then (p.(total := p.total - 1), false)
    else (p.(free := p.free + [id]), true)
  }

  /** `Pooled.Clone`: increments the count and hands back the same handle; a
      count that was 0 (a released handle) raises, with the increment kept. */
  function Clone<T>(w: World<T>, id: nat): (r: Res<T, nat>)
    requires id < |w.handles|
    ensures r.world == w.(handles := w.handles[id := w.handles[id].(refCount := w.handles[id].refCount + 1)])
    ensures r.out.Throw? <==> w.handles[id].refCount == 0
    ensures r.out.Throw? ==> r.out.fault == ObjectDisposed
    ensures r.out.Ok? ==> r.out.value == id
    ensures Invariant(w) ==> Invariant(r.world)
  {
    var h := w.handles[id];
    var w1 := w.(handles := w.handles[id := h.(refCount := h.refCount + 1)]);
    if h.refCount + 1 == 1 then Res(w1, Throw(ObjectDisposed)) else Res(w1, Ok(id))
  }

  /** `Pooled.Detech`: forgets the pool, nothing else. */
  function Detach<T>(w: World<T>, id: nat): (r: World<T>)
    requires id < |w.handles|
    ensures r.pool == w.pool && |r.handles| == |w.handles|
    ensures !r.handles[id].attached
    ensures r.handles[id] == w.handles[id].(attached := false)
    ensures forall j :: 0 <= j < |w.handles| && j != id ==> r.handles[j] == w.handles[j]
    ensures Invariant(w) ==> Invariant(r)
  {
    w.(handles := w.handles[id := w.handles[id].(attached := false)])
  }

  /** `Pooled.Dispose`. Nothing happens once the payload is disposed. Otherwise
      the count is decremented and stored; below 0 raises; at 0 an attached
      handle is offered back to its pool, and if accepted its count is reset to
      1; a detached or rejected handle disposes its payload and is marked
      disposed. */
  function Dispose<T>(w: World<T>, id: nat): (r: Res<T, ()>)
    requires id < |w.handles|
    ensures w.handles[id].disposed ==> r == Res(w, Ok(()))
    ensures r.out.Throw? <==> !w.handles[id].disposed && w.handles[id].refCount < 1
    ensures r.out.Throw? ==> r.out.fault == ObjectDisposed
    ensures |r.world.handles| == |w.handles|
    ensures forall j :: 0 <= j < |w.handles| && j != id ==> r.world.handles[j] == w.handles[j]
    ensures r.world.handles[id].data == w.handles[id].data
    ensures r.world.handles[id].attached == w.handles[id].attached
    ensures !w.handles[id].disposed && w.handles[id].refCount > 1 ==>
      r.world.pool == w.pool && r.world.handles[id] == w.handles[id].(refCount := w.handles[id].refCount - 1)
    ensures r.world.handles[id].frees == w.handles[id].frees + (if r.world.handles[id].disposed && !w.handles[id].disposed then 1 else 0)
    ensures r.world.handles[id].disposed && !w.handles[id].disposed ==>
      w.handles[id].refCount == 1 && (!w.handles[id].attached || !Return(w.pool, id).1)
    ensures r.world.pool.total <= w.pool.total
    ensures r.world.pool.capacity == w.pool.capacity && r.world.pool.max == w.pool.max
    ensures r.world.pool.disposed == w.pool.disposed
    ensures IdsValid(w) ==> IdsValid(r.world)
    ensures Invariant(w) ==> Invariant(r.world) && r.out.Ok?
  {
    var h := w.handles[id];
    if h.disposed then Res(w, Ok(()))
    else
      var count := h.refCount - 1;
      var counted := w.handles[id := h.(refCount := count)];
      var released := w.handles[id := h.(refCount := count, disposed := true, frees := h.frees + 1)];
      if count < 0 then Res(World(w.pool, counted), Throw(ObjectDisposed))
      else if count > 0 then Res(World(w.pool, counted), Ok(()))
      else if h.attached then
        var (p, accepted) := Return(w.pool, id);
        if accepted then Res(World(p, w.handles[id := h.(refCount := 1)]), Ok(()))
        else Res(World(p, released), Ok(()))
      else Res(World(w.pool, released), Ok(()))
  }

  /** One step of the drain: take the last free item, detach it and dispose
      it. A detached handle never calls back into the pool, so the pool's
      state changes only by losing that item. */
  function DrainStep<T>(w: World<T>): (r: Res<T, ()>)
    requires IdsValid(w) && |w.pool.free| > 0
    ensures r.world.pool == w.pool.(free := w.pool.free[..|w.pool.free| - 1])
    ensures |r.world.handles| == |w.handles|
    ensures !r.world.handles[w.pool.free[|w.pool.free| - 1]].attached
    ensures forall j :: 0 <= j < |w.handles| && !w.handles[j].attached ==> !r.world.handles[j].attached
    ensures Invariant(w) ==> Invariant(r.world) && r.out.Ok?
  {
    var t := TakeLast(w);
    var id := t.out.value.id;
    var w1 := Detach(t.world, id);
    Dispose(w1, id)
  }

  /** The drain in `Pool.Dispose(bool)`: take each free item, detach it and
      dispose it. A fault raised by an item stops the drain. */
  function DrainFree<T>(w: World<T>): (r: Res<T, ()>)
    requires IdsValid(w)
    ensures r.out.Ok? ==> |r.world.pool.free| == 0
    ensures r.world.pool == w.pool.(free := r.world.pool.free)
    ensures |r.world.handles| == |w.handles|
    ensures IdsValid(r.world)
    ensures forall j :: 0 <= j < |w.handles| && !w.handles[j].attached ==> !r.world.handles[j].attached
    ensures r.out.Ok? ==> forall i :: 0 <= i < |w.pool.free| ==> !r.world.handles[w.pool.free[i]].attached
    ensures Invariant(w) ==> Invariant(r.world) && r.out.Ok?
    decreases |w.pool.free|
  {
    if |w.pool.free| == 0 then Res(w, Ok(()))
    else
      var d := DrainStep(w);
      if d.out.Throw? then d
      else
        var r := DrainFree(d.world);
        assert forall i :: 0 <= i < |w.pool.free| - 1 ==> w.pool.free[i] == d.world.pool.free[i];
        r
  }

  /** `Pool.Dispose`: a no-op on a disposed pool; otherwise drains the free
      collection and marks the pool disposed. `total` is left alone. */
  function DisposePool<T>(w: World<T>): (r: Res<T, ()>)
    requires IdsValid(w)
    ensures w.pool.disposed ==> r == Res(w, Ok(()))
    ensures |r.world.handles| == |w.handles|
    ensures r.out.Ok? ==> r.world.pool.disposed
    ensures r.out.Ok? && !w.pool.disposed ==> |r.world.pool.free| == 0
    ensures r.out.Ok? && !w.pool.disposed ==>
      forall i :: 0 <= i < |w.pool.free| ==> !r.world.handles[w.pool.free[i]].attached
    ensures r.world.pool.total == w.pool.total
    ensures Invariant(w) ==> Invariant(r.world) && r.out.Ok?
  {
    if w.pool.disposed then Res(w, Ok(()))
    else
      var d := DrainFree(w);
      if d.out.Throw? then d
      else Res(d.world.(pool := d.world.pool.(disposed := true)), Ok(()))
  }

  /** The operations a caller can perform, for reasoning about sequences. */
  datatype Op<T> =
    | GetOp(made: seq<T>)
    | CloneOp(id: nat)
    | DetachOp(id: nat)
    | DisposeOp(id: nat)
    | DisposePoolOp

  /** One operation; a reference to a handle that does not exist, or an
      allocation oracle longer than a batch, has no effect. */
  function Apply<T>(w: World<T>, op: Op<T>): (r: World<T>)
    requires w.pool.capacity > 0 && IdsValid(w)
    ensures r.pool.capacity == w.pool.capacity && r.pool.max == w.pool.max
    ensures IdsValid(r)
    ensures Invariant(w) ==> Invariant(r)
  {
    match op
    case GetOp(made) =>
      if |made| <= w.pool.capacity then GetKeepsInvariant(w, made); Get(w, made).world else w
    case CloneOp(id) => if id < |w.handles| then Clone(w, id).world else w
    case DetachOp(id) => if id < |w.handles| then Detach(w, id) else w
    case DisposeOp(id) => if id < |w.handles| then Dispose(w, id).world else w
    case DisposePoolOp => DisposePool(w).world
  }

  function Run<T>(w: World<T>, ops: seq<Op<T>>): (r: World<T>)
    requires w.pool.capacity > 0 && IdsValid(w)
    ensures r.pool.capacity == w.pool.capacity && r.pool.max == w.pool.max
    ensures IdsValid(r)
    decreases |ops|
  {
    if |ops| == 0 then w else Run(Apply(w, ops[0]), ops[1..])
  }

  /** Whatever callers do, the pool stays within `max + capacity`, the free
      collection within `capacity + 1`, and no payload is disposed twice. */
  lemma {:induction false} RunKeepsInvariant<T>(w: World<T>, ops: seq<Op<T>>)
    requires w.pool.capacity > 0 && Invariant(w)
    ensures Invariant(Run(w, ops))
    ensures w.pool.max != 0 ==> Run(w, ops).pool.total <= w.pool.max + w.pool.capacity
    decreases |ops|
  {
    if |ops| > 0 {
      RunKeepsInvariant(Apply(w, ops[0]), ops[1..]);
    }
  }

  /** A new pool with a positive capacity and `max` meets the invariant. */
  lemma NewPoolInvariant<T>(capacity: int, max: int)
    requires capacity > 0 && max >= 0
    ensures Invariant(NewPool<T>(capacity, max))
  {
  }

  /** On a live handle of a well-formed world `Clone` never raises: only a
      released handle has count 0. */
  lemma CloneRaisesOnlyWhenReleased<T>(w: World<T>, id: nat)
    requires Invariant(w) && id < |w.handles|
    ensures Clone(w, id).out.Throw? ==> w.handles[id].disposed
  {
  }

  /** Capacity 2 and maximum 4: because the ceiling test is strict, a third
      batch is allocated at `total == 4`, so the fifth and sixth `Get` succeed
      and only the seventh yields null. */
  lemma StrictCeilingAdmitsExtraBatch(a: int, b: int, c: int, d: int, e: int, f: int)
    ensures var w0 := NewPool<int>(2, 4);
      var g1 := Get(w0, [a, b]);
      var g2 := Get(g1.world, []);
      var g3 := Get(g2.world, [c, d]);
      var g4 := Get(g3.world, []);
      var g5 := Get(g4.world, [e, f]);
      var g6 := Get(g5.world, []);
      var g7 := Get(g6.world, [a, b]);
      && g4.out.Ok? && g4.out.value.Item?
      && g5.out.Ok? && g5.out.value.Item?
      && g6.out.Ok? && g6.out.value.Item?
      && g6.world.pool.total == 6
      && g7.out == Ok(Null)
  {
  }

  /** Over-release: a handle's count is reset to 1 when the pool takes it back,
      so a stale second release of an item already in the pool counts down to
      0 again and puts the same handle in the free collection twice instead of
      raising. */
  lemma OverReleaseReentersPool(x: int)
    ensures var w0 := NewPool<int>(3, 100);
      var g := Get(w0, [x, x, x]);
      var id := g.out.value.id;
      var r1 := Dispose(g.world, id);
      var r2 := Dispose(r1.world, id);
      && g.out.Ok? && r1.out.Ok? && r2.out.Ok?
      && multiset(r2.world.pool.free)[id] == 2
      && r2.world.handles[id].refCount == 1
  {
  }
}

=== FILE: readers.dfy ===
/** The source readers (`SourceReader.cs`, `AudioReader.cs`): worker cycles
    that open the source (retrying network streams), read one packet, queue
    what the decoder produced, and drain the queues downstream at the pace
    of the presentation clocks. Reading, decoding and the wall clock are
    oracles gathered in a `Tick`. */
module Readers {
  import opened Common
  import opened Pacing

  /** How `ReadNext` ended: a read error, the end of the stream (raised as
      an exception), or a packet of the video or the audio stream. */
  datatype ReadResult = ReadFailed | EndOfStream | Packet(isVideo: bool)

  /** The outside world during one cycle: whether a re-open succeeds, the
      read, the samples the decoder produced from the packet and their
      durations, the elapsed time since the start, the pacing mode, and the
      answers the listeners give to the audio and to the video posts. */
  datatype Tick = Tick(
    openOk: bool,
    read: ReadResult,
    decoded: seq<nat>,
    decodedDurs: seq<int>,
    elapsed: int,
    realTime: bool,
    audioAnswers: seq<bool>,
    videoAnswers: seq<bool>)

  /** The unopened-source policy both readers share. */
  datatype Retry = Retry(isOpen: bool, tryCount: int, stop: bool, wait: int)

  function RetryOpen(netStream: bool, tryCount: int, openOk: bool): (r: Retry)
    ensures r.stop <==> !netStream || tryCount > 20
    ensures r.stop ==> r == Retry(false, tryCount, true, 0)
    ensures !r.stop ==> r.tryCount == tryCount + 1 && r.isOpen == openOk
    ensures !r.stop ==> r.wait == if openOk then 20 else 200
  {
    if !netStream || tryCount > 20 then Retry(false, tryCount, true, 0)
    else Retry(openOk, tryCount + 1, false, if openOk then 20 else 200)
  }

  /** The attempt count after `n` failed re-opens of a network source. */
  function RetryOpenFailing(tryCount: int, n: nat): (c: int)
    decreases n
  {
    if n == 0 then tryCount
    else
      var r := RetryOpen(true, tryCount, false);
      if r.stop then tryCount else RetryOpenFailing(r.tryCount, n - 1)
  }

  /** Each failed re-open below the limit counts one attempt. */
  lemma {:induction false} RetriesCount(c: int, n: nat)
    requires 0 <= c && c + n <= 21
    ensures RetryOpenFailing(c, n) == c + n
    decreases n
  {
    if n > 0 {
      RetriesCount(c + 1, n - 1);
    }
  }

  /** A network source that never opens is retried until the attempt count
      passes 20: starting from 0, twenty-one re-opens are tried and the
      twenty-second cycle gives up. */
  lemma RetriesThenGivesUp(n: nat)
    requires n <= 21
    ensures RetryOpen(true, RetryOpenFailing(0, n), false).stop <==> n == 21
  {
    RetriesCount(0, n);
  }

  // ---------------------------------------------------------------------
  // SourceReader: audio and video queues, each with its own clock and a
  // nominal duration per sample.

  datatype SourceReader = SourceReader(
    isOpen: bool,
    netStream: bool,
    tryCount: int,
    started: bool,          // the start time has been taken since `Start`
    audioQ: seq<nat>,
    videoQ: seq<nat>,
    audioTime: int,
    videoTime: int,
    audioDur: int,          // nominal durations computed at open
    videoDur: int,
    hasAudioDecoder: bool,
    hasVideoDecoder: bool,
    taken: seq<nat>,        // every sample taken from a decoder
    posts: seq<Stamp>,      // every sample `Post`
    released: seq<nat>,     // every sample released after a post
    eosPosted: bool,
    stopMarked: bool)

  /** Every sample taken from a decoder is queued or has been released. */
  predicate Accounted(r: SourceReader) {
    multiset(r.taken) == multiset(r.released) + multiset(r.audioQ) + multiset(r.videoQ)
  }

  predicate AtCeiling(r: SourceReader) {
    |r.videoQ| >= VideoCacheCount || |r.audioQ| >= AudioCacheCount
  }

  /** The drain of both queues: audio first, then video, each against its own
      clock and with the nominal duration written into every sample. */
  function DrainBoth(r: SourceReader, k: Tick): (o: SourceReader)
    ensures var a := Drain(r.audioQ, Nominal(r.audioQ, r.audioDur), r.audioTime, k.elapsed, k.realTime, k.audioAnswers);
            var v := Drain(r.videoQ, Nominal(r.videoQ, r.videoDur), r.videoTime, k.elapsed, k.realTime, k.videoAnswers);
      && o.audioQ == a.rest && o.videoQ == v.rest
      && o.audioTime == a.time && o.videoTime == v.time
      && o.posts == r.posts + a.posts + v.posts
      && o.released == r.released + r.audioQ[..a.count] + r.videoQ[..v.count]
    ensures o.taken == r.taken && o.isOpen == r.isOpen && o.started == r.started
    ensures Accounted(r) ==> Accounted(o)
  {
    var a := Drain(r.audioQ, Nominal(r.audioQ, r.audioDur), r.audioTime, k.elapsed, k.realTime, k.audioAnswers);
    var v := Drain(r.videoQ, Nominal(r.videoQ, r.videoDur), r.videoTime, k.elapsed, k.realTime, k.videoAnswers);
    assert r.audioQ == r.audioQ[..a.count] + a.rest;
    assert r.videoQ == r.videoQ[..v.count] + v.rest;
    r.(audioQ := a.rest, videoQ := v.rest, audioTime := a.time, videoTime := v.time,
       posts := r.posts + a.posts + v.posts,
       released := r.released + r.audioQ[..a.count] + r.videoQ[..v.count])
  }

  /** Every queued sample is given the nominal duration when it goes out. */
  function Nominal(q: seq<nat>, d: int): (ds: seq<int>)
    ensures |ds| == |q| && forall i :: 0 <= i < |ds| ==> ds[i] == d
  {
    seq(|q|, _ => d)
  }

  /** Each clock advances by the nominal duration once per sample sent. */
  lemma DrainBothClocks(r: SourceReader, k: Tick)
    ensures var a := Drain(r.audioQ, Nominal(r.audioQ, r.audioDur), r.audioTime, k.elapsed, k.realTime, k.audioAnswers);
            var v := Drain(r.videoQ, Nominal(r.videoQ, r.videoDur), r.videoTime, k.elapsed, k.realTime, k.videoAnswers);
      && DrainBoth(r, k).audioTime == r.audioTime + a.count * r.audioDur
      && DrainBoth(r, k).videoTime == r.videoTime + v.count * r.videoDur
  {
    var a := Drain(r.audioQ, Nominal(r.audioQ, r.audioDur), r.audioTime, k.elapsed, k.realTime, k.audioAnswers);
    var v := Drain(r.videoQ, Nominal(r.videoQ, r.videoDur), r.videoTime, k.elapsed, k.realTime, k.videoAnswers);
    DrainClock(r.audioQ, Nominal(r.audioQ, r.audioDur), r.audioTime, k.elapsed, k.realTime, k.audioAnswers);
    DrainClock(r.videoQ, Nominal(r.videoQ, r.videoDur), r.videoTime, k.elapsed, k.realTime, k.videoAnswers);
    NominalClock(|r.audioQ|, r.audioDur, r.audioTime, a.count);
    NominalClock(|r.videoQ|, r.videoDur, r.videoTime, v.count);
  }

  /** `Start`: the start time is cleared and an unopened source is isOpen. */
  function StartReader(r: SourceReader, openOk: bool): (o: SourceReader)
    ensures !o.started
    ensures o.isOpen == (r.isOpen || openOk)
    ensures o.audioQ == r.audioQ && o.videoQ == r.videoQ && o.taken == r.taken && o.released == r.released
  {
    r.(started := false, isOpen := r.isOpen || openOk)
  }

  /** The first cycle after `Start` takes the start time and zeroes both
      clocks. */
  function Started(r: SourceReader): (o: SourceReader)
    ensures o.started
    ensures !r.started ==> o.audioTime == 0 && o.videoTime == 0
    ensures r.started ==> o == r
    ensures o.audioQ == r.audioQ && o.videoQ == r.videoQ && o.taken == r.taken
    ensures o.posts == r.posts && o.released == r.released && o.isOpen == r.isOpen
  {
    if r.started then r else r.(started := true, audioTime := 0, videoTime := 0)
  }

  /** The part of a cycle below the ceiling: read one packet, queue what the
      matching decoder produced, and drain. */
  function ReadAndDrain(r: SourceReader, k: Tick): (o: (SourceReader, int))
    ensures k.read == ReadFailed ==> o == (r, 10)
    ensures k.read == EndOfStream ==> o == (r.(eosPosted := true, stopMarked := true), 0)
    ensures k.read.Packet? ==> o.1 == (if AtCeiling(o.0) then 15 else 0)
    ensures k.read.Packet? && k.read.isVideo && r.hasVideoDecoder ==>
      o.0 == DrainBoth(r.(videoQ := r.videoQ + k.decoded, taken := r.taken + k.decoded), k)
    ensures k.read.Packet? && !k.read.isVideo && r.hasAudioDecoder ==>
      o.0 == DrainBoth(r.(audioQ := r.audioQ + k.decoded, taken := r.taken + k.decoded), k)
    ensures k.read.Packet? && !(if k.read.isVideo then r.hasVideoDecoder else r.hasAudioDecoder) ==>
      o.0 == DrainBoth(r, k)
    ensures Accounted(r) ==> Accounted(o.0)
  {
    match k.read
    case ReadFailed => (r, 10)
    case EndOfStream => (r.(eosPosted := true, stopMarked := true), 0)
    case Packet(isVideo) =>
      var r2 :=
        if isVideo && r.hasVideoDecoder then
          r.(videoQ := r.videoQ + k.decoded, taken := r.taken + k.decoded)
        else if !isVideo && r.hasAudioDecoder then
          r.(audioQ := r.audioQ + k.decoded, taken := r.taken + k.decoded)
        else r;
      var r3 := DrainBoth(r2, k);
      (r3, if AtCeiling(r3) then 15 else 0)
  }

  /** `ExecuteCycleLogic` of the source reader: the new state and the wait. */
  function SourceCycle(r: SourceReader, k: Tick): (o: (SourceReader, int))
    ensures !r.isOpen ==> var t := RetryOpen(r.netStream, r.tryCount, k.openOk);
      o == (r.(isOpen := t.isOpen, tryCount := t.tryCount, stopMarked := r.stopMarked || t.stop), t.wait)
    ensures r.isOpen && AtCeiling(r) ==> o == (DrainBoth(Started(r), k), 15)
    ensures r.isOpen && !AtCeiling(r) ==> o == ReadAndDrain(Started(r), k)
    ensures Accounted(r) ==> Accounted(o.0)
  {
    if !r.isOpen then
      var t := RetryOpen(r.netStream, r.tryCount, k.openOk);
      (r.(isOpen := t.isOpen, tryCount := t.tryCount, stopMarked := r.stopMarked || t.stop), t.wait)
    else
      var r1 := Started(r);
      if AtCeiling(r1) then (DrainBoth(r1, k), 15)
      else ReadAndDrain(r1, k)
  }

  /** The first cycle after `Start` stamps the first audio and the first video
      sample it posts with time zero, and each later one a nominal duration
      after the one before. */
  lemma FirstCycleStampsFromZero(r: SourceReader, k: Tick)
    requires r.isOpen && !r.started && !AtCeiling(r)
    requires k.read == Packet(false) && r.hasAudioDecoder
    ensures var o := SourceCycle(r, k).0;
      var q := r.audioQ + k.decoded;
      var a := Drain(q, Nominal(q, r.audioDur), 0, k.elapsed, k.realTime, k.audioAnswers);
      && o.posts[..|r.posts| + |a.posts|] == r.posts + a.posts
      && forall i :: 0 <= i < |a.posts| ==> a.posts[i] == Stamp(q[i], i * r.audioDur)
  {
    var q := r.audioQ + k.decoded;
    var ds := Nominal(q, r.audioDur);
    var a := Drain(q, ds, 0, k.elapsed, k.realTime, k.audioAnswers);
    DrainPosts(q, ds, 0, k.elapsed, k.realTime, k.audioAnswers);
    forall i | 0 <= i < |a.posts|
      ensures a.posts[i] == Stamp(q[i], i * r.audioDur)
    {
      NominalClock(|q|, r.audioDur, 0, i);
    }
  }

  /** At the ceiling a cycle reads nothing: no sample is taken and the queues
      only shrink. */
  lemma CeilingOnlyDrains(r: SourceReader, k: Tick)
    requires r.isOpen && AtCeiling(r)
    ensures var o := SourceCycle(r, k);
      o.1 == 15 && o.0.taken == r.taken && |o.0.audioQ| <= |r.audioQ| && |o.0.videoQ| <= |r.videoQ|
  {
  }

  /** `OnDisposing`: every queued sample is released. */
  function DisposeReader(r: SourceReader): (o: SourceReader)
    ensures |o.audioQ| == 0 && |o.videoQ| == 0
    ensures Accounted(r) ==> multiset(o.released) == multiset(r.taken)
  {
    r.(audioQ := [], videoQ := [], released := r.released + r.videoQ + r.audioQ)
  }

  // ---------------------------------------------------------------------
  // AudioReader: one audio queue whose samples carry their own durations.

  datatype AudioReader = AudioReader(
    isOpen: bool,
    netStream: bool,
    tryCount: int,
    started: bool,
    queue: seq<nat>,
    durs: seq<int>,         // the duration each queued sample carries
    time: int,
    taken: seq<nat>,
    posts: seq<Stamp>,
    released: seq<nat>,
    eosPosted: bool,
    stopMarked: bool)

  predicate AudioWellFormed(r: AudioReader) {
    |r.durs| == |r.queue|
  }

  predicate AudioAccounted(r: AudioReader) {
    multiset(r.taken) == multiset(r.released) + multiset(r.queue)
  }

  /** The audio drain: the clock advances by each sample's own duration. */
  function DrainAudio(r: AudioReader, k: Tick): (o: AudioReader)
    requires AudioWellFormed(r)
    ensures var a := Drain(r.queue, r.durs, r.time, k.elapsed, k.realTime, k.audioAnswers);
      && o.queue == a.rest && o.durs == a.restDurs
      && o.time == r.time + Sum(r.durs[..a.count])
      && o.posts == r.posts + a.posts
      && o.released == r.released + r.queue[..a.count]
    ensures o.taken == r.taken && o.isOpen == r.isOpen && o.started == r.started
    ensures AudioWellFormed(o)
    ensures AudioAccounted(r) ==> AudioAccounted(o)
  {
    var a := Drain(r.queue, r.durs, r.time, k.elapsed, k.realTime, k.audioAnswers);
    DrainClock(r.queue, r.durs, r.time, k.elapsed, k.realTime, k.audioAnswers);
    assert r.queue == r.queue[..a.count] + a.rest;
    r.(queue := a.rest, durs := a.restDurs, time := a.time,
       posts := r.posts + a.posts, released := r.released + r.queue[..a.count])
  }

  function AudioCycle(r: AudioReader, k: Tick): (o: (AudioReader, int))
    requires AudioWellFormed(r) && |k.decoded| == |k.decodedDurs|
    ensures !r.isOpen ==> o.0.queue == r.queue && o.0.posts == r.posts
    ensures !r.isOpen ==> var t := RetryOpen(r.netStream, r.tryCount, k.openOk);
      o.1 == t.wait && o.0.stopMarked == (r.stopMarked || t.stop) && o.0.isOpen == t.isOpen
    ensures r.isOpen && |r.queue| >= AudioCacheCount ==> o.1 == 15 && o.0.taken == r.taken
    ensures r.isOpen && |r.queue| < AudioCacheCount && k.read == ReadFailed ==> o.1 == 10 && o.0.queue == r.queue
    ensures r.isOpen && |r.queue| < AudioCacheCount && k.read == EndOfStream ==>
      o.1 == 0 && o.0.eosPosted && o.0.stopMarked && o.0.queue == r.queue
    ensures r.isOpen && |r.queue| < AudioCacheCount && k.read == Packet(true) ==> o.0.taken == r.taken
    ensures r.isOpen && |r.queue| < AudioCacheCount && k.read.Packet? ==>
      o.1 == (if |o.0.queue| >= AudioCacheCount then 15 else 0)
    ensures AudioWellFormed(o.0)
    ensures AudioAccounted(r) ==> AudioAccounted(o.0)
  {
    if !r.isOpen then
      var t := RetryOpen(r.netStream, r.tryCount, k.openOk);
      (r.(isOpen := t.isOpen, tryCount := t.tryCount, stopMarked := r.stopMarked || t.stop), t.wait)
    else
      var r1 := if r.started then r else r.(started := true, time := 0);
      if |r1.queue| >= AudioCacheCount then (DrainAudio(r1, k), 15)
      else
        match k.read
        case ReadFailed => (r1, 10)
        case EndOfStream => (r1.(eosPosted := true, stopMarked := true), 0)
        case Packet(isVideo) =>
          var r2 := if isVideo then r1
                    else r1.(queue := r1.queue + k.decoded, durs := r1.durs + k.decodedDurs,
                             taken := r1.taken + k.decoded);
          var r3 := DrainAudio(r2, k);
          (r3, if |r3.queue| >= AudioCacheCount then 15 else 0)
  }

  /** With positive durations the audio reader posts strictly increasing
      times within a drain. */
  lemma AudioStampsIncrease(r: AudioReader, k: Tick, i: nat, j: nat)
    requires AudioWellFormed(r)
    requires forall n :: 0 <= n < |r.durs| ==> r.durs[n] > 0
    requires var a := Drain(r.queue, r.durs, r.time, k.elapsed, k.realTime, k.audioAnswers);
      i < j < |a.posts|
    ensures var a := Drain(r.queue, r.durs, r.time, k.elapsed, k.realTime, k.audioAnswers);
      a.posts[i].time < a.posts[j].time
  {
    DrainPosts(r.queue, r.durs, r.time, k.elapsed, k.realTime, k.audioAnswers);
    ClockIncreases(r.durs, r.time, i, j);
  }
}

=== FILE: sample_pools.dfy ===
/** The two concrete pools (`AudioSamplePool` in `AudioSample.cs`,
    `VideoSamplePool` in `VideoSample.cs`). Each fixes the batch size, builds
    payloads with the sample constructors, and makes its own construction fail
    when the first batch cannot be allocated. `mallocs` supplies the native
    allocator's answer for each sample of a batch, in order. */
module SamplePools {
  import opened Common
  import opened AudioFormats
  import opened VideoFormats
  import opened Samples
  import opened Pooling

  /** The audio `Allocate` loop: construct samples until one constructor
      raises; the samples built before that are kept. */
  function AudioBatch(n: int, rate: int, ch: int, f: AudioSampleFormat, mallocs: seq<bool>): (made: seq<AudioSample>)
    ensures |made| <= |mallocs|
    ensures forall i :: 0 <= i < |made| ==> NewAudioSample(n, rate, ch, f, mallocs[i]) == Ok(made[i])
    ensures |made| < |mallocs| ==> NewAudioSample(n, rate, ch, f, mallocs[|made|]).Throw?
    decreases |mallocs|
  {
    if |mallocs| == 0 then []
    else match NewAudioSample(n, rate, ch, f, mallocs[0])
      case Throw(_) => []
      case Ok(s) => [s] + AudioBatch(n, rate, ch, f, mallocs[1..])
  }

  /** A batch is complete exactly when the parameters are acceptable and every
      native allocation succeeds. */
  lemma {:induction false} AudioBatchComplete(n: int, rate: int, ch: int, f: AudioSampleFormat, mallocs: seq<bool>)
    ensures |AudioBatch(n, rate, ch, f, mallocs)| == |mallocs| <==>
      (|mallocs| == 0 || (n != 0 && rate != 0 && ch != 0 && FixedWidth(f)))
      && forall i :: 0 <= i < |mallocs| ==> mallocs[i]
    decreases |mallocs|
  {
    if |mallocs| > 0 {
      AudioBatchComplete(n, rate, ch, f, mallocs[1..]);
      assert forall i :: 1 <= i < |mallocs| ==> mallocs[i] == mallocs[1..][i - 1];
    }
  }

  /** `new AudioSamplePool(...)`: a pool of capacity 12 (default maximum) whose
      construction raises unless the first batch is complete. */
  function NewAudioSamplePool(n: int, rate: int, ch: int, f: AudioSampleFormat, mallocs: seq<bool>)
    : (r: Outcome<World<AudioSample>>)
    requires |mallocs| == AudioCacheCount
    ensures r.Ok? <==> (n != 0 && rate != 0 && ch != 0 && FixedWidth(f)
                        && forall i :: 0 <= i < |mallocs| ==> mallocs[i])
    ensures r.Throw? ==> r.fault == InvalidProgram
    ensures r.Ok? ==> Invariant(r.value)
    ensures r.Ok? ==> r.value.pool.capacity == 12 && r.value.pool.max == 100
    ensures r.Ok? ==> r.value.pool.total == 12 && |r.value.pool.free| == 12 && |r.value.handles| == 12
    ensures r.Ok? ==> forall i :: 0 <= i < 12 ==>
      r.value.handles[i].index == i && r.value.handles[i].refCount == 1
      && r.value.handles[i].attached && ValidAudio(r.value.handles[i].data)
      && r.value.handles[i].data.sampleCount == n
  {
    var w := NewPool<AudioSample>(AudioCacheCount, DefaultMax);
    var made := AudioBatch(n, rate, ch, f, mallocs);
    AudioBatchComplete(n, rate, ch, f, mallocs);
    var (w1, ok) := Allocate(w, made);
    if !ok then Throw(InvalidProgram) else Ok(w1)
  }

  /** `Get` on an audio pool: a new batch, when needed, is built by the audio
      `Allocate` loop. */
  function GetAudio(w: World<AudioSample>, n: int, rate: int, ch: int, f: AudioSampleFormat, mallocs: seq<bool>)
    : (r: Res<AudioSample, Taken>)
    requires w.pool.capacity == AudioCacheCount && |mallocs| == AudioCacheCount
    ensures Invariant(w) ==> Invariant(r.world)
    ensures r.out.Throw? ==> |w.pool.free| == 0
    ensures r.out.Throw? ==>
              !((n != 0 && rate != 0 && ch != 0 && FixedWidth(f)) && forall i :: 0 <= i < |mallocs| ==> mallocs[i])
    ensures r.world.pool.total <= w.pool.total + AudioCacheCount
  {
    AudioBatchComplete(n, rate, ch, f, mallocs);
    GetKeepsInvariant(w, AudioBatch(n, rate, ch, f, mallocs));
    Get(w, AudioBatch(n, rate, ch, f, mallocs))
  }

  /** The video `Allocate` loop: the video constructor never raises (a failed
      native allocation only leaves the buffer absent), so a batch is always
      complete. */
  function VideoBatch(width: int, height: int, f: VideoSampleFormat, mallocs: seq<bool>): (made: seq<VideoSample>)
    ensures |made| == |mallocs|
    ensures forall i :: 0 <= i < |made| ==> made[i] == NewVideoSample(width, height, f, mallocs[i])
  {
    seq(|mallocs|, i requires 0 <= i < |mallocs| => NewVideoSample(width, height, f, mallocs[i]))
  }

  /** `new VideoSamplePool(...)`: a pool of capacity 6; its first batch always
      completes, so construction never raises. */
  function NewVideoSamplePool(width: int, height: int, f: VideoSampleFormat, mallocs: seq<bool>)
    : (r: Outcome<World<VideoSample>>)
    requires |mallocs| == VideoCacheCount
    ensures r.Ok?
    ensures Invariant(r.value)
    ensures r.value.pool.capacity == 6 && r.value.pool.max == 100
    ensures r.value.pool.total == 6 && |r.value.pool.free| == 6 && |r.value.handles| == 6
    ensures forall i :: 0 <= i < 6 ==>
      r.value.handles[i].index == i && r.value.handles[i].refCount == 1
      && r.value.handles[i].data.bufferLength == GetDefaultStride(f, width) * height
  {
    var w := NewPool<VideoSample>(VideoCacheCount, DefaultMax);
    var (w1, ok) := Allocate(w, VideoBatch(width, height, f, mallocs));
    if !ok then Throw(InvalidProgram) else Ok(w1)
  }

  /** `Get` on a video pool never raises. */
  function GetVideo(w: World<VideoSample>, width: int, height: int, f: VideoSampleFormat, mallocs: seq<bool>)
    : (r: Res<VideoSample, Taken>)
    requires w.pool.capacity == VideoCacheCount && |mallocs| == VideoCacheCount
    ensures r.out.Ok?
    ensures Invariant(w) ==> Invariant(r.world)
  {
    GetKeepsInvariant(w, VideoBatch(width, height, f, mallocs));
    Get(w, VideoBatch(width, height, f, mallocs))
  }
}

=== FILE: samples.dfy ===
/** Audio and video sample buffers (`AudioSample.cs`, `VideoSample.cs`). A
    buffer is modelled by its lengths and a flag telling whether native memory
    is still held; `frees` counts how often that memory was handed back. The
    native allocator is an oracle (`mallocOk`). */
module Samples {
  import opened Common
  import opened AudioFormats
  import opened VideoFormats

  datatype AudioSample = AudioSample(
    channelCount: int,
    sampleRate: int,
    format: AudioSampleFormat,
    isWrapper: bool,
    sampleCount: int,
    dataLength: int,
    bufferLength: int,
    hasBuffer: bool,
    disposed: bool,
    frees: nat)

  /** What every constructed audio sample satisfies: its format has a fixed
      width, the channel count is non-zero, the buffer is freed at most once,
      and a wrapper never frees the memory it wraps. */
  predicate ValidAudio(s: AudioSample) {
    && FixedWidth(s.format)
    && s.channelCount != 0
    && s.frees <= 1
    && (s.frees == 1 ==> !s.hasBuffer && s.disposed)
    && (s.isWrapper ==> s.frees == 0)
  }

  /** The owning constructor: rejects a zero count, channel count or rate,
      then a format without a fixed width, then a failed allocation. The
      buffer holds the data plus 128 spare samples. */
  function NewAudioSample(sampleCount: int, sampleRate: int, channels: int,
                          format: AudioSampleFormat, mallocOk: bool): (r: Outcome<AudioSample>)
    ensures (sampleCount == 0 || channels == 0 || sampleRate == 0) ==> r == Throw(InvalidArgument)
    ensures sampleCount != 0 && channels != 0 && sampleRate != 0 && !FixedWidth(format) ==>
      r == Throw(InvalidOperation)
    ensures r.Ok? <==> sampleCount != 0 && channels != 0 && sampleRate != 0 && FixedWidth(format) && mallocOk
    ensures r.Throw? && sampleCount != 0 && channels != 0 && sampleRate != 0 && FixedWidth(format) ==>
      r.fault == OutOfMemory
    ensures r.Ok? ==> ValidAudio(r.value) && !r.value.isWrapper && r.value.hasBuffer && !r.value.disposed
    ensures r.Ok? ==> r.value.sampleCount == sampleCount
    ensures r.Ok? ==> r.value.dataLength == sampleCount * channels * Bytes(format)
    ensures r.Ok? ==> r.value.bufferLength - r.value.dataLength == 128 * Bytes(format)
  {
    if sampleCount == 0 || channels == 0 || sampleRate == 0 then Throw(InvalidArgument)
    else
      var bits :- GetBitsPerSample(format);
      var bytes := TruncDiv(bits, 8);
      var dataLength := sampleCount * channels * bytes;
      if !mallocOk then Throw(OutOfMemory)
      else Ok(AudioSample(channels, sampleRate, format, false, sampleCount, dataLength,
                          dataLength + 128 * bytes, true, false, 0))
  }

  /** The wrapping constructor: the sample borrows `length` bytes and never
      frees them. The count divides by the width first and the channel count
      second, each division truncating. */
  function WrapAudioSample(length: int, sampleRate: int, channels: int,
                           format: AudioSampleFormat): (r: Outcome<AudioSample>)
    ensures !FixedWidth(format) ==> r == Throw(InvalidOperation)
    ensures FixedWidth(format) && channels == 0 ==> r == Throw(DivideByZero)
    ensures r.Ok? <==> FixedWidth(format) && channels != 0
    ensures r.Ok? ==> ValidAudio(r.value) && r.value.isWrapper && !r.value.disposed
    ensures r.Ok? ==> r.value.dataLength == length && r.value.bufferLength == length
    ensures r.Ok? && length >= 0 && channels > 0 ==>
      r.value.sampleCount == length / (Bytes(format) * channels)
  {
    var bytes :- GetBytesPerSample(format);
    if channels == 0 then Throw(DivideByZero)
    else
      var count := TruncDiv(TruncDiv(length, bytes), channels);
      if length >= 0 && channels > 0 then
        DivDiv(length, bytes, channels);
        Ok(AudioSample(channels, sampleRate, format, true, count, length, length, true, false, 0))
      else
        Ok(AudioSample(channels, sampleRate, format, true, count, length, length, true, false, 0))
  }

  /** `Lock` refuses a disposed sample. */
  function Lock(s: AudioSample): (r: Outcome<()>)
    ensures r.Throw? <==> s.disposed
    ensures r.Throw? ==> r.fault == ObjectDisposed
  {
    if s.disposed then Throw(ObjectDisposed) else Ok(())
  }

  /** `Unlock(d)` records a new data length: refused after disposal or when `d`
      exceeds the buffer; a positive `d` sets the data length and recomputes
      the count (dividing by the channel count first); `d <= 0` keeps both. */
  function Unlock(s: AudioSample, d: int): (r: Outcome<AudioSample>)
    requires ValidAudio(s)
    ensures s.disposed ==> r == Throw(ObjectDisposed)
    ensures !s.disposed && d > s.bufferLength ==> r == Throw(OutOfMemory)
    ensures r.Ok? <==> !s.disposed && d <= s.bufferLength
    ensures r.Ok? && d <= 0 ==> r.value == s
    ensures r.Ok? && d > 0 ==> r.value == s.(dataLength := d, sampleCount := r.value.sampleCount)
    ensures r.Ok? && d > 0 && s.channelCount > 0 ==>
      r.value.sampleCount == d / (s.channelCount * Bytes(s.format))
    ensures r.Ok? ==> ValidAudio(r.value)
  {
    if s.disposed then Throw(ObjectDisposed)
    else if d > s.bufferLength then Throw(OutOfMemory)
    else if d > 0 then
      var count := UnlockedCount(d, s.channelCount, Bytes(s.format));
      Ok(s.(sampleCount := count, dataLength := d))
    else Ok(s)
  }

  /** The count `Unlock` derives from a positive length: the length divided
      by the channel count, then by the sample width, truncating each time. */
  function UnlockedCount(d: int, channels: int, bytes: int): (n: int)
    requires d > 0 && channels != 0 && bytes > 0
    ensures channels > 0 ==> n == d / (channels * bytes)
  {
    var q := TruncDiv(d, channels);
    if channels > 0 then
      assert q == d / channels;
      DivNonNegative(d, channels);
      DivDiv(d, channels, bytes);
      TruncDiv(q, bytes)
    else TruncDiv(q, bytes)
  }

  /** `Sample.Dispose`: the first call releases an owned buffer; a wrapper's
      buffer is never released; later calls do nothing. */
  function DisposeAudio(s: AudioSample): (t: AudioSample)
    requires ValidAudio(s)
    ensures ValidAudio(t) && t.disposed
    ensures s.disposed ==> t == s
    ensures t.frees == s.frees + (if !s.disposed && !s.isWrapper && s.hasBuffer then 1 else 0)
    ensures t.sampleCount == s.sampleCount && t.dataLength == s.dataLength
  {
    if s.disposed then s
    else if !s.isWrapper && s.hasBuffer then s.(hasBuffer := false, frees := s.frees + 1, disposed := true)
    else s.(disposed := true)
  }

  /** A fresh owning sample unlocked at its own data length keeps its count. */
  lemma FullUnlockKeepsCount(n: int, rate: int, ch: int, f: AudioSampleFormat)
    requires n > 0 && rate != 0 && ch > 0 && FixedWidth(f)
    ensures var s := NewAudioSample(n, rate, ch, f, true).value;
      Unlock(s, s.dataLength) == Ok(s)
  {
    var s := NewAudioSample(n, rate, ch, f, true).value;
    var b := Bytes(f);
    assert s.dataLength == ch * (n * b);
    MulLe(ch, 1, n * b);
    DivUnique(s.dataLength, ch, n * b, 0);
    DivUnique(n * b, b, n, 0);
  }

  /** The wrapper's count (width first) and `Unlock`'s count (channels first)
      agree: unlocking a wrapper at its whole length changes nothing. */
  lemma {:induction false} WrapperAgreesWithUnlock(length: int, rate: int, ch: int, f: AudioSampleFormat)
    requires length > 0 && ch > 0 && FixedWidth(f)
    ensures var w := WrapAudioSample(length, rate, ch, f).value;
      Unlock(w, length) == Ok(w)
  {
    assert Bytes(f) * ch == ch * Bytes(f);
  }

  /** Disposing any number of times releases an owned buffer once and a
      wrapped buffer never. */
  function DisposeAudioTimes(s: AudioSample, k: nat): (t: AudioSample)
    requires ValidAudio(s)
    ensures ValidAudio(t)
    decreases k
  {
    if k == 0 then s else DisposeAudioTimes(DisposeAudio(s), k - 1)
  }

  lemma {:induction false} AudioFreedAtMostOnce(s: AudioSample, k: nat)
    requires ValidAudio(s) && !s.disposed && s.frees == 0 && k > 0
    ensures DisposeAudioTimes(s, k).frees == (if !s.isWrapper && s.hasBuffer then 1 else 0)
  {
    if k > 1 {
      var t := DisposeAudio(s);
      StaysDisposed(t, k - 1);
    }
  }

  lemma {:induction false} StaysDisposed(s: AudioSample, k: nat)
    requires ValidAudio(s) && s.disposed
    ensures DisposeAudioTimes(s, k) == s
  {
    if k > 0 {
      StaysDisposed(DisposeAudio(s), k - 1);
    }
  }

  datatype VideoSample = VideoSample(
    width: int,
    height: int,
    format: VideoSampleFormat,
    stride: int,
    bufferLength: int,
    hasBuffer: bool,
    disposed: bool,
    frees: nat)

  /** The video constructor: the row pitch is the format's default stride and
      the buffer holds `height` rows of it (a single plane). A failed native
      allocation leaves the buffer absent and does not throw. */
  function NewVideoSample(width: int, height: int, format: VideoSampleFormat, mallocOk: bool): (s: VideoSample)
    ensures s.width == width && s.height == height && s.format == format
    ensures s.hasBuffer == mallocOk && !s.disposed && s.frees == 0
    ensures height >= 0 && width >= 0 ==> s.bufferLength >= 0
    ensures format == RGB24 && height >= 0 ==>
      3 * width * height <= s.bufferLength < (3 * width + 4) * height + 1
    ensures format in {ARGB32, RGB32} ==> s.bufferLength == 4 * width * height
    ensures format in {VideoSampleFormat.None, H264, MJpeg} ==> s.bufferLength == 0
    ensures s.bufferLength == s.stride * GetDefaultPlaneHeight(format, height, 1)
  {
    var stride := GetDefaultStride(format, width);
    assert height >= 0 && stride >= 3 * width ==> stride * height >= 3 * width * height by {
      if height >= 0 && stride >= 3 * width {
        MulMono(3 * width, stride, height);
      }
    }
    assert format == RGB24 && height >= 0 ==> stride * height <= (3 * width + 3) * height by {
      if format == RGB24 && height >= 0 {
        MulMono(stride, 3 * width + 3, height);
      }
    }
    VideoSample(width, height, format, stride, stride * height, mallocOk, false, 0)
  }

  lemma MulMono(a: int, b: int, c: int)
    requires a <= b && c >= 0
    ensures a * c <= b * c
  {
  }

  /** `VideoSample.Dispose`: frees a held buffer once and forgets it. */
  function DisposeVideo(s: VideoSample): (t: VideoSample)
    ensures t.disposed && !t.hasBuffer
    ensures s.disposed ==> t == s.(hasBuffer := false)
    ensures t.frees == s.frees + (if !s.disposed && s.hasBuffer then 1 else 0)
    ensures t.bufferLength == s.bufferLength && t.stride == s.stride
  {
    if s.disposed then s.(hasBuffer := false)
    else if s.hasBuffer then s.(hasBuffer := false, frees := s.frees + 1, disposed := true)
    else s.(disposed := true)
  }

  /** A second dispose frees nothing more. */
  lemma VideoDisposeIdempotent(s: VideoSample)
    ensures DisposeVideo(DisposeVideo(s)) == DisposeVideo(s)
    ensures DisposeVideo(s).frees <= s.frees + 1
  {
  }
}

=== FILE: sessions.dfy ===
/** The sessions an application builds from a reader (`VideoFileTranscoder`,
    `VideoReader`, `RealTimePcmReader`): each is a listener with a small
    queue of cloned samples that its own worker cycle processes one at a
    time, and each completes once the end-of-stream sentinel has arrived and
    its queue has run dry. The user's processor is an oracle; the three
    sessions differ only in the sample type they accept, in whether the
    reader must be open for a cycle to run, and in what completion waits
    for. */
module Sessions {
  import opened Common
  import opened Events
  import Encoders
  import Sinkers

  datatype Session = Session(
    kind: SampleKind,       // the sample type the session queues
    hasProcessor: bool,     // a processor was supplied
    readerOpen: bool,       // the reader opened in the constructor
    queue: seq<nat>,        // cloned handles waiting, oldest first
    cloned: seq<nat>,
    released: seq<nat>,
    processed: seq<nat>,    // samples handed to the processor
    forwarded: seq<Event>,  // payloads passed on through `Post`
    preCompleted: bool,     // the end-of-stream sentinel has arrived
    completed: bool,
    stopMarked: bool)

  function NewSession(kind: SampleKind, hasProcessor: bool, readerOpen: bool): (s: Session)
    ensures |s.queue| == 0 && !s.preCompleted && !s.completed && Accounted(s)
  {
    Session(kind, hasProcessor, readerOpen, [], [], [], [], [], false, false, false)
  }

  predicate Accounted(s: Session) {
    Ledger(s.cloned, s.released, s.queue)
  }

  /** Every session bounds its queue by the video cache count, also the
      audio one. */
  const SessionCeiling: int := VideoCacheCount

  /** `QueueEvent`: a sample of the session's type, when there is a
      processor, is cloned into the queue below the ceiling; the sentinel
      marks the stream complete and is accepted; anything else is passed on
      and the answer of that `Post` (`postOk`) is returned. */
  function QueueEvent(s: Session, ev: Event, cloneOk: bool, postOk: bool): (r: Outcome<(Session, bool)>)
    ensures r.Throw? <==>
      ev.PooledEvent? && ev.kind == s.kind && s.hasProcessor && |s.queue| < SessionCeiling && !cloneOk
    ensures r.Throw? ==> r.fault == ObjectDisposed
    ensures ev.PooledEvent? && ev.kind == s.kind && s.hasProcessor && |s.queue| < SessionCeiling && cloneOk ==>
      r == Ok((s.(queue := s.queue + [ev.id], cloned := s.cloned + [ev.id]), true))
    ensures ev.PooledEvent? && ev.kind == s.kind && s.hasProcessor && |s.queue| >= SessionCeiling ==>
      r == Ok((s, false))
    ensures ev == EosEvent ==> r == Ok((s.(preCompleted := true), true))
    ensures !(ev.PooledEvent? && ev.kind == s.kind && s.hasProcessor) && ev != EosEvent ==>
      r == Ok((s.(forwarded := s.forwarded + [ev]), postOk))
    ensures r.Ok? && Accounted(s) ==> Accounted(r.value.0)
    ensures r.Ok? && |s.queue| <= SessionCeiling ==> |r.value.0.queue| <= SessionCeiling
  {
    match ev
    case PooledEvent(id, k) =>
      if k == s.kind && s.hasProcessor then
        if |s.queue| >= SessionCeiling then Ok((s, false))
        else if !cloneOk then Throw(ObjectDisposed)
        else Ok((s.(queue := s.queue + [id], cloned := s.cloned + [id]), true))
      else Ok((s.(forwarded := s.forwarded + [ev]), postOk))
    case EosEvent => Ok((s.(preCompleted := true), true))
    case _ => Ok((s.(forwarded := s.forwarded + [ev]), postOk))
  }

  /** A sample of the session's own type goes downstream unqueued when there
      is no processor: the session is then a pass-through. */
  lemma NoProcessorForwards(s: Session, id: nat, cloneOk: bool, postOk: bool)
    requires !s.hasProcessor
    ensures QueueEvent(s, PooledEvent(id, s.kind), cloneOk, postOk) ==
      Ok((s.(forwarded := s.forwarded + [PooledEvent(id, s.kind)]), postOk))
  {
  }

  /** `Start` refuses when the reader did not open; otherwise it clears the
      completion flag. */
  function Start(s: Session): (r: (Session, bool))
    ensures r.1 <==> s.readerOpen
    ensures r.1 ==> r.0 == s.(completed := false)
    ensures !r.1 ==> r.0 == s
  {
    if !s.readerOpen then (s, false) else (s.(completed := false), true)
  }

  /** Taking the oldest queued sample, handing it to the processor and
      releasing it. */
  function ProcessHead(s: Session): (r: Session)
    requires |s.queue| > 0
    ensures r.queue == s.queue[1..]
    ensures r.processed == s.processed + [s.queue[0]]
    ensures r.released == s.released + [s.queue[0]]
    ensures Accounted(s) ==> Accounted(r)
  {
    assert s.queue == [s.queue[0]] + s.queue[1..];
    s.(queue := s.queue[1..], processed := s.processed + [s.queue[0]], released := s.released + [s.queue[0]])
  }

  /** Completion: the flag is set and the worker asked to stop. */
  function Complete(s: Session): (r: Session)
    ensures r.completed && r.stopMarked
    ensures r.queue == s.queue && r.released == s.released && r.cloned == s.cloned
  {
    s.(completed := true, stopMarked := true)
  }

  /** The cycle of `VideoReader` and of `RealTimePcmReader`; only the latter
      waits (30 ms) while its reader is not open (`gated`). */
  function ReaderCycle(s: Session, gated: bool): (r: (Session, int))
    ensures gated && !s.readerOpen ==> r == (s, 30)
    ensures !(gated && !s.readerOpen) && |s.queue| > 0 ==> r == (ProcessHead(s), 0)
    ensures !(gated && !s.readerOpen) && |s.queue| == 0 ==>
      r == (if s.preCompleted then (Complete(s), 0) else (s, 20))
    ensures r.0.completed ==> s.completed || (s.preCompleted && |s.queue| == 0)
    ensures Accounted(s) ==> Accounted(r.0)
  {
    if gated && !s.readerOpen then (s, 30)
    else if |s.queue| > 0 then (ProcessHead(s), 0)
    else if s.preCompleted then (Complete(s), 0)
    else (s, 20)
  }

  /** Whether any downstream stage of a transcode still has work queued. */
  predicate DownstreamBusy(audio: Encoders.Encoder, video: Encoders.Encoder, sink: Sinkers.Sinker) {
    Encoders.IsEncoding(audio) || Encoders.IsEncoding(video) || Sinkers.IsSinking(sink)
  }

  /** The cycle of `VideoFileTranscoder`: the head sample is processed and
      posted to the encoders (a refused post stops the transcode) and then
      released; completion waits until no encoder is encoding and the sinker
      is not sinking. */
  function TranscodeCycle(s: Session, postOk: bool, audio: Encoders.Encoder, video: Encoders.Encoder,
                          sink: Sinkers.Sinker): (r: (Session, int))
    ensures |s.queue| > 0 ==> r.1 == 0 && r.0 == ProcessHead(s).(stopMarked := s.stopMarked || !postOk)
    ensures |s.queue| == 0 && s.preCompleted && !DownstreamBusy(audio, video, sink) ==> r == (Complete(s), 0)
    ensures |s.queue| == 0 && s.preCompleted && DownstreamBusy(audio, video, sink) ==> r == (s, 20)
    ensures |s.queue| == 0 && !s.preCompleted ==> r == (s, 20)
    ensures r.0.completed && !s.completed ==> s.preCompleted && |s.queue| == 0 && !DownstreamBusy(audio, video, sink)
    ensures Accounted(s) ==> Accounted(r.0)
  {
    if |s.queue| > 0 then
      var p := ProcessHead(s);
      (p.(stopMarked := s.stopMarked || !postOk), 0)
    else if s.preCompleted then
      if DownstreamBusy(audio, video, sink) then (s, 20)
      else (Complete(s), 0)
    else (s, 20)
  }

  /** `k` cycles of a reader session with samples queued process the first
      `k` of them, in queue order (each such cycle is `ProcessHead`, as
      `ReaderCycle` states). */
  function Cycles(s: Session, k: nat): (r: Session)
    requires k <= |s.queue|
    ensures r.queue == s.queue[k..]
    ensures r.processed == s.processed + s.queue[..k]
    ensures r.readerOpen == s.readerOpen && r.preCompleted == s.preCompleted
    decreases k
  {
    if k == 0 then s
    else
      var s1 := ProcessHead(s);
      var r := Cycles(s1, k - 1);
      TakeHeadThenRest(s.processed, s.queue, k);
      r
  }

  /** Processing the head and then `k - 1` more is processing the first `k`. */
  lemma TakeHeadThenRest<T>(done: seq<T>, q: seq<T>, k: nat)
    requires 1 <= k <= |q|
    ensures (done + [q[0]]) + q[1..][..k - 1] == done + q[..k]
  {
    assert q[..k] == [q[0]] + q[1..][..k - 1];
  }

  /** After the sentinel, a reader session processes its whole queue and then
      completes on the next cycle. */
  lemma DrainsThenCompletes(s: Session, gated: bool)
    requires s.preCompleted && (gated ==> s.readerOpen)
    ensures var d := Cycles(s, |s.queue|);
      d.processed == s.processed + s.queue && ReaderCycle(d, gated) == (Complete(d), 0)
  {
    assert s.queue[..|s.queue|] == s.queue;
  }

  /** `OnDisposing`: every queued clone is released. */
  function Dispose(s: Session): (r: Session)
    ensures |r.queue| == 0 && r.released == s.released + s.queue
    ensures Accounted(s) ==> multiset(r.released) == multiset(r.cloned)
  {
    s.(queue := [], released := s.released + s.queue)
  }

  /** The transcoder's constructor raises a too-low video bitrate to three
      bits per pixel of one frame. */
  function BitrateFloor(bitRate: int, width: int, height: int): (r: int)
    ensures r >= bitRate && r >= width * height * 3
    ensures r == bitRate || r == width * height * 3
  {
    if bitRate < width * height * 3 then width * height * 3 else bitRate
  }
}

=== FILE: sinker.dfy ===
/** The sink worker (`Sinker.cs`): a bounded queue of compressed packets
    that are written out one at a time, oldest first, and disposed once
    written. The native `Process` is an oracle. */
module Sinkers {
  import opened Common
  import opened Events

  datatype Sinker = Sinker(
    queue: seq<nat>,      // packets waiting, oldest first
    audio: seq<bool>,     // whether each queued packet is audio
    inited: bool,
    accepted: seq<nat>,   // every packet the sinker took
    disposed: seq<nat>)   // every packet it disposed

  predicate WellFormed(s: Sinker) {
    |s.audio| == |s.queue|
  }

  /** Every packet taken is either still queued or disposed. */
  predicate Accounted(s: Sinker) {
    Ledger(s.accepted, s.disposed, s.queue)
  }

  const NewSinker: Sinker := Sinker([], [], false, [], [])

  predicate IsSinking(s: Sinker) {
    s.inited && |s.queue| > 0
  }

  /** The ceiling that applies to a packet: the audio one or the video one. */
  function PacketCeiling(isAudio: bool): (c: int)
    ensures c == Ceiling(if isAudio then AudioKind else VideoKind)
  {
    if isAudio then AudioCacheCount else VideoCacheCount
  }

  /** `QueueEvent`: a packet is queued (not copied) while the queue is below
      the ceiling for its kind; anything else is refused. */
  function QueueEvent(s: Sinker, ev: Event): (r: (Sinker, bool))
    requires WellFormed(s)
    ensures r.1 <==> ev.PacketEvent? && |s.queue| < PacketCeiling(ev.isAudio)
    ensures r.1 ==> r.0 == s.(queue := s.queue + [ev.packet], audio := s.audio + [ev.isAudio],
                              accepted := s.accepted + [ev.packet])
    ensures !r.1 ==> r.0 == s
    ensures WellFormed(r.0)
    ensures Accounted(s) ==> Accounted(r.0)
  {
    match ev
    case PacketEvent(p, isAudio) =>
      if |s.queue| >= PacketCeiling(isAudio) then (s, false)
      else (s.(queue := s.queue + [p], audio := s.audio + [isAudio], accepted := s.accepted + [p]), true)
    case _ => (s, false)
  }

  /** No queue holds more than twelve packets, and no more than six while a
      video packet is being admitted. */
  lemma QueueStaysBounded(s: Sinker, ev: Event)
    requires WellFormed(s) && |s.queue| <= AudioCacheCount
    ensures |QueueEvent(s, ev).0.queue| <= AudioCacheCount
    ensures ev.PacketEvent? && !ev.isAudio && QueueEvent(s, ev).1 ==> |QueueEvent(s, ev).0.queue| <= VideoCacheCount
  {
  }

  /** `ExecuteCycleLogic`: the oldest packet is written; on success it is
      disposed and the next cycle follows at once, otherwise it stays queued
      and the worker waits 10 ms. */
  function Cycle(s: Sinker, processOk: bool): (r: (Sinker, int))
    requires WellFormed(s)
    ensures |s.queue| == 0 || !processOk ==> r == (s, 10)
    ensures |s.queue| > 0 && processOk ==>
      r.1 == 0 && r.0.queue == s.queue[1..] && r.0.disposed == s.disposed + [s.queue[0]]
    ensures r.0.accepted == s.accepted
    ensures WellFormed(r.0)
    ensures Accounted(s) ==> Accounted(r.0)
  {
    if |s.queue| == 0 || !processOk then (s, 10)
    else
      assert s.queue == [s.queue[0]] + s.queue[1..];
      (s.(queue := s.queue[1..], audio := s.audio[1..], disposed := s.disposed + [s.queue[0]]), 0)
  }

  /** `k` successful cycles dispose the first `k` packets, in queue order. */
  function Drain(s: Sinker, k: nat): (r: Sinker)
    requires WellFormed(s) && k <= |s.queue|
    ensures WellFormed(r)
    ensures r.queue == s.queue[k..]
    ensures r.disposed == s.disposed + s.queue[..k]
    decreases k
  {
    if k == 0 then s
    else
      var r := Drain(Cycle(s, true).0, k - 1);
      assert s.queue[..k] == [s.queue[0]] + s.queue[1..][..k - 1];
      r
  }

  /** `OnDisposing`: every queued packet is disposed. */
  function OnDisposing(s: Sinker): (r: Sinker)
    ensures |r.queue| == 0 && r.disposed == s.disposed + s.queue
    ensures Accounted(s) ==> Accounted(r) && multiset(r.disposed) == multiset(s.accepted)
  {
    s.(queue := [], audio := [], disposed := s.disposed + s.queue)
  }
}

=== FILE: transport.dfy ===
/** Listener registration and fan-out of a `MediaWorker` (`MediaWorker.cs`).
    Listeners are identified by number. A listener's `QueueEvent` is outside
    this module: each call's answer, and the change the call makes to the
    sender's registrations while it runs, are supplied as a `Response`. */
module Transport {
  import opened Common

  /** What one `QueueEvent` call did: accepted or not, and how it changed the
      sender's registration list while it ran (for instance by calling
      `ConnectTo` or `Disconnect`; the identity when it made no change). */
  datatype Response = Response(accepted: bool, edit: seq<nat> -> seq<nat>)

  /** `ConnectTo`: listeners are kept in registration order. */
  function ConnectTo(ls: seq<nat>, id: nat): (r: seq<nat>)
    ensures |r| == |ls| + 1 && r[..|ls|] == ls && r[|ls|] == id
    ensures multiset(r) == multiset(ls) + multiset{id}
  {
    ls + [id]
  }

  /** `Disconnect`: the first registration of the listener goes; the others
      keep their order. */
  function Disconnect(ls: seq<nat>, id: nat): (r: seq<nat>)
    ensures id !in ls ==> r == ls
    ensures id in ls ==> r == ls[..IndexOf(ls, id)] + ls[IndexOf(ls, id) + 1..]
    ensures multiset(r) == multiset(ls) - multiset{id}
  {
    if id in ls then
      RemoveFirstCutsAtFirstOccurrence(ls, id);
      RemoveFirst(ls, id)
    else RemoveFirst(ls, id)
  }

  /** Connecting and then disconnecting a new listener restores the list. */
  lemma ConnectThenDisconnect(ls: seq<nat>, id: nat)
    requires id !in ls
    ensures Disconnect(ConnectTo(ls, id), id) == ls
  {
    var c := ConnectTo(ls, id);
    assert IndexOf(c, id) == |ls| by {
      assert c[|ls|] == id;
      assert forall j :: 0 <= j < |ls| ==> c[j] != id;
    }
  }

  /** Whether any of the calls accepted. */
  predicate AnyAccepted(rs: seq<Response>) {
    exists i :: 0 <= i < |rs| && rs[i].accepted
  }

  lemma AnyAcceptedStep(rs: seq<Response>, i: nat)
    requires i < |rs|
    ensures AnyAccepted(rs[..i + 1]) <==> AnyAccepted(rs[..i]) || rs[i].accepted
  {
    if AnyAccepted(rs[..i + 1]) && !rs[i].accepted {
      var j :| 0 <= j < i + 1 && rs[..i + 1][j].accepted;
      assert rs[..i][j] == rs[j];
    }
    if AnyAccepted(rs[..i]) {
      var j :| 0 <= j < i && rs[..i][j].accepted;
      assert rs[..i + 1][j] == rs[j];
    }
    if rs[i].accepted {
      assert rs[..i + 1][i] == rs[i];
    }
  }

  /** The registration list after the callbacks `rs` ran, in call order. */
  function AfterCallbacks(ls: seq<nat>, rs: seq<Response>): seq<nat>
    decreases |rs|
  {
    if |rs| == 0 then ls else rs[|rs| - 1].edit(AfterCallbacks(ls, rs[..|rs| - 1]))
  }

  /** `Post`: the registration list is copied first, then every listener of
      the copy is called in order, with no short cut once one accepts. The
      result is whether any accepted. Changes a callback makes reach the live
      list only, never the copy being walked. `rs[i]` is the `i`-th call's
      response. */
  method Post(ls: seq<nat>, rs: seq<Response>) returns (accepted: bool, called: seq<nat>, after: seq<nat>)
    requires |rs| == |ls|
    ensures called == ls
    ensures accepted <==> AnyAccepted(rs)
    ensures |ls| == 0 ==> !accepted
    ensures after == AfterCallbacks(ls, rs)
  {
    var snapshot := ls;
    var live := ls;
    accepted := false;
    called := [];
    var i := 0;
    while i < |snapshot|
      invariant 0 <= i <= |snapshot|
      invariant called == snapshot[..i]
      invariant accepted <==> AnyAccepted(rs[..i])
      invariant live == AfterCallbacks(ls, rs[..i])
    {
      called := called + [snapshot[i]];
      AnyAcceptedStep(rs, i);
      if rs[i].accepted {
        accepted := true;
      }
      assert rs[..i + 1][..i] == rs[..i];
      live := rs[i].edit(live);
      i := i + 1;
    }
    assert rs[..i] == rs;
    after := live;
  }

  /** `OnDisposing` forgets every listener. */
  function OnDisposing(ls: seq<nat>): (r: seq<nat>)
    ensures |r| == 0
  {
    []
  }
}

=== FILE: video_info.dfy ===
/** Video sample formats and the default stride and plane-height arithmetic
    (`VideoInfo.cs`). */
module VideoFormats {
  import opened Common

  datatype VideoSampleFormat = None | NV12 | YV12 | YUY2 | RGB24 | RGB32 | ARGB32 | H264 | MJpeg

  /** Row pitch in bytes of a frame `width` pixels wide. RGB24 rows are padded to
      a multiple of four bytes (`((w*3 + 3) >> 2) << 2`; an arithmetic shift
      floors, as Dafny's `/` by a positive divisor does). */
  function GetDefaultStride(f: VideoSampleFormat, width: int): (stride: int)
    ensures f == RGB24 ==> stride % 4 == 0 && 3 * width <= stride < 3 * width + 4
    ensures f in {ARGB32, RGB32} ==> stride == 4 * width
    ensures f in {NV12, YV12} ==> stride == width
    ensures f == YUY2 ==> stride == 2 * width
    ensures f in {None, H264, MJpeg} ==> stride == 0
  {
    match f
    case ARGB32 => width * 4
    case RGB32 => width * 4
    case RGB24 => ((width * 3 + 3) / 4) * 4
    case NV12 => width
    case YV12 => width
    case YUY2 => width * 2
    case _ => 0
  }

  /** Rows in plane `index` (1-based) of a frame `height` rows tall; C#'s
      truncating division is used for the chroma planes. */
  function GetDefaultPlaneHeight(f: VideoSampleFormat, height: int, index: int): (h: int)
    ensures index == 1 ==> h == height
    ensures height >= 0 && index == 2 && f == NV12 ==> h == height / 2
    ensures height >= 0 && (index == 2 || index == 3) && f == YV12 ==> h == height / 4
    ensures index == 3 && f != YV12 ==> h == 0
    ensures index == 2 && f != NV12 && f != YV12 ==> h == 0
    ensures index !in {1, 2, 3} ==> h == 0
    ensures height >= 0 ==> 0 <= h <= height
  {
    if index == 1 then height
    else if index == 2 && f == NV12 then TruncDiv(height, 2)
    else if index == 2 && f == YV12 then TruncDiv(height, 4)
    else if index == 3 && f == YV12 then TruncDiv(height, 4)
    else 0
  }
}

=== FILE: worker.dfy ===
/** The worker lifecycle (`WorkerBase.cs`). Control calls only record the
    wanted state in `desired`; the worker's own thread moves `state` when it
    begins a cycle. The one exception is stopping a worker that was never
    started, which takes effect at once. A control call that has to wait for
    the worker thread answers `Pending`; the wait itself is not modelled. */
module Workers {

  datatype WorkerState = Created | Running | Paused | Stopped

  datatype Worker = Worker(
    state: WorkerState,
    desired: WorkerState,
    disposed: bool,
    disposing: bool,
    cancelled: bool)   // the current cancellation token has been cancelled

  /** What a control call returns: the state at once, or a pending wait. */
  datatype Reply = Now(s: WorkerState) | Pending

  /** What one run of the cycle logic does: asks for a wait, or raises. */
  datatype CycleLogic = Wait(ms: int) | Threw

  const NewWorker: Worker := Worker(Created, Created, false, false, false)

  /** `StartAsync` (and `ResumeAsync`, which has the same guards): ignored by a
      disposed or disposing worker and by a Running or Stopped one; otherwise
      asks for Running. */
  function StartAsync(w: Worker): (r: (Worker, Reply))
    ensures r.0.state == w.state
    ensures (w.disposed || w.disposing || w.state in {Running, Stopped}) ==> r == (w, Now(w.state))
    ensures !(w.disposed || w.disposing || w.state in {Running, Stopped}) ==>
      r == (w.(desired := Running), Pending)
  {
    if w.disposed || w.disposing then (w, Now(w.state))
    else if w.state == Running || w.state == Stopped then (w, Now(w.state))
    else (w.(desired := Running), Pending)
  }

  function ResumeAsync(w: Worker): (r: (Worker, Reply))
    ensures r == StartAsync(w)
  {
    if w.disposed || w.disposing then (w, Now(w.state))
    else if w.state == Running || w.state == Stopped then (w, Now(w.state))
    else (w.(desired := Running), Pending)
  }

  /** `PauseAsync`: only a live Running worker is asked to pause. */
  function PauseAsync(w: Worker): (r: (Worker, Reply))
    ensures r.0.state == w.state
    ensures r.1 == Pending <==> !w.disposed && !w.disposing && w.state == Running
    ensures r.1 == Pending ==> r.0 == w.(desired := Paused)
    ensures r.1 != Pending ==> r == (w, Now(w.state))
  {
    if w.disposed || w.disposing then (w, Now(w.state))
    else if w.state != Running then (w, Now(w.state))
    else (w.(desired := Paused), Pending)
  }

  /** `StopAsync`: a never-started worker stops at once; a stopped one answers
      Stopped; a Running or Paused one is asked to stop and its cycle is
      cancelled. */
  function StopAsync(w: Worker): (r: (Worker, Reply))
    ensures (w.disposed || w.disposing) ==> r == (w, Now(w.state))
    ensures !(w.disposed || w.disposing) && w.state in {Created, Stopped} ==>
      r == (w.(state := Stopped), Now(Stopped))
    ensures !(w.disposed || w.disposing) && w.state in {Running, Paused} ==>
      r == (w.(desired := Stopped, cancelled := true), Pending)
    ensures r.0.state == w.state || (w.state == Created && r.0.state == Stopped)
  {
    if w.disposed || w.disposing then (w, Now(w.state))
    else
      var w1 := if w.state == Created then w.(state := Stopped) else w;
      if w1.state == Stopped then (w1, Now(Stopped))
      else (w1.(desired := Stopped, cancelled := true), Pending)
  }

  /** `MarkAsStop`: the worker asks itself to stop. */
  function MarkAsStop(w: Worker): (r: Worker)
    ensures r.desired == Stopped
    ensures r.state == w.state && r.disposed == w.disposed && r.disposing == w.disposing
    ensures r.cancelled == w.cancelled
  {
    w.(desired := Stopped)
  }

  /** The outcome of `TryBeginCycle`: whether a cycle runs, and which hooks
      were called. */
  datatype Begin = Begin(worker: Worker, began: bool, startCalled: bool, stopCalled: bool)

  /** `TryBeginCycle`. A stopped worker does nothing. Otherwise a Created worker
      asked to run calls its `Start` hook (`startOk` is its answer), and a
      failed start turns into a stop request; a stop request calls the `Stop`
      hook; then the wanted state becomes the state, and the cycle runs unless
      it is Stopped. */
  function TryBeginCycle(w: Worker, startOk: bool): (r: Begin)
    ensures w.state == Stopped ==> r == Begin(w, false, false, false)
    ensures w.state != Stopped ==> r.worker.state == r.worker.desired
    ensures r.startCalled <==> w.state == Created && w.desired == Running
    ensures r.stopCalled <==> w.state != Stopped && r.worker.desired == Stopped
    ensures w.state != Stopped ==>
      r.worker.desired == (if r.startCalled && !startOk then Stopped else w.desired)
    ensures !r.began <==> r.worker.state == Stopped
    ensures r.worker.disposed == w.disposed && r.worker.disposing == w.disposing
    ensures r.worker.cancelled == w.cancelled
  {
    if w.state == Stopped then Begin(w, false, false, false)
    else
      var startCalled := w.state == Created && w.desired == Running;
      var w1 := if startCalled && !startOk then MarkAsStop(w) else w;
      var stopCalled := w1.desired == Stopped;
      var w2 := w1.(state := w1.desired);
      Begin(w2, w2.state != Stopped, startCalled, stopCalled)
  }

  /** The result of `ExecuteCyle`: the new worker, the wait, and whether the
      cycle logic ran. */
  datatype Cycle = Cycle(worker: Worker, wait: int, ran: bool)

  /** `ExecuteCyle(defaultTime)`: a cancelled token is replaced by a fresh one;
      the cycle logic runs only on a Running worker and its answer is the
      wait; a raised exception asks the worker to stop and waits 0. */
  function ExecuteCycle(w: Worker, defaultTime: int, logic: CycleLogic): (r: Cycle)
    ensures !r.worker.cancelled
    ensures r.ran <==> w.state == Running
    ensures !r.ran ==> r.wait == defaultTime && r.worker == w.(cancelled := false)
    ensures r.ran && logic.Wait? ==> r.wait == logic.ms && r.worker == w.(cancelled := false)
    ensures r.ran && logic.Threw? ==> r.wait == 0 && r.worker == w.(cancelled := false, desired := Stopped)
    ensures r.worker.state == w.state
  {
    var w1 := w.(cancelled := false);
    if w1.state == Running then
      match logic
      case Wait(ms) => Cycle(w1, ms, true)
      case Threw => Cycle(MarkAsStop(w1), 0, true)
    else Cycle(w1, defaultTime, false)
  }

  /** `Dispose`: a disposed worker is left alone; otherwise the worker is
      asked to stop and then torn down, ending disposed and no longer
      disposing. `OnDisposing` is called exactly when the teardown happens. A
      worker caught mid-teardown (disposing) is left as it is. */
  function Dispose(w: Worker): (r: (Worker, bool))
    ensures w.disposed || w.disposing ==> r == (w, false)
    ensures !w.disposed && !w.disposing ==> r.1 && r.0.disposed && !r.0.disposing
    ensures !w.disposed && !w.disposing ==> r.0 == StopAsync(w).0.(disposed := true)
    ensures !w.disposed && !w.disposing && w.state in {Created, Stopped} ==> r.0.state == Stopped
    ensures r.0.state == w.state || (w.state == Created && r.0.state == Stopped)
  {
    if w.disposed then (w, false)
    else
      var w1 := StopAsync(w).0;
      if w1.disposed || w1.disposing then (w1, false)
      else (w1.(disposing := false, disposed := true), true)
  }

  /** Every step a worker can take. */
  datatype Step =
    | StartStep
    | PauseStep
    | ResumeStep
    | StopStep
    | MarkStep
    | BeginStep(startOk: bool)
    | CycleStep(defaultTime: int, logic: CycleLogic)
    | DisposeStep

  function Apply(w: Worker, s: Step): (r: Worker)
    ensures w.state == Stopped ==> r.state == Stopped
    ensures !w.disposing ==> !r.disposing
    ensures w.disposed ==> r.disposed
    ensures r.state != w.state ==>
      s.BeginStep? || (s in {StopStep, DisposeStep} && w.state == Created && r.state == Stopped)
  {
    match s
    case StartStep => StartAsync(w).0
    case PauseStep => PauseAsync(w).0
    case ResumeStep => ResumeAsync(w).0
    case StopStep => StopAsync(w).0
    case MarkStep => MarkAsStop(w)
    case BeginStep(ok) => TryBeginCycle(w, ok).worker
    case CycleStep(d, logic) => ExecuteCycle(w, d, logic).worker
    case DisposeStep => Dispose(w).0
  }

  function Run(w: Worker, steps: seq<Step>): (r: Worker)
    decreases |steps|
  {
    if |steps| == 0 then w else Run(Apply(w, steps[0]), steps[1..])
  }

  /** Stopped is terminal: no sequence of control calls, cycles or disposal
      moves a stopped worker out of Stopped. */
  lemma {:induction false} StoppedIsTerminal(w: Worker, steps: seq<Step>)
    requires w.state == Stopped
    ensures Run(w, steps).state == Stopped
    decreases |steps|
  {
    if |steps| > 0 {
      StoppedIsTerminal(Apply(w, steps[0]), steps[1..]);
    }
  }

  /** Only the worker thread changes the state, apart from stopping a worker
      that never started: a run of control calls alone leaves a started worker's
      state where it was. */
  lemma {:induction false} ControlCallsKeepState(w: Worker, steps: seq<Step>)
    requires w.state != Created
    requires forall i :: 0 <= i < |steps| ==> !steps[i].BeginStep?
    ensures Run(w, steps).state == w.state
    decreases |steps|
  {
    if |steps| > 0 {
      ControlCallsKeepState(Apply(w, steps[0]), steps[1..]);
    }
  }

  /** Starting a new worker: after `StartAsync` the first cycle calls the
      `Start` hook; success makes the worker Running, failure stops it and
      calls the `Stop` hook. */
  lemma StartThenBegin(startOk: bool)
    ensures var b := TryBeginCycle(StartAsync(NewWorker).0, startOk);
      b.startCalled && (b.began <==> startOk)
      && (startOk ==> b.worker.state == Running && !b.stopCalled)
      && (!startOk ==> b.worker.state == Stopped && b.stopCalled)
  {
  }

  /** A worker that raised in its cycle stops at its next cycle start. */
  lemma ThrowStopsAtNextBegin(w: Worker, ok: bool)
    requires w.state == Running
    ensures var c := ExecuteCycle(w, 20, Threw);
      var b := TryBeginCycle(c.worker, ok);
      c.wait == 0 && !b.began && b.stopCalled && b.worker.state == Stopped
  {
  }
}
